=== FILE: README.md ===
# Jira AI Companion — a Dafny model of the dashboard core

This project models the server-side core of the Jira AI Companion
dashboard:

- the tracker client: search paging, and the board, sprint, worklog,
  sprint-report and burndown fetchers;
- the shared JQL constants and formatters;
- the Kanban metrics endpoint, which reports a status histogram, eight
  weekly throughput buckets, the average lead time and the work in
  progress;
- the sprints endpoint, which chooses a board, orders the closed sprints
  and computes velocity;
- the weekly and planning report generators;
- the report-filters dialog, which fills in default dates, toggles users
  and confirms the filters.

Everything is written as pure functions over immutable data. The few loops
of the worklog aggregation are methods with invariants.

The surroundings become parameters:

- **Network.** Every call to the tracker is a function from the request to
  `Result<...>`. An `Err` is a thrown error.
- **Clock.** The current time is an integer: milliseconds, or a day number.
- **Configuration.** The configured board id is a number, with 0 meaning
  unset.
- **Language model.** The model's outcome is the value `LlmOutcome`.

A report's markdown is represented by the sequence of its sections, in the
order they are written. Progress callbacks are the sequence of
`(percent, message)` pairs.

Modules, one per source file, plus shared helpers:

| module | file | models |
|---|---|---|
| `Outcomes` | outcomes.dfy | `Option`, `Result` |
| `Text` | text.dfy | `includes`, `toLowerCase`, `join`, number printing, and the parsers that invert them |
| `Collections` | collections.dfy | `filter`, `slice`, sums, duplicate-free key lists |
| `Grouping` | grouping.dfy | grouping into a `Map` / object in first-occurrence key order |
| `StableSort` | stable_sort.dfy | `Array.prototype.sort` with a comparator (stable) |
| `Tracker` | tracker.dfy | issues, worklogs, sprints, boards, day arithmetic |
| `JiraConstants` | jira_constants.dfy | src/shared/config/jira-constants.ts |
| `JiraClient` | jira_client.dfy | src/shared/api/jira.ts |
| `KanbanStats` | kanban_stats.dfy | src/app/api/kanban-stats/route.ts |
| `SprintsRoute` | sprints_route.dfy | src/app/api/sprints/route.ts |
| `ReportKit` | report_kit.dfy | what both report generators share (filters, defaults, progress) |
| `WeeklyReport` | weekly_report.dfy | src/features/reports/lib/weekly-report.ts |
| `PlanningReport` | planning_report.dfy | src/features/reports/lib/planning-report.ts |
| `ReportFiltersModal` | report_filters_modal.dfy | src/features/reports/ui/report-filters-modal.tsx |

JavaScript semantics that matter here are written out:

- `x || y` treats `""`, `0` and absent values as missing, but keeps `[]`.
- `Array.prototype.sort` is stable.
- `Map` and object keys keep their first insertion order.
- `Math.floor` division and the truncating `%` are modelled by `JsRem`.
- `Math.round` is modelled by `RoundDiv`.
- `localeCompare` on ISO timestamps is plain code-point order (`StrLess`).

## Model

| member | source | states |
|---|---|---|
| Text.ContainsChar | src/shared/config/jira-constants.ts:33 | `s.includes(c)` for a one-character `c` holds exactly when `c` occurs in `s` |
| Text.QuotedJoin | src/shared/config/jira-constants.ts:41 | the template `("${xs.join('", "')}")` equals the list of individually quoted values joined with `, `, for any non-empty list |
| Text.ToLowerIdempotent | src/features/reports/lib/weekly-report.ts:44 | lower-casing twice is lower-casing once |
| Text.SplitJoin | src/shared/config/jira-constants.ts:37 | splitting a `, `-joined list of comma-free items gives the items back |
| Text.ParseNatToString | src/features/reports/lib/weekly-report.ts:145 | the decimal text of a natural number reads back as that number |
| Collections.Dedup | src/features/reports/lib/weekly-report.ts:60-62 | the keys an object gets from setting `users` in order: no duplicates and the same members as `users` |
| Collections.DedupOrder | src/features/reports/lib/weekly-report.ts:60-62 | those keys are in first-occurrence order: a key listed earlier occurs in `users` before the first occurrence of any key listed later |
| Collections.FilterFacts | src/features/reports/lib/weekly-report.ts:43-46 | `filter` keeps the passing elements and only them, each as often as it occurs, as many as there are passing positions |
| Collections.FilterAppend | src/features/reports/lib/weekly-report.ts:43-46 | `filter` of a concatenation is the concatenation of the filters, so it keeps input order |
| Grouping.GroupByDistinct | src/app/api/kanban-stats/route.ts:42-45 | grouping by key files every item exactly once and never makes two groups for one key |
| Grouping.GroupByMembers | src/features/reports/lib/planning-report.ts:29-34 | each group holds exactly the items carrying its key, in input order |
| Grouping.GroupByOrder | src/app/api/kanban-stats/route.ts:44 | groups appear in the order in which their keys first occur (`Map` insertion order) |
| Grouping.GroupByCovers | src/features/reports/lib/planning-report.ts:30-33 | every item's key names a group |
| StableSort.SortSorted | src/app/api/kanban-stats/route.ts:53 | for a strict weak order the comparator sort puts no element after one that must follow it |
| StableSort.SortStable | src/app/api/kanban-stats/route.ts:53 | equivalent elements keep their input order (ECMAScript 2019 sort stability): for a strict weak order, each class of equivalent elements appears in the output exactly as in the input, positions and repeats included |
| StableSort.Sort | src/app/api/kanban-stats/route.ts:53 | the sorted output is a permutation of the input |
| Tracker.DayBounds | src/features/reports/lib/weekly-report.ts:22-25 | a timestamp lies between midnight and 23:59:59.999 of its own day |
| JiraConstants.QuoteEach | src/shared/config/jira-constants.ts:31-36 | each status is written quoted exactly when it contains a space or a hyphen, order kept |
| JiraConstants.FormatStatusForNotIn | src/shared/config/jira-constants.ts:30-38 | the `NOT IN` list reads back, split at commas and unquoted, as the original statuses when none has a comma or quote; an empty list gives the empty text |
| JiraConstants.NotInRoundTrip | src/shared/config/jira-constants.ts:30-38 | the same round trip as a lemma over any non-empty list of plain statuses |
| JiraConstants.ActiveUsersFilter | src/shared/config/jira-constants.ts:41 | `assignee IN (...)` lists every user quoted and comma-separated; an empty list yields the one literal `""` |
| JiraConstants.IsInReview | src/shared/config/jira-constants.ts:45 | `status IN (...)` quotes every status, spaces or not |
| JiraConstants.ExclusionsQuoting | src/shared/config/jira-constants.ts:9-18 | in the configured exclusion list the six one-word statuses stay bare and `To Do` and `К выполнению` are quoted |
| JiraClient.SearchRequest | src/shared/api/jira.ts:46-52 | the body always carries the JQL and `fields: ['*all']`; `startAt` is sent only when positive, `maxResults` only when it differs from 50 |
| JiraClient.SearchRequestDefaults | src/shared/api/jira.ts:51-52 | an endpoint defaulting an omitted `startAt` to 0 and `maxResults` to 50 sees the values the caller asked for |
| JiraClient.Normalize | src/shared/api/jira.ts:58-66 | issues are `issues`, else `values`, else empty; `total` defaults to the number of issues; `startAt`/`maxResults` fall back to the request's when absent or zero |
| JiraClient.NormalizeComplete | src/shared/api/jira.ts:58-66 | a response with every property set (non-zero paging numbers) passes through unchanged |
| JiraClient.SearchIssues | src/shared/api/jira.ts:40-73 | a failed call is rethrown; a successful one is the normalised response to the built request |
| JiraClient.GetAllIssuesIsFetched | src/shared/api/jira.ts:78-94 | `getAllIssues` returns the pages at offsets 0, 100, 200, … concatenated up to and including the first round that fails (its error) or brings the count to the reported total |
| JiraClient.CollectFetched | src/shared/api/jira.ts:83-91 | the loop from any round agrees with that reference definition |
| JiraClient.GetAllIssuesSnapshot | src/shared/api/jira.ts:78-94 | paging an endpoint that serves a fixed result set returns exactly that set, in order |
| JiraClient.SnapshotHonours | src/shared/api/jira.ts:83-91 | such an endpoint keeps the paging contract the loop's termination needs |
| JiraClient.ListOrEmpty | src/shared/api/jira.ts:114-119 | `data.x || []` inside a `try` whose `catch` returns `[]`: a failure or a missing list is empty, otherwise the list |
| JiraClient.BoardsQuery | src/shared/api/jira.ts:158-162 | `maxResults=50`, then `projectKeyOrId` only when a non-empty one is given |
| JiraClient.SprintsQuery | src/shared/api/jira.ts:187-189 | the state filter first when a non-empty state is given, then `maxResults=50` |
| JiraClient.GetBoards | src/shared/api/jira.ts:156-172 | the boards the endpoint lists, or none when the request fails or lists nothing |
| JiraClient.GetSprints | src/shared/api/jira.ts:185-199 | the sprints the endpoint lists, or none when the request fails or lists nothing |
| JiraClient.GetSprintIssues | src/shared/api/jira.ts:204-216 | one request with `maxResults=200` and the velocity fields; the issues it lists, or none when it fails or lists nothing |
| JiraClient.GetIssueWorklogs | src/shared/api/jira.ts:111-121 | the worklogs the endpoint lists, or none when the request fails or lists nothing |
| JiraClient.FindScrumBoard | src/shared/api/jira.ts:177-180 | no board exactly when no board is scrum; otherwise the first scrum board |
| JiraClient.FindScrumBoardFilter | src/shared/api/jira.ts:179 | `find` agrees with the head of the filtered list |
| JiraClient.SprintReportOf | src/shared/api/jira.ts:221-248 | a report exactly when the call succeeds with a sprint; id, name, start, end and completion dates copied; the state is the reported one lower-cased, or `closed` when missing or empty; each issue list is the reported one, or empty when it or `contents` is missing |
| JiraClient.SprintReportState | src/shared/api/jira.ts:230 | for any sprint with a non-empty state, the report's state and the reported one agree up to letter case |
| JiraClient.BurndownOf | src/shared/api/jira.ts:253-274 | no data exactly on failure; the times as reported and the changes or an empty list |
| KanbanStats.KanbanJql | src/app/api/kanban-stats/route.ts:29 | the project quoted, every user quoted in `assignee in (...)`, updated in the last 90 days, newest first |
| KanbanStats.StatusLabel | src/app/api/kanban-stats/route.ts:43 | an issue's bar is its status name, `Unknown` when the name is missing or empty; never empty |
| KanbanStats.ColorOf | src/app/api/kanban-stats/route.ts:34-51 | the five known statuses get their table colour, and exactly the other statuses get the grey fallback |
| KanbanStats.StatusDistributionTotal | src/app/api/kanban-stats/route.ts:42-53 | the bar counts add up to the number of issues |
| KanbanStats.StatusDistributionCounts | src/app/api/kanban-stats/route.ts:42-52 | each bar counts exactly the issues of its status and carries that status's colour; its status is that of some issue, so every count is at least 1 |
| KanbanStats.StatusDistributionCovers | src/app/api/kanban-stats/route.ts:42-47 | every issue's status has a bar (the converse is in StatusDistributionCounts) |
| KanbanStats.StatusDistributionDistinct | src/app/api/kanban-stats/route.ts:42-47 | no status has two bars |
| KanbanStats.StatusDistributionSorted | src/app/api/kanban-stats/route.ts:53 | bars go from the largest count to the smallest |
| KanbanStats.StatusDistributionTies | src/app/api/kanban-stats/route.ts:44-53 | bars with equal counts keep the order in which their statuses first occur among the issues |
| KanbanStats.MoreFrequentOrder | src/app/api/kanban-stats/route.ts:53 | `b.count - a.count` is a strict weak order |
| KanbanStats.Weekday | src/app/api/kanban-stats/route.ts:61 | `getDay()` is in 0..6 |
| KanbanStats.WeekdayPeriodic | src/app/api/kanban-stats/route.ts:61 | weekdays repeat every seven days and 1970-01-01 was a Thursday |
| KanbanStats.SundayStart | src/app/api/kanban-stats/route.ts:61 | `now.getDate() - i*7 - now.getDay()` is a Sunday |
| KanbanStats.WeekAtFacts | src/app/api/kanban-stats/route.ts:59-66 | a bucket starts at a Sunday midnight, ends at 23:59:59.999 six days later, and the next bucket starts one millisecond after it ends |
| KanbanStats.Weeks | src/app/api/kanban-stats/route.ts:56-66 | eight buckets, oldest first, each a whole Sunday-to-Saturday week, contiguous, the last one holding now |
| KanbanStats.WeeksDisjoint | src/app/api/kanban-stats/route.ts:59-66 | no timestamp falls in two buckets |
| KanbanStats.Throughput | src/app/api/kanban-stats/route.ts:68-84 | per bucket, the issues resolved and the issues created inside it, ends included; an issue without a resolution date is never completed |
| KanbanStats.ThroughputPartition | src/app/api/kanban-stats/route.ts:68-78 | summed over the buckets, completed and created count the issues of the whole eight-week span, so neither exceeds the number of issues |
| KanbanStats.CountWithinSplit | src/app/api/kanban-stats/route.ts:72 | cutting an inclusive span in two splits its count |
| KanbanStats.RoundDiv | src/app/api/kanban-stats/route.ts:101 | `Math.round(a / b)` is the integer nearest `a / b`, halves rounding up |
| KanbanStats.RoundDivUnique | src/app/api/kanban-stats/route.ts:101 | that integer is the only one within half of `a / b` |
| KanbanStats.AvgLeadTime | src/app/api/kanban-stats/route.ts:88-102 | 0 without a done-and-resolved issue; otherwise the mean of their lead times in days, rounded |
| KanbanStats.AvgLeadTimeUniform | src/app/api/kanban-stats/route.ts:93-101 | when every sample took exactly `d` days the average is `d` |
| KanbanStats.RoundDivExact | src/app/api/kanban-stats/route.ts:101 | rounding an exact quotient gives the quotient |
| KanbanStats.WipCount | src/app/api/kanban-stats/route.ts:105-108 | the number of positions holding an issue in the in-progress status category |
| KanbanStats.WipAndSamples | src/app/api/kanban-stats/route.ts:88-108 | in-progress issues and lead-time samples never overlap |
| KanbanStats.StatsOf | src/app/api/kanban-stats/route.ts:110-117 | the histogram, the eight weekly points, the average lead time and the WIP count are those of the issues; total is the number of issues, WIP at most that, at most one bar per issue, the configured project |
| KanbanStats.KanbanGet | src/app/api/kanban-stats/route.ts:23-125 | a failed search becomes the 500 answer with its message; otherwise the metrics of the issues the search returns |
| SprintsRoute.EndKey | src/app/api/sprints/route.ts:79-80 | a sprint is ordered by its completion date, else its end date |
| SprintsRoute.EndedLaterOrder | src/app/api/sprints/route.ts:78-82 | `dateB.localeCompare(dateA)` is a strict weak order |
| SprintsRoute.LatestClosed | src/app/api/sprints/route.ts:77-83 | at most ten closed sprints are reported |
| SprintsRoute.LatestClosedSorted | src/app/api/sprints/route.ts:77-83 | they run from the latest end date to the earliest |
| SprintsRoute.LatestClosedAreLatest | src/app/api/sprints/route.ts:77-83 | no closed sprint that is left out ended later than one that is reported |
| SprintsRoute.LatestClosedFromInput | src/app/api/sprints/route.ts:77-83 | every reported sprint is one of the board's closed sprints |
| SprintsRoute.LatestClosedTies | src/app/api/sprints/route.ts:77-83 | two reported sprints with equal end dates occur in that order among the board's sprints |
| SprintsRoute.LatestClosedBoardOrder | src/app/api/sprints/route.ts:77-83 | for every date, the reported sprints ordered by it are the first of the board's sprints ordered by it, in the board's order |
| SprintsRoute.VelocityAsSum | src/app/api/sprints/route.ts:94-103 | the velocity is the sum over all issues of each issue's points when it is done, else 0 |
| SprintsRoute.VelocityBounds | src/app/api/sprints/route.ts:94-103 | with non-negative points the velocity lies between 0 and the sum of all points, and is 0 when nothing is done |
| SprintsRoute.WithVelocity | src/app/api/sprints/route.ts:93-110 | the sprint as given, its issue count, the number of its issues in the done category, and the sum of the done issues' points |
| SprintsRoute.ChosenBoard | src/app/api/sprints/route.ts:18-31 | the configured board when set, else the project's first scrum board, else none |
| SprintsRoute.ReportedSprints | src/app/api/sprints/route.ts:86 | the active sprints first, then the latest closed ones |
| SprintsRoute.Figures | src/app/api/sprints/route.ts:89-112 | each sprint paired with the figures of its own issues, in order |
| SprintsRoute.SprintsGet | src/app/api/sprints/route.ts:17-127 | 404 with the project's boards when no board is found; 400 suggesting the scrum board when the chosen board has no sprints and another scrum board exists; an empty answer when there is none; the empty answer carries the chosen board and the project; otherwise the reported sprints with their figures, board and project |
| SprintsRoute.SprintsGetOrder | src/app/api/sprints/route.ts:86-119 | in a successful answer the active sprints come first and each sprint carries the figures of its own issues |
| ReportKit.EffectiveUsers | src/features/reports/lib/weekly-report.ts:13 | the chosen users when a list was given (even an empty one), else the configured team |
| ReportKit.EffectiveProject | src/features/reports/lib/weekly-report.ts:14 | the chosen project unless it is unset or empty, else the configured one; never empty |
| ReportKit.Advice | src/features/reports/lib/weekly-report.ts:79-102 | the answer when the model answered; nothing when it is not configured or failed |
| ReportKit.FullProgress | src/features/reports/lib/weekly-report.ts:35-138 | progress starts at 10, strictly increases, ends at (100, `Готово`), and passes 70 exactly when the model is configured |
| WeeklyReport.ReportWindow | src/features/reports/lib/weekly-report.ts:18-33 | from midnight of `dateFrom` to the end of `dateTo` (or of today) when a start date is set, else from midnight seven days ago to the end of today; always whole days |
| WeeklyReport.DefaultWindowSpan | src/features/reports/lib/weekly-report.ts:26-33 | the default window spans eight whole days and contains every moment of today |
| WeeklyReport.WeeklyJql | src/features/reports/lib/weekly-report.ts:37 | the inline search equals the project clause, the shared assignee filter and `updated >= -7d` |
| WeeklyReport.CompletedWhenNamed | src/features/reports/lib/weekly-report.ts:43-46 | a task whose status is `done`, `closed` or `готово` in any letter case counts as completed |
| WeeklyReport.CompletedIgnoresCase | src/features/reports/lib/weekly-report.ts:44 | lower-casing the status first changes nothing |
| WeeklyReport.Completed | src/features/reports/lib/weekly-report.ts:43-46 | only found tasks that are completed, every completed one, each as often as it was found, and as many as there are completed positions |
| WeeklyReport.CompletedInOrder | src/features/reports/lib/weekly-report.ts:43-46 | the completed tasks keep the order found: a run of tasks gives its parts' lists in turn, and one task is listed exactly when completed |
| WeeklyReport.CreatedSince | src/features/reports/lib/weekly-report.ts:49-52 | only found tasks created at or after the window start, every such one, each as often as found, and as many as there are such positions |
| WeeklyReport.CreatedSinceInOrder | src/features/reports/lib/weekly-report.ts:49-52 | the recently created tasks keep the order found |
| WeeklyReport.AggregateWorklogs | src/features/reports/lib/weekly-report.ts:57-76 | over the first 100 tasks, the total is the seconds of every worklog started inside the window; each user's figure is that of their own counted worklogs; the keys are exactly the users |
| WeeklyReport.AddLogs | src/features/reports/lib/weekly-report.ts:66-75 | one task's worklogs extend both running figures as the reference sums say |
| WeeklyReport.AddLog | src/features/reports/lib/weekly-report.ts:67-74 | one worklog adds its seconds when it started in the window, and to its author only when the author is tracked |
| WeeklyReport.SeedUsers | src/features/reports/lib/weekly-report.ts:60-62 | every user starts at zero |
| WeeklyReport.UsersWithinTotal | src/features/reports/lib/weekly-report.ts:68-73 | with non-negative worklogs the times of distinct users add up to at most the total |
| WeeklyReport.SharesAtMostOnce | src/features/reports/lib/weekly-report.ts:70-73 | among distinct users a worklog is credited at most once |
| WeeklyReport.FailedFetchAddsNothing | src/shared/api/jira.ts:119 | a task whose worklog fetch fails adds nothing |
| WeeklyReport.JsRem | src/features/reports/lib/weekly-report.ts:144 | JavaScript `%`: equal to the mathematical remainder for non-negative dividends; for negative ones non-positive and congruent |
| WeeklyReport.FormatTime | src/features/reports/lib/weekly-report.ts:142-146 | the text always ends with `м` |
| WeeklyReport.FormatTimeFields | src/features/reports/lib/weekly-report.ts:142-146 | the `ч` part appears exactly when there is a whole hour; the figures read back are the hours and the minutes below 60 left over, down to the last whole minute |
| WeeklyReport.FormatTimeRoundTrip | src/features/reports/lib/weekly-report.ts:142-146 | for non-negative seconds the text reads back as the seconds rounded down to whole minutes |
| WeeklyReport.FormatTimeExamples | src/features/reports/lib/weekly-report.ts:142-146 | 0 and 59 seconds print as `0м`, 3661 as `1ч 1м` |
| WeeklyReport.MemberRows | src/features/reports/lib/weekly-report.ts:117-121 | one row per key of `userTime`, with that user's formatted time |
| WeeklyReport.MemberRowsOrder | src/features/reports/lib/weekly-report.ts:58-121 | every user has exactly one row with their time, and the rows follow the order in which the users were first set |
| WeeklyReport.CompletedPart | src/features/reports/lib/weekly-report.ts:124-130 | the completed list appears only when something was completed, with its first 15 tasks |
| WeeklyReport.Sections | src/features/reports/lib/weekly-report.ts:106-136 | heading, statistics (updated, completed, created, time), members, the optional completed list and advice, footer |
| WeeklyReport.SectionsShape | src/features/reports/lib/weekly-report.ts:124-134 | the completed list appears exactly when something was completed and has 1 to 15 rows; advice appears exactly when there is some |
| WeeklyReport.GenerateWeeklyReport | src/features/reports/lib/weekly-report.ts:9-140 | a failed search propagates after the first progress call; otherwise all progress steps and the sections built from the found tasks, the window total and every user's time |
| PlanningReport.InlineQuoteShared | src/features/reports/lib/planning-report.ts:20-22 | the report's inline quoting agrees with the shared formatter |
| PlanningReport.InlineExclusions | src/features/reports/lib/planning-report.ts:20-22 | the inline exclusion list is the shared `formatStatusForNotIn` text |
| PlanningReport.PlanningJql | src/features/reports/lib/planning-report.ts:23 | the inline search equals the project clause, the shared assignee filter and the shared not-done filter |
| PlanningReport.StatusGroup | src/features/reports/lib/planning-report.ts:31 | a task is grouped under its status name, `Неизвестно` when missing or empty |
| PlanningReport.StatusTableTotal | src/features/reports/lib/planning-report.ts:29-34 | the table's counts add up to the number of tasks |
| PlanningReport.StatusTableRow | src/features/reports/lib/planning-report.ts:29-34 | each row holds exactly the tasks of its status, in task order |
| PlanningReport.StatusTableCovers | src/features/reports/lib/planning-report.ts:30-33 | every task's status has a row |
| PlanningReport.StatusTableDistinct | src/features/reports/lib/planning-report.ts:32 | no status has two rows |
| PlanningReport.StatusTableSorted | src/features/reports/lib/planning-report.ts:82 | rows go from the largest group to the smallest |
| PlanningReport.StatusTableTies | src/features/reports/lib/planning-report.ts:82 | rows of equal size keep the order in which their statuses first occur |
| PlanningReport.BlockedByLabel | src/features/reports/lib/planning-report.ts:39-42 | a `blocked` label in any letter case blocks its task; a task without labels is never blocked |
| PlanningReport.Blocked | src/features/reports/lib/planning-report.ts:39-42 | only found tasks that are blocked, every blocked one, each as often as found, and as many as there are blocked positions |
| PlanningReport.BlockedInOrder | src/features/reports/lib/planning-report.ts:39-42 | the blocked tasks keep the order found |
| PlanningReport.TasksOf | src/features/reports/lib/planning-report.ts:90 | only found tasks assigned to the user, every such one, each as often as found |
| PlanningReport.TasksOfInOrder | src/features/reports/lib/planning-report.ts:90 | a user's tasks keep the order found, so a block lists the first 15 of them |
| PlanningReport.UserBlockOf | src/features/reports/lib/planning-report.ts:89-102 | the no-tasks note exactly when nothing is assigned to the user; otherwise one line per task of the first 15, with the status or `-` |
| PlanningReport.UserBlockLines | src/features/reports/lib/planning-report.ts:96-99 | a block lists at most 15 lines, each from a task of that user |
| PlanningReport.BlockedPart | src/features/reports/lib/planning-report.ts:104-110 | the blocked list appears only when something is blocked, one row per blocked task with its key and summary, in order |
| PlanningReport.Sections | src/features/reports/lib/planning-report.ts:72-116 | heading, summary (active, blocked), status table, one block per user, the optional blocked list and advice, footer |
| PlanningReport.SectionsShape | src/features/reports/lib/planning-report.ts:104-114 | the blocked list appears exactly when some task is blocked; advice exactly when there is some |
| PlanningReport.GeneratePlanningReport | src/features/reports/lib/planning-report.ts:9-120 | a failed search propagates after the first progress call; otherwise all progress steps and the sections built from the found tasks |
| ReportFiltersModal.DefaultDates | src/features/reports/ui/report-filters-modal.tsx:15-43 | daily: yesterday alone; weekly and time: the last 8 days up to today; otherwise the last 31 days up to today |
| ReportFiltersModal.InitialState | src/features/reports/ui/report-filters-modal.tsx:53-57 | the dialog opens with its report's default dates, the whole team selected, and project `DEV` |
| ReportFiltersModal.ToggleUser | src/features/reports/ui/report-filters-modal.tsx:59-65 | the user ends up selected exactly when they were not; a new user is appended; nobody else changes membership |
| ReportFiltersModal.ToggleKeepsOthers | src/features/reports/ui/report-filters-modal.tsx:59-65 | apart from the toggled user the selection is the same list |
| ReportFiltersModal.ToggleTwice | src/features/reports/ui/report-filters-modal.tsx:59-65 | selecting an unselected user and deselecting them restores the selection |
| ReportFiltersModal.Confirm | src/features/reports/ui/report-filters-modal.tsx:67-73 | a cleared date and an empty selection become unset, the rest are passed on; the project is always set |
| ReportFiltersModal.ConfirmEffective | src/features/reports/ui/report-filters-modal.tsx:71 | a confirmed selection is the users a report uses, an empty one falling back to the whole team; the chosen project is the one it uses |
| ReportFiltersModal.WeeklyDefaultsWindow | src/features/reports/ui/report-filters-modal.tsx:27-34 | when writing a day with `iso` and reading it back gives the same day, as it does in UTC, confirming the weekly dialog untouched gives the same window as reporting with no filters |
| ReportFiltersModal.WeeklyDefaultsWindowShifted | src/features/reports/ui/report-filters-modal.tsx:27-34 | when writing and reading back moves a day by `shift` days, the dialog's window is the default window moved by `shift` days, and differs from it for any non-zero shift |

## Left out

- HTTP, axios, environment variables and credentials. Each endpoint is a function parameter, and a thrown error is an `Err`.
- Text.LowerChar: no case folding beyond the basic Latin capitals and the Russian capitals with `Ё`. `toLowerCase` also maps other scripts' capitals and the Kelvin sign, and maps some characters to two. So a label such as `BLOC\u212AED` (with a Kelvin sign) is blocked in the source but not in the model, and a sprint state such as `ÉTÉ` lower-cases differently.
- Logging (`console.*`) and the `jiraHost` links in the markdown. These have no effect on the results.
- The markdown text itself. Reports are sequences of sections holding the same figures.
- The language-model prompt text. Only whether the model was configured, failed or answered is modelled.
- Locale formatting (`toLocaleDateString`, `toLocaleString`) and `toISOString`. The week label of a bucket is its start; the dialog's dates go through a parameter `iso`.
- Time zones and daylight saving. Timestamps are milliseconds of local time, and a day is always 86 400 000 ms.
- ReportFiltersModal.WeeklyDefaultsWindow: the equal-window promise holds only in UTC. The dialog writes local midnight with `toISOString().split('T')[0]`, which east of UTC is the previous date. The weekly report reads `new Date('YYYY-MM-DD')` as UTC midnight and then calls `setHours` in local time, which west of UTC lands on the previous local day. Either way, outside UTC the untouched dialog gives a window one day earlier than reporting with no filters: from eight days ago to the end of yesterday, so today's work is left out. `WeeklyDefaultsWindowShifted` states this with `shift` 1; the time zone itself is not modelled.
- Unparsable date strings (`Invalid Date`) and issues without `created`. In JavaScript these make comparisons false and lead times `NaN`. `created` is a mandatory integer here.
- JiraClient.GetAllIssues: it is modelled only for endpoints that keep the paging contract (`HonoursPageSize`). The source loops forever when an endpoint keeps answering with a total it never reaches.
- Floating-point arithmetic. Story points and worklog seconds are integers, and lead time is averaged in exact arithmetic and then rounded.
- Object keys that look like integers, which JavaScript orders before the others, and keys inherited from `Object.prototype`. Ordinary e-mail keys keep insertion order, which is what is modelled.
- `parseInt` returning `NaN` for a malformed `JIRA_BOARD_ID`. The configured board is an integer, 0 when unset.
- The sprints route's 500 answer. Every fetcher it calls catches its own errors, so for payloads of the declared shape the `catch` of the route is never reached. A malformed payload does reach it, for example an issue without `fields` or a sprint date that is not a string. The model assumes the declared shape.
- The three `getBoards` calls of the sprints route. They are modelled as one deterministic board endpoint.
- JiraClient.GetSprintIssues: only the first page of a sprint's issues is read, as in the source, which sends one request with `maxResults=200` and never pages. For a sprint of more than 200 issues the issue count, done count and velocity cover only the issues on that page.
- The sprint-report and burndown fetchers have no caller in the modelled core. They are modelled on their own, and the burndown route is not part of this model.
- The React rendering of the dialog and its open/close handling. Only its state and handlers are modelled.
- The concrete literal of `IS_IN_REVIEW` and `ACTIVE_USERS_FILTER`. They are stated through `IsInReview(ReviewStatuses)` and `ActiveUsersFilter(ActiveUsers)`.

=== FILE: collections.dfy ===
/** Sequence helpers standing in for the array methods the dashboard uses:
    `filter`, `slice(0, n)`, summing with `reduce`, and the key order of an
    object built from a list. */
module Collections {

  /** `Array.prototype.filter`: the elements satisfying `p`, in order. */
  function Filter<T>(s: seq<T>, p: T -> bool): (r: seq<T>)
    ensures |r| <= |s|
  {
    if |s| == 0 then [] else (if p(s[0]) then [s[0]] else []) + Filter(s[1..], p)
  }

  /** `filter` keeps the passing elements and only them. */
  lemma {:induction false} FilterMembers<T>(s: seq<T>, p: T -> bool)
    ensures forall i :: 0 <= i < |Filter(s, p)| ==> Filter(s, p)[i] in s && p(Filter(s, p)[i])
    ensures forall i :: 0 <= i < |s| && p(s[i]) ==> s[i] in Filter(s, p)
    decreases |s|
  {
    if |s| > 0 {
      FilterMembers(s[1..], p);
      assert forall i :: 1 <= i < |s| ==> s[i] == s[1..][i - 1];
    }
  }

  /** `filter` keeps each passing element as often as it occurs, and
      nothing else. */
  lemma {:induction false} FilterMultiset<T>(s: seq<T>, p: T -> bool, x: T)
    ensures multiset(Filter(s, p))[x] == if p(x) then multiset(s)[x] else 0
    decreases |s|
  {
    if |s| > 0 {
      FilterMultiset(s[1..], p, x);
      assert s == [s[0]] + s[1..];
    }
  }

  /** `filter` on one element keeps it exactly when it passes; with
      `FilterAppend` this fixes what `filter` lists, in order. */
  lemma FilterSingle<T>(x: T, p: T -> bool)
    ensures Filter([x], p) == if p(x) then [x] else []
  {
    assert [x][1..] == [];
  }

  /** The positions of `s` whose element satisfies `p`. */
  ghost function PassingSet<T>(s: seq<T>, p: T -> bool): set<int> {
    set i | 0 <= i < |s| && p(s[i])
  }

  /** Adding one element adds its position when it passes. */
  lemma PassingSetSnoc<T>(s: seq<T>, p: T -> bool)
    requires |s| > 0
    ensures PassingSet(s, p) == PassingSet(s[..|s| - 1], p) + (if p(s[|s| - 1]) then {|s| - 1} else {})
  {
    var init := s[..|s| - 1];
    assert forall i :: 0 <= i < |init| ==> init[i] == s[i];
  }

  /** `filter(p).length` is the number of positions whose element
      satisfies `p`. */
  lemma {:induction false} FilterCount<T>(s: seq<T>, p: T -> bool)
    ensures |Filter(s, p)| == |PassingSet(s, p)|
    decreases |s|
  {
    if |s| > 0 {
      var init := s[..|s| - 1];
      FilterCount(init, p);
      assert s == init + [s[|s| - 1]];
      FilterAppend(init, [s[|s| - 1]], p);
      PassingSetSnoc(s, p);
      assert |s| - 1 !in PassingSet(init, p);
    }
  }

  /** What `filter` keeps, all at once: the passing elements and only
      them, each as often as it occurs, as many as there are passing
      positions. */
  lemma FilterFacts<T>(s: seq<T>, p: T -> bool)
    ensures forall i :: 0 <= i < |Filter(s, p)| ==> Filter(s, p)[i] in s && p(Filter(s, p)[i])
    ensures forall i :: 0 <= i < |s| && p(s[i]) ==> s[i] in Filter(s, p)
    ensures |Filter(s, p)| == |PassingSet(s, p)|
    ensures forall x :: multiset(Filter(s, p))[x] == if p(x) then multiset(s)[x] else 0
  {
    FilterMembers(s, p);
    FilterCount(s, p);
    forall x {
      FilterMultiset(s, p, x);
    }
  }

  /** Filtering distributes over concatenation. */
  lemma {:induction false} FilterAppend<T>(s: seq<T>, t: seq<T>, p: T -> bool)
    ensures Filter(s + t, p) == Filter(s, p) + Filter(t, p)
    decreases |s|
  {
    if |s| > 0 {
      assert (s + t)[1..] == s[1..] + t;
      FilterAppend(s[1..], t, p);
    } else {
      assert s + t == t;
    }
  }

  /** Two tests that agree on every element filter alike. */
  lemma {:induction false} FilterCongruent<T>(s: seq<T>, p: T -> bool, q: T -> bool)
    requires forall i :: 0 <= i < |s| ==> p(s[i]) == q(s[i])
    ensures Filter(s, p) == Filter(s, q)
    decreases |s|
  {
    if |s| > 0 {
      FilterCongruent(s[1..], p, q);
    }
  }

  /** Filtering a prefix gives a prefix of the filtered whole. */
  lemma FilterTake<T>(s: seq<T>, n: nat, p: T -> bool)
    ensures Filter(Take(s, n), p) <= Filter(s, p)
  {
    var t := Take(s, n);
    assert s == t + s[|t|..];
    FilterAppend(t, s[|t|..], p);
  }

  /** Filtering keeps everything when every element passes. */
  lemma {:induction false} FilterAll<T>(s: seq<T>, p: T -> bool)
    requires forall i :: 0 <= i < |s| ==> p(s[i])
    ensures Filter(s, p) == s
    decreases |s|
  {
    if |s| > 0 {
      FilterAll(s[1..], p);
    }
  }

  /** Filtering twice by the same test is filtering once. */
  lemma FilterIdempotent<T>(s: seq<T>, p: T -> bool)
    ensures Filter(Filter(s, p), p) == Filter(s, p)
  {
    FilterMembers(s, p);
    FilterAll(Filter(s, p), p);
  }

  /** `Array.prototype.slice(0, n)`: the first `n` elements, or all of them. */
  function Take<T>(s: seq<T>, n: nat): (r: seq<T>)
    ensures |r| == if |s| < n then |s| else n
    ensures r <= s
  {
    if |s| <= n then s else s[..n]
  }

  /** The smaller of two integers. */
  function Min(a: int, b: int): int {
    if a < b then a else b
  }

  /** All elements are different. */
  ghost predicate Distinct<T>(s: seq<T>) {
    forall i, j :: 0 <= i < j < |s| ==> s[i] != s[j]
  }

  /** The first occurrence of each element, in order of first occurrence:
      the key order of an object whose keys are set from `s` in turn. */
  function Dedup<T(==)>(s: seq<T>): (r: seq<T>)
    ensures Distinct(r)
    ensures forall i :: 0 <= i < |r| ==> r[i] in s
    ensures forall i :: 0 <= i < |s| ==> s[i] in r
    decreases |s|
  {
    if |s| == 0 then []
    else
      var d := Dedup(s[..|s| - 1]);
      assert forall i :: 0 <= i < |s| - 1 ==> s[i] == s[..|s| - 1][i];
      if s[|s| - 1] in d then d else d + [s[|s| - 1]]
  }

  /** `Dedup` lists the elements in order of first occurrence: whatever it
      lists earlier occurs in `s` before the first occurrence of whatever
      it lists later. */
  lemma {:induction false} DedupOrder<T>(s: seq<T>)
    ensures forall i, j :: 0 <= i < j < |Dedup(s)| ==>
      exists a :: 0 <= a < |s| && s[a] == Dedup(s)[i] && Dedup(s)[j] !in s[..a]
    decreases |s|
  {
    if |s| > 0 {
      var init := s[..|s| - 1];
      var x := s[|s| - 1];
      var d := Dedup(init);
      DedupOrder(init);
      var r := Dedup(s);
      assert r == if x in d then d else d + [x];
      assert forall a :: 0 <= a < |init| ==> s[..a] == init[..a] && s[a] == init[a];
      forall i, j | 0 <= i < j < |r|
        ensures exists a :: 0 <= a < |s| && s[a] == r[i] && r[j] !in s[..a]
      {
        if j < |d| {
          var a :| 0 <= a < |init| && init[a] == d[i] && d[j] !in init[..a];
          assert s[a] == r[i] && r[j] !in s[..a];
        } else {
          assert r[j] == x && x !in d && r[i] == d[i];
          assert d[i] in init;
          var a :| 0 <= a < |init| && init[a] == d[i];
          assert x !in init[..a];
          assert s[a] == r[i] && r[j] !in s[..a];
        }
      }
      assert r == Dedup(s);
    } else {
      assert Dedup(s) == [];
    }
  }

  /** `reduce((sum, x) => sum + f(x), 0)`. */
  function SumOf<T>(s: seq<T>, f: T -> int): int {
    if |s| == 0 then 0 else f(s[0]) + SumOf(s[1..], f)
  }

  /** Summing distributes over concatenation. */
  lemma {:induction false} SumAppend<T>(s: seq<T>, t: seq<T>, f: T -> int)
    ensures SumOf(s + t, f) == SumOf(s, f) + SumOf(t, f)
    decreases |s|
  {
    if |s| > 0 {
      assert (s + t)[1..] == s[1..] + t;
      SumAppend(s[1..], t, f);
    } else {
      assert s + t == t;
    }
  }

  /** Two filters that never both accept an element select at most all
      elements between them. */
  lemma {:induction false} FilterDisjoint<T>(s: seq<T>, p: T -> bool, q: T -> bool)
    requires forall i :: 0 <= i < |s| ==> !(p(s[i]) && q(s[i]))
    ensures |Filter(s, p)| + |Filter(s, q)| <= |s|
    decreases |s|
  {
    if |s| > 0 {
      FilterDisjoint(s[1..], p, q);
    }
  }
}

=== FILE: grouping.dfy ===
/** Grouping a list by a key in first-encountered key order: what a
    JavaScript `Map` (or an object with non-numeric keys) holds after the
    items are added one at a time. */
module Grouping {

  /** A key with the items filed under it, in arrival order. */
  type Groups<K, T> = seq<(K, seq<T>)>

  /** The items of `s` whose key is `k`, in order. */
  function Members<T, K(==)>(s: seq<T>, key: T -> K, k: K): seq<T>
    decreases |s|
  {
    if |s| == 0 then []
    else Members(s[..|s| - 1], key, k) + (if key(s[|s| - 1]) == k then [s[|s| - 1]] else [])
  }

  /** Some item of `s` has key `k`. */
  ghost predicate HasKey<T, K>(s: seq<T>, key: T -> K, k: K) {
    exists j :: 0 <= j < |s| && key(s[j]) == k
  }

  /** Index of the first item of `s` whose key is `k`. */
  ghost function FirstIndex<T, K>(s: seq<T>, key: T -> K, k: K): (j: nat)
    requires HasKey(s, key, k)
    ensures j < |s| && key(s[j]) == k
    ensures forall m :: 0 <= m < j ==> key(s[m]) != k
    decreases |s|
  {
    if key(s[0]) == k then 0
    else
      assert HasKey(s[1..], key, k) by {
        var j :| 0 <= j < |s| && key(s[j]) == k;
        assert s[1..][j - 1] == s[j];
      }
      1 + FirstIndex(s[1..], key, k)
  }

  /** The keys of the groups, in order. */
  function Keys<K, T>(g: Groups<K, T>): (ks: seq<K>)
    ensures |ks| == |g|
    ensures forall i :: 0 <= i < |g| ==> ks[i] == g[i].0
  {
    seq(|g|, i requires 0 <= i < |g| => g[i].0)
  }

  /** No key names two groups. */
  ghost predicate KeysDistinct<K, T>(g: Groups<K, T>) {
    forall i, j :: 0 <= i < j < |g| ==> g[i].0 != g[j].0
  }

  /** Total number of items filed in the groups. */
  function SizeSum<K, T>(g: Groups<K, T>): nat {
    if |g| == 0 then 0 else |g[0].1| + SizeSum(g[1..])
  }

  /** `x` appended to the group of `k`; the other groups as they are. */
  function Update<K(==), T>(g: Groups<K, T>, k: K, x: T): (u: Groups<K, T>)
    ensures |u| == |g|
    ensures forall i :: 0 <= i < |g| ==> u[i] == (g[i].0, if g[i].0 == k then g[i].1 + [x] else g[i].1)
  {
    seq(|g|, i requires 0 <= i < |g| => (g[i].0, if g[i].0 == k then g[i].1 + [x] else g[i].1))
  }

  /** Files `x` under `k`: appended to `k`'s group, or a new group at the end
      (`map.set(k, ...)` / `if (!obj[k]) obj[k] = []; obj[k].push(x)`). */
  function AddTo<K(==), T>(g: Groups<K, T>, k: K, x: T): Groups<K, T> {
    if k in Keys(g) then Update(g, k, x) else g + [(k, [x])]
  }

  /** Filing into groups with distinct keys: the item joins the group of
      its key, or a new group at the end; no other group changes. */
  lemma AddToShape<K, T>(g: Groups<K, T>, k: K, x: T)
    ensures |AddTo(g, k, x)| == if k in Keys(g) then |g| else |g| + 1
    ensures forall i :: 0 <= i < |g| ==>
      AddTo(g, k, x)[i] == (g[i].0, if g[i].0 == k then g[i].1 + [x] else g[i].1)
    ensures k !in Keys(g) ==> AddTo(g, k, x)[|g|] == (k, [x])
  {
    if k !in Keys(g) {
      forall i | 0 <= i < |g| ensures g[i].0 != k {
        assert Keys(g)[i] == g[i].0;
      }
    }
  }

  /** Updating a key no group has changes nothing. */
  lemma UpdateAbsent<K, T>(g: Groups<K, T>, k: K, x: T)
    requires forall i :: 0 <= i < |g| ==> g[i].0 != k
    ensures Update(g, k, x) == g
  {
  }

  /** Updating the one group of a key adds one item. */
  lemma {:induction false} UpdateSize<K, T>(g: Groups<K, T>, k: K, x: T)
    requires KeysDistinct(g) && k in Keys(g)
    ensures SizeSum(Update(g, k, x)) == SizeSum(g) + 1
    decreases |g|
  {
    var u := Update(g, k, x);
    assert u[1..] == Update(g[1..], k, x);
    assert SizeSum(u) == |u[0].1| + SizeSum(u[1..]);
    if g[0].0 == k {
      assert forall i :: 0 <= i < |g[1..]| ==> g[1..][i].0 != k by {
        forall i | 0 <= i < |g[1..]| ensures g[1..][i].0 != k {
          assert g[1..][i] == g[i + 1];
        }
      }
      UpdateAbsent(g[1..], k, x);
    } else {
      UpdateSizeRest(g, k, x);
    }
  }

  lemma UpdateSizeRest<K, T>(g: Groups<K, T>, k: K, x: T)
    requires KeysDistinct(g) && k in Keys(g) && g[0].0 != k
    ensures SizeSum(Update(g[1..], k, x)) == SizeSum(g[1..]) + 1
    decreases |g|, 0
  {
    var i := GroupOf(g, k);
    assert Keys(g[1..])[i - 1] == k;
    assert KeysDistinct(g[1..]);
    UpdateSize(g[1..], k, x);
  }

  lemma {:induction false} SizeSumAppend<K, T>(g: Groups<K, T>, h: (K, seq<T>))
    ensures SizeSum(g + [h]) == SizeSum(g) + |h.1|
    decreases |g|
  {
    if |g| > 0 {
      assert (g + [h])[1..] == g[1..] + [h];
      SizeSumAppend(g[1..], h);
    }
  }

  /** Filing keeps the keys distinct and adds one item. */
  lemma AddToDistinct<K, T>(g: Groups<K, T>, k: K, x: T)
    requires KeysDistinct(g)
    ensures KeysDistinct(AddTo(g, k, x))
    ensures SizeSum(AddTo(g, k, x)) == SizeSum(g) + 1
  {
    AddToShape(g, k, x);
    if k in Keys(g) {
      UpdateSize(g, k, x);
    } else {
      SizeSumAppend(g, (k, [x]));
    }
  }

  /** `g` groups `s` by `key`: each key of `s` names exactly one group, keys
      appear in the order of their first occurrence in `s`, each group holds
      exactly the items with that key in their original order, and so every
      item is filed exactly once. */
  ghost predicate IsGrouping<T, K>(s: seq<T>, key: T -> K, g: Groups<K, T>) {
    && KeysDistinct(g)
    && (forall i :: 0 <= i < |g| ==> g[i].1 == Members(s, key, g[i].0))
    && (forall i :: 0 <= i < |g| ==> HasKey(s, key, g[i].0))
    && (forall j :: 0 <= j < |s| ==> key(s[j]) in Keys(g))
    && (forall i, j :: 0 <= i < j < |g| ==>
          FirstIndex(s, key, g[i].0) < FirstIndex(s, key, g[j].0))
    && SizeSum(g) == |s|
  }

  /** Groups `s` by `key`, filing the items one at a time in order. */
  function GroupBy<T, K(==)>(s: seq<T>, key: T -> K): Groups<K, T>
    decreases |s|
  {
    if |s| == 0 then [] else AddTo(GroupBy(s[..|s| - 1], key), key(s[|s| - 1]), s[|s| - 1])
  }

  /** No key names two groups, and every item is filed once. */
  lemma {:induction false} GroupByDistinct<T, K>(s: seq<T>, key: T -> K)
    ensures KeysDistinct(GroupBy(s, key))
    ensures SizeSum(GroupBy(s, key)) == |s|
    decreases |s|
  {
    if |s| > 0 {
      var n := |s| - 1;
      GroupByDistinct(s[..n], key);
      AddToDistinct(GroupBy(s[..n], key), key(s[n]), s[n]);
    }
  }

  /** Filing the last item keeps the groups of the rest in place, adds it
      to its key's group, and opens a group at the end exactly when its key
      is new. */
  lemma GroupByExtends<T, K>(s: seq<T>, key: T -> K)
    requires |s| > 0
    ensures var g0, g, x := GroupBy(s[..|s| - 1], key), GroupBy(s, key), s[|s| - 1];
      && |g| == (if key(x) in Keys(g0) then |g0| else |g0| + 1)
      && (forall i :: 0 <= i < |g0| ==> g[i] == (g0[i].0, if g0[i].0 == key(x) then g0[i].1 + [x] else g0[i].1))
      && (key(x) !in Keys(g0) ==> g[|g0|] == (key(x), [x]))
  {
    var n := |s| - 1;
    GroupByDistinct(s[..n], key);
    AddToShape(GroupBy(s[..n], key), key(s[n]), s[n]);
  }

  /** The group a key names, when it names one. */
  lemma GroupOf<K, T>(g: Groups<K, T>, k: K) returns (i: nat)
    requires k in Keys(g)
    ensures i < |g| && g[i].0 == k
  {
    var ks := Keys(g);
    i :| 0 <= i < |ks| && ks[i] == k;
  }

  /** A group of the rest keeps its place and key when the last item is
      filed. */
  lemma PrefixGroupKept<T, K>(s: seq<T>, key: T -> K, i: nat)
    requires |s| > 0 && i < |GroupBy(s[..|s| - 1], key)|
    ensures i < |GroupBy(s, key)| && GroupBy(s, key)[i].0 == GroupBy(s[..|s| - 1], key)[i].0
  {
    GroupByExtends(s, key);
  }

  /** The group the last item is filed in. */
  lemma LastItemGroup<T, K>(s: seq<T>, key: T -> K) returns (i: nat)
    requires |s| > 0
    ensures i < |GroupBy(s, key)| && GroupBy(s, key)[i].0 == key(s[|s| - 1])
  {
    var g0 := GroupBy(s[..|s| - 1], key);
    GroupByExtends(s, key);
    if key(s[|s| - 1]) in Keys(g0) {
      i := GroupOf(g0, key(s[|s| - 1]));
    } else {
      i := |g0|;
    }
  }

  /** The group an item is filed in. */
  lemma {:induction false} GroupIndexOf<T, K>(s: seq<T>, key: T -> K, j: int) returns (i: nat)
    requires 0 <= j < |s|
    ensures i < |GroupBy(s, key)| && GroupBy(s, key)[i].0 == key(s[j])
    decreases |s|
  {
    var n := |s| - 1;
    if j < n {
      var p := s[..n];
      assert s[j] == p[j];
      i := GroupIndexOf(p, key, j);
      PrefixGroupKept(s, key, i);
    } else {
      i := LastItemGroup(s, key);
    }
  }

  /** Every key carried by an item names a group. */
  lemma GroupByCovers<T, K>(s: seq<T>, key: T -> K, j: int)
    requires 0 <= j < |s|
    ensures key(s[j]) in Keys(GroupBy(s, key))
  {
    var i := GroupIndexOf(s, key, j);
    assert Keys(GroupBy(s, key))[i] == key(s[j]);
  }

  /** No item of the prefix shares the key of an item filed as a new group. */
  lemma NewKeyAbsent<T, K>(s: seq<T>, key: T -> K)
    requires |s| > 0
    requires key(s[|s| - 1]) !in Keys(GroupBy(s[..|s| - 1], key))
    ensures forall m :: 0 <= m < |s| - 1 ==> key(s[m]) != key(s[|s| - 1])
  {
    var p := s[..|s| - 1];
    forall m | 0 <= m < |s| - 1 ensures key(s[m]) != key(s[|s| - 1]) {
      assert s[m] == p[m];
      GroupByCovers(p, key, m);
    }
  }

  /** Every group holds exactly the items with its key, in order. */
  lemma {:induction false} GroupByMembers<T, K>(s: seq<T>, key: T -> K, i: int)
    requires 0 <= i < |GroupBy(s, key)|
    ensures GroupBy(s, key)[i].1 == Members(s, key, GroupBy(s, key)[i].0)
    decreases |s|
  {
    var n := |s| - 1;
    var p, x := s[..n], s[n];
    var g0 := GroupBy(p, key);
    GroupByExtends(s, key);
    if i < |g0| {
      GroupByMembers(p, key, i);
    } else {
      NewKeyAbsent(s, key);
      MembersAbsent(p, key, key(x));
    }
  }

  /** Every group's key is carried by some item. */
  lemma {:induction false} GroupByKeysOccur<T, K>(s: seq<T>, key: T -> K, i: int)
    requires 0 <= i < |GroupBy(s, key)|
    ensures HasKey(s, key, GroupBy(s, key)[i].0)
    decreases |s|
  {
    var n := |s| - 1;
    var p := s[..n];
    var g0 := GroupBy(p, key);
    GroupByExtends(s, key);
    if i < |g0| {
      GroupByKeysOccur(p, key, i);
      var j :| 0 <= j < |p| && key(p[j]) == g0[i].0;
      assert s[j] == p[j];
    } else {
      assert key(s[n]) == GroupBy(s, key)[i].0;
    }
  }

  /** The first occurrence of a key found in a prefix is its first
      occurrence in the whole sequence. */
  lemma FirstIndexPrefix<T, K>(s: seq<T>, key: T -> K, k: K)
    requires |s| > 0 && HasKey(s[..|s| - 1], key, k)
    ensures HasKey(s, key, k) && FirstIndex(s, key, k) == FirstIndex(s[..|s| - 1], key, k)
  {
    var p := s[..|s| - 1];
    var a := FirstIndex(p, key, k);
    assert key(s[a]) == k;
    var b := FirstIndex(s, key, k);
    assert p[b] == s[b];
  }

  /** Groups are ordered by the first occurrence of their keys. */
  lemma {:induction false} GroupByOrder<T, K>(s: seq<T>, key: T -> K, i: int, j: int)
    requires 0 <= i < j < |GroupBy(s, key)|
    ensures HasKey(s, key, GroupBy(s, key)[i].0) && HasKey(s, key, GroupBy(s, key)[j].0)
    ensures FirstIndex(s, key, GroupBy(s, key)[i].0) < FirstIndex(s, key, GroupBy(s, key)[j].0)
    decreases |s|
  {
    var n := |s| - 1;
    var p, x := s[..n], s[n];
    var g0 := GroupBy(p, key);
    var g := GroupBy(s, key);
    GroupByExtends(s, key);
    GroupByKeysOccur(p, key, i);
    FirstIndexPrefix(s, key, g0[i].0);
    assert g[i].0 == g0[i].0;
    if j < |g0| {
      GroupByOrder(p, key, i, j);
      FirstIndexPrefix(s, key, g0[j].0);
      assert g[j].0 == g0[j].0;
    } else {
      NewKeyAbsent(s, key);
      assert g[j].0 == key(x);
      assert FirstIndex(s, key, key(x)) == n;
    }
  }

  /** `GroupBy` meets every clause of `IsGrouping`. */
  lemma GroupByIsGrouping<T, K>(s: seq<T>, key: T -> K)
    ensures IsGrouping(s, key, GroupBy(s, key))
  {
    var g := GroupBy(s, key);
    GroupByDistinct(s, key);
    forall i | 0 <= i < |g| ensures g[i].1 == Members(s, key, g[i].0) {
      GroupByMembers(s, key, i);
    }
    forall i | 0 <= i < |g| ensures HasKey(s, key, g[i].0) {
      GroupByKeysOccur(s, key, i);
    }
    forall j | 0 <= j < |s| ensures key(s[j]) in Keys(g) {
      GroupByCovers(s, key, j);
    }
    forall i, j | 0 <= i < j < |g|
      ensures FirstIndex(s, key, g[i].0) < FirstIndex(s, key, g[j].0)
    {
      GroupByOrder(s, key, i, j);
    }
  }

  /** A key that no item carries has no members. */
  lemma {:induction false} MembersAbsent<T, K>(s: seq<T>, key: T -> K, k: K)
    requires forall j :: 0 <= j < |s| ==> key(s[j]) != k
    ensures Members(s, key, k) == []
    decreases |s|
  {
    if |s| > 0 {
      MembersAbsent(s[..|s| - 1], key, k);
    }
  }

  /** A key that some item carries has at least one member. */
  lemma {:induction false} MembersPresent<T, K>(s: seq<T>, key: T -> K, k: K)
    requires HasKey(s, key, k)
    ensures |Members(s, key, k)| >= 1
    decreases |s|
  {
    var n := |s| - 1;
    if key(s[n]) != k {
      var j :| 0 <= j < |s| && key(s[j]) == k;
      assert s[..n][j] == s[j];
      MembersPresent(s[..n], key, k);
    }
  }

  /** There are never more groups than items. */
  lemma {:induction false} GroupBySize<T, K>(s: seq<T>, key: T -> K)
    ensures |GroupBy(s, key)| <= |s|
    decreases |s|
  {
    if |s| > 0 {
      GroupBySize(s[..|s| - 1], key);
      GroupByExtends(s, key);
    }
  }
}

=== FILE: jira_client.dfy ===
/** The query client (src/shared/api/jira.ts): how a search request is
    shaped, how its response is normalised, how `getAllIssues` pages
    through a result set, and how the agile and worklog fetchers fall back
    to empty values. Every endpoint is an oracle: a function from the
    request to the decoded payload or the error the call threw. */
module JiraClient {
  import opened Outcomes
  import opened Tracker
  import opened Collections
  import opened Text

  /** The page size the search endpoint assumes when none is sent. */
  const DefaultMaxResults: int := 50

  /** The page size `getAllIssues` asks for. */
  const PageSize: nat := 100

  /** The JSON body posted to the search endpoint; an omitted property is
      `None`. */
  datatype SearchBody = SearchBody(
    jql: string,
    fields: seq<string>,
    startAt: Option<int>,
    maxResults: Option<int>)

  /** The decoded search response, every property optional. */
  datatype RawSearch = RawSearch(
    issues: Option<seq<Issue>>,
    values: Option<seq<Issue>>,
    total: Option<int>,
    startAt: Option<int>,
    maxResults: Option<int>)

  /** What `searchIssues` returns. */
  datatype SearchPage = SearchPage(issues: seq<Issue>, total: int, startAt: int, maxResults: int)

  /** The search endpoint. */
  type SearchServer = SearchBody -> Result<RawSearch>

  /** The request body: `startAt` is sent only when positive and
      `maxResults` only when it differs from the endpoint's default. */
  function SearchRequest(jql: string, startAt: int, maxResults: int): (b: SearchBody)
    ensures b.jql == jql && b.fields == ["*all"]
    ensures b.startAt.Some? <==> startAt > 0
    ensures b.maxResults.Some? <==> maxResults != DefaultMaxResults
  {
    SearchBody(jql, ["*all"],
      if startAt > 0 then Some(startAt) else None,
      if maxResults != DefaultMaxResults then Some(maxResults) else None)
  }

  /** Leaving out a property loses nothing: an endpoint that reads an
      absent `startAt` as 0 and an absent `maxResults` as 50 sees exactly
      the requested offset and page size. */
  lemma SearchRequestDefaults(jql: string, startAt: nat, maxResults: int)
    ensures SearchRequest(jql, startAt, maxResults).startAt.GetOr(0) == startAt
    ensures SearchRequest(jql, startAt, maxResults).maxResults.GetOr(DefaultMaxResults) == maxResults
  {
  }

  /** JavaScript's `x || fallback` on a number: zero and absent both fall
      back. */
  function OrNumber(x: Option<int>, fallback: int): (r: int)
    ensures x.Some? && x.value != 0 ==> r == x.value
    ensures x.None? || x.value == 0 ==> r == fallback
  {
    if x.Some? && x.value != 0 then x.value else fallback
  }

  /** Response normalisation. The issues are `issues`, else `values`, else
      none (an empty array counts as present); the total is the reported
      one, else the number of issues; offset and page size fall back to the
      requested ones when reported as zero or not at all. */
  function Normalize(raw: RawSearch, startAt: int, maxResults: int): (p: SearchPage)
    ensures raw.issues.Some? ==> p.issues == raw.issues.value
    ensures raw.issues.None? && raw.values.Some? ==> p.issues == raw.values.value
    ensures raw.issues.None? && raw.values.None? ==> p.issues == []
    ensures raw.total.Some? ==> p.total == raw.total.value
    ensures raw.total.None? ==> p.total == |p.issues|
    ensures p.startAt == OrNumber(raw.startAt, startAt)
    ensures p.maxResults == OrNumber(raw.maxResults, maxResults)
  {
    var issues := if raw.issues.Some? then raw.issues.value
                  else if raw.values.Some? then raw.values.value
                  else [];
    SearchPage(
      issues,
      if raw.total.Some? then raw.total.value else |issues|,
      OrNumber(raw.startAt, startAt),
      OrNumber(raw.maxResults, maxResults))
  }

  /** A complete response is passed through unchanged. */
  lemma NormalizeComplete(issues: seq<Issue>, total: int, startAt: int, maxResults: int, reqStart: int, reqMax: int)
    requires startAt != 0 && maxResults != 0
    ensures Normalize(RawSearch(Some(issues), None, Some(total), Some(startAt), Some(maxResults)), reqStart, reqMax)
      == SearchPage(issues, total, startAt, maxResults)
  {
  }

  /** `searchIssues`: one round trip; a failed call is rethrown. */
  function SearchIssues(server: SearchServer, jql: string, startAt: int, maxResults: int): (r: Result<SearchPage>)
    ensures server(SearchRequest(jql, startAt, maxResults)).Err? <==> r.Err?
    ensures r.Ok? ==> r.value == Normalize(server(SearchRequest(jql, startAt, maxResults)).value, startAt, maxResults)
  {
    match server(SearchRequest(jql, startAt, maxResults))
    case Err(e) => Err(e)
    case Ok(raw) => Ok(Normalize(raw, startAt, maxResults))
  }

  /** The page `getAllIssues` requests on its `k`-th round. */
  function PageAt(server: SearchServer, jql: string, k: nat): Result<SearchPage> {
    SearchIssues(server, jql, k * PageSize, PageSize)
  }

  /** The loop can only end if the endpoint keeps its side of the paging
      contract: the totals it reports stay below `bound`, and a page at an
      offset below the total is full, or holds everything up to the total. */
  ghost predicate HonoursPageSize(server: SearchServer, jql: string, bound: int) {
    forall k: nat :: PageAt(server, jql, k).Ok? ==>
      && PageAt(server, jql, k).value.total <= bound
      && |PageAt(server, jql, k).value.issues| >= Min(PageSize, PageAt(server, jql, k).value.total - k * PageSize)
  }

  /** The loop of `getAllIssues` from round `k`, having gathered `acc`. */
  function Collect(server: SearchServer, jql: string, k: nat, acc: seq<Issue>, ghost bound: int): (r: Result<seq<Issue>>)
    requires HonoursPageSize(server, jql, bound)
    requires |acc| >= k * PageSize
    ensures r.Ok? ==> acc <= r.value
    decreases bound - k * PageSize
  {
    match PageAt(server, jql, k)
    case Err(e) => Err(e)
    case Ok(page) =>
      var acc' := acc + page.issues;
      if |acc'| >= page.total then Ok(acc')
      else
        assert |page.issues| >= Min(PageSize, page.total - k * PageSize);
        var r := Collect(server, jql, k + 1, acc', bound);
        assert r.Ok? ==> acc <= acc' <= r.value;
        r
  }

  /** `getAllIssues`: every page from offset 0 in steps of 100, until the
      gathered issues reach the reported total. */
  function GetAllIssues(server: SearchServer, jql: string, ghost bound: int): (r: Result<seq<Issue>>)
    requires HonoursPageSize(server, jql, bound)
  {
    Collect(server, jql, 0, [], bound)
  }

  /** Reference definition: the issues of the first `n` pages concatenated
      in request order, or the first error among them. */
  ghost function Fetched(server: SearchServer, jql: string, n: nat): Result<seq<Issue>> {
    if n == 0 then Ok([])
    else
      match Fetched(server, jql, n - 1)
      case Err(e) => Err(e)
      case Ok(xs) =>
        match PageAt(server, jql, n - 1)
        case Err(e) => Err(e)
        case Ok(p) => Ok(xs + p.issues)
  }

  /** The loop leaves after round `n`: that round failed, or the issues
      gathered so far reach the total the round reported. */
  ghost predicate StopsAfter(server: SearchServer, jql: string, n: nat) {
    Fetched(server, jql, n + 1).Err? ||
    |Fetched(server, jql, n + 1).value| >= PageAt(server, jql, n).value.total
  }

  lemma {:induction false} CollectFetched(server: SearchServer, jql: string, k: nat, bound: int)
    requires HonoursPageSize(server, jql, bound)
    requires Fetched(server, jql, k).Ok? && |Fetched(server, jql, k).value| >= k * PageSize
    requires forall m: nat :: m < k ==> !StopsAfter(server, jql, m)
    ensures exists n: nat ::
      && k <= n && StopsAfter(server, jql, n)
      && (forall m: nat :: m < n ==> !StopsAfter(server, jql, m))
      && Collect(server, jql, k, Fetched(server, jql, k).value, bound) == Fetched(server, jql, n + 1)
    decreases bound - k * PageSize
  {
    var acc := Fetched(server, jql, k).value;
    match PageAt(server, jql, k)
    case Err(e) =>
      assert Fetched(server, jql, k + 1) == Err(e);
      assert StopsAfter(server, jql, k);
    case Ok(page) =>
      var acc' := acc + page.issues;
      assert Fetched(server, jql, k + 1) == Ok(acc');
      if |acc'| >= page.total {
        assert StopsAfter(server, jql, k);
      } else {
        assert !StopsAfter(server, jql, k);
        assert |page.issues| >= Min(PageSize, page.total - k * PageSize);
        CollectFetched(server, jql, k + 1, bound);
        var n: nat :| k + 1 <= n && StopsAfter(server, jql, n)
          && (forall m: nat :: m < n ==> !StopsAfter(server, jql, m))
          && Collect(server, jql, k + 1, acc', bound) == Fetched(server, jql, n + 1);
        assert Collect(server, jql, k, acc, bound) == Collect(server, jql, k + 1, acc', bound);
      }
  }

  /** `getAllIssues` returns the pages up to and including the first round
      after which the loop stops, concatenated in request order, or the
      first error among them. */
  lemma GetAllIssuesIsFetched(server: SearchServer, jql: string, bound: int)
    requires HonoursPageSize(server, jql, bound)
    ensures exists n: nat ::
      && StopsAfter(server, jql, n)
      && (forall m: nat :: m < n ==> !StopsAfter(server, jql, m))
      && GetAllIssues(server, jql, bound) == Fetched(server, jql, n + 1)
  {
    CollectFetched(server, jql, 0, bound);
  }

  /** An endpoint serving the fixed list `all` in pages: the slice from the
      requested offset, at most the requested size, with `total` set. */
  function Snapshot(all: seq<Issue>): SearchServer {
    (b: SearchBody) =>
      var lo := if b.startAt.GetOr(0) < 0 then 0 else Min(b.startAt.GetOr(0), |all|);
      var size := b.maxResults.GetOr(DefaultMaxResults);
      var hi := if size < 0 then lo else Min(lo + size, |all|);
      Ok(RawSearch(Some(all[lo..hi]), None, Some(|all|), b.startAt, b.maxResults))
  }

  /** A snapshot endpoint keeps the paging contract. */
  lemma SnapshotHonours(all: seq<Issue>, jql: string)
    ensures HonoursPageSize(Snapshot(all), jql, |all|)
  {
    forall k: nat | PageAt(Snapshot(all), jql, k).Ok?
      ensures PageAt(Snapshot(all), jql, k).value.total <= |all|
      ensures |PageAt(Snapshot(all), jql, k).value.issues| >= Min(PageSize, PageAt(Snapshot(all), jql, k).value.total - k * PageSize)
    {
      SnapshotPage(all, jql, k);
    }
  }

  /** The `k`-th page of a snapshot. */
  lemma SnapshotPage(all: seq<Issue>, jql: string, k: nat)
    ensures PageAt(Snapshot(all), jql, k).Ok?
    ensures PageAt(Snapshot(all), jql, k).value.total == |all|
    ensures PageAt(Snapshot(all), jql, k).value.issues ==
      all[Min(k * PageSize, |all|)..Min(k * PageSize + PageSize, |all|)]
  {
    var b := SearchRequest(jql, k * PageSize, PageSize);
    SearchRequestDefaults(jql, k * PageSize, PageSize);
    assert b.startAt.GetOr(0) == k * PageSize;
    assert b.maxResults.GetOr(DefaultMaxResults) == PageSize;
  }

  lemma {:induction false} CollectSnapshot(all: seq<Issue>, jql: string, k: nat)
    requires k * PageSize <= |all|
    ensures HonoursPageSize(Snapshot(all), jql, |all|)
    ensures Collect(Snapshot(all), jql, k, all[..k * PageSize], |all|) == Ok(all)
    decreases |all| - k * PageSize
  {
    SnapshotHonours(all, jql);
    SnapshotPage(all, jql, k);
    var lo, hi := k * PageSize, Min(k * PageSize + PageSize, |all|);
    var acc' := all[..lo] + all[lo..hi];
    assert acc' == all[..hi];
    if hi < |all| {
      CollectSnapshot(all, jql, k + 1);
    } else {
      assert acc' == all;
    }
  }

  /** Paging a fixed result set yields exactly that set, in order. */
  lemma GetAllIssuesSnapshot(all: seq<Issue>, jql: string)
    ensures HonoursPageSize(Snapshot(all), jql, |all|)
    ensures GetAllIssues(Snapshot(all), jql, |all|) == Ok(all)
  {
    CollectSnapshot(all, jql, 0);
    assert all[..0] == [];
  }

  /** `data.x || []` inside a `try` whose `catch` returns `[]`: a failed
      call and a payload without the array both give no items. */
  function ListOrEmpty<T>(fetched: Result<Option<seq<T>>>): (xs: seq<T>)
    ensures fetched.Err? ==> xs == []
    ensures fetched == Ok(None) ==> xs == []
    ensures fetched.Ok? && fetched.value.Some? ==> xs == fetched.value.value
  {
    match fetched
    case Ok(Some(v)) => v
    case _ => []
  }

  /** Query parameters of `getBoards`: `maxResults=50`, then the project
      when one is given. */
  function BoardsQuery(projectKeyOrId: string): (q: seq<(string, string)>)
    ensures |q| == if projectKeyOrId == "" then 1 else 2
    ensures q[0] == ("maxResults", "50")
    ensures projectKeyOrId != "" ==> q[1] == ("projectKeyOrId", projectKeyOrId)
  {
    [("maxResults", "50")] + (if projectKeyOrId != "" then [("projectKeyOrId", projectKeyOrId)] else [])
  }

  /** Query parameters of `getSprints`: the state filter when one is given,
      then `maxResults=50`. */
  function SprintsQuery(state: Option<string>): (q: seq<(string, string)>)
    ensures |q| == if state.None? || state.value == "" then 1 else 2
    ensures q[|q| - 1] == ("maxResults", "50")
    ensures state.Some? && state.value != "" ==> q[0] == ("state", state.value)
  {
    (if state.Some? && state.value != "" then [("state", state.value)] else []) + [("maxResults", "50")]
  }

  /** `getBoards(projectKeyOrId)` over the board-list endpoint. */
  function GetBoards(endpoint: seq<(string, string)> -> Result<Option<seq<Board>>>, projectKeyOrId: string): (bs: seq<Board>)
    ensures endpoint(BoardsQuery(projectKeyOrId)).Err? ==> bs == []
    ensures endpoint(BoardsQuery(projectKeyOrId)).Ok? ==> bs == endpoint(BoardsQuery(projectKeyOrId)).value.GetOr([])
  {
    ListOrEmpty(endpoint(BoardsQuery(projectKeyOrId)))
  }

  /** `getSprints(boardId, state)` over the sprint-list endpoint. */
  function GetSprints(endpoint: (int, seq<(string, string)>) -> Result<Option<seq<Sprint>>>, boardId: int, state: Option<string>): (ss: seq<Sprint>)
    ensures endpoint(boardId, SprintsQuery(state)).Err? ==> ss == []
    ensures endpoint(boardId, SprintsQuery(state)).Ok? ==> ss == endpoint(boardId, SprintsQuery(state)).value.GetOr([])
  {
    ListOrEmpty(endpoint(boardId, SprintsQuery(state)))
  }

  /** Query parameters of `getSprintIssues`: one page of at most 200
      issues, with only the fields the velocity needs. */
  const SprintIssuesQuery: seq<(string, string)> :=
    [("maxResults", "200"), ("fields", "summary,status,assignee,issuetype,customfield_10016")]

  /** `getSprintIssues(sprintId)` over the sprint-issue endpoint: a single
      request, so only the first page is read. */
  function GetSprintIssues(endpoint: (int, seq<(string, string)>) -> Result<Option<seq<Issue>>>, sprintId: int): (xs: seq<Issue>)
    ensures endpoint(sprintId, SprintIssuesQuery).Err? ==> xs == []
    ensures endpoint(sprintId, SprintIssuesQuery).Ok? ==> xs == endpoint(sprintId, SprintIssuesQuery).value.GetOr([])
  {
    ListOrEmpty(endpoint(sprintId, SprintIssuesQuery))
  }

  /** `getIssueWorklogs(issueKey)` over the worklog endpoint. */
  function GetIssueWorklogs(endpoint: string -> Result<Option<seq<Worklog>>>, issueKey: string): (ws: seq<Worklog>)
    ensures endpoint(issueKey).Err? ==> ws == []
    ensures endpoint(issueKey).Ok? ==> ws == endpoint(issueKey).value.GetOr([])
  {
    ListOrEmpty(endpoint(issueKey))
  }

  function IsScrum(b: Board): bool {
    b.kind == Scrum
  }

  /** `findScrumBoard`: the first scrum board of the list, or none when the
      list has no scrum board. */
  function FindScrumBoard(boards: seq<Board>): (r: Option<Board>)
    ensures r.None? <==> forall i :: 0 <= i < |boards| ==> boards[i].kind != Scrum
    ensures r.Some? ==> exists i ::
      && 0 <= i < |boards| && boards[i] == r.value && r.value.kind == Scrum
      && forall j :: 0 <= j < i ==> boards[j].kind != Scrum
  {
    if |boards| == 0 then None
    else if boards[0].kind == Scrum then Some(boards[0])
    else
      var r := FindScrumBoard(boards[1..]);
      assert forall i :: 1 <= i < |boards| ==> boards[i] == boards[1..][i - 1];
      assert r.Some? ==> exists i ::
        && 0 <= i < |boards| && boards[i] == r.value && r.value.kind == Scrum
        && forall j :: 0 <= j < i ==> boards[j].kind != Scrum by {
        if r.Some? {
          var i :| 0 <= i < |boards[1..]| && boards[1..][i] == r.value && r.value.kind == Scrum
            && forall j :: 0 <= j < i ==> boards[1..][j].kind != Scrum;
          assert boards[i + 1] == r.value;
          assert forall j :: 0 <= j < i + 1 ==> boards[j].kind != Scrum by {
            forall j | 0 <= j < i + 1 ensures boards[j].kind != Scrum {
              if j > 0 { assert boards[j] == boards[1..][j - 1]; }
            }
          }
        }
      }
      r
  }

  /** `findScrumBoard` agrees with taking the head of the filtered list. */
  lemma {:induction false} FindScrumBoardFilter(boards: seq<Board>)
    ensures FindScrumBoard(boards) ==
      (var scrum := Filter(boards, IsScrum); if |scrum| == 0 then None else Some(scrum[0]))
  {
    if |boards| > 0 && boards[0].kind != Scrum {
      FindScrumBoardFilter(boards[1..]);
    }
  }

  /** The sprint object of the sprint-report payload. */
  datatype RawSprint = RawSprint(
    id: int,
    name: string,
    state: Option<string>,
    startDate: string,
    endDate: string,
    completeDate: string)

  /** The `contents` object of the sprint-report payload. */
  datatype RawContents = RawContents(
    completedIssues: Option<seq<Issue>>,
    issuesNotCompletedInCurrentSprint: Option<seq<Issue>>,
    puntedIssues: Option<seq<Issue>>)

  datatype RawSprintReport = RawSprintReport(sprint: Option<RawSprint>, contents: Option<RawContents>)

  datatype SprintReport = SprintReport(
    sprint: Sprint,
    completedIssues: seq<Issue>,
    incompletedIssues: seq<Issue>,
    puntedIssues: seq<Issue>)

  /** The issues of one `contents` array, none when it or `contents` is
      missing. */
  function ContentsOf(contents: Option<RawContents>, pick: RawContents -> Option<seq<Issue>>): (xs: seq<Issue>)
    ensures contents.None? ==> xs == []
    ensures contents.Some? && pick(contents.value).Some? ==> xs == pick(contents.value).value
  {
    if contents.Some? && pick(contents.value).Some? then pick(contents.value).value else []
  }

  /** `getSprintReport`: no report when the call fails or the payload has
      no sprint (reading its fields throws); otherwise the sprint with its
      state lower-cased, `closed` when missing or empty, no goal, and the
      three issue lists defaulting to empty. */
  function SprintReportOf(fetched: Result<RawSprintReport>): (r: Option<SprintReport>)
    ensures r.Some? <==> fetched.Ok? && fetched.value.sprint.Some?
    ensures r.Some? ==>
      && r.value.sprint.id == fetched.value.sprint.value.id
      && r.value.sprint.name == fetched.value.sprint.value.name
      && r.value.sprint.startDate == fetched.value.sprint.value.startDate
      && r.value.sprint.endDate == fetched.value.sprint.value.endDate
      && r.value.sprint.completeDate == fetched.value.sprint.value.completeDate
      && r.value.sprint.goal == ""
    ensures r.Some? ==> r.value.sprint.state != "" && ToLower(r.value.sprint.state) == r.value.sprint.state
    ensures r.Some? ==> var state := fetched.value.sprint.value.state;
      && (state.Some? && state.value != "" ==> r.value.sprint.state == ToLower(state.value))
      && (state.None? || state.value == "" ==> r.value.sprint.state == "closed")
    ensures r.Some? && fetched.value.contents.None? ==>
      r.value.completedIssues == [] && r.value.incompletedIssues == [] && r.value.puntedIssues == []
    ensures r.Some? && fetched.value.contents.Some? ==> var c := fetched.value.contents.value;
      && r.value.completedIssues == c.completedIssues.GetOr([])
      && r.value.incompletedIssues == c.issuesNotCompletedInCurrentSprint.GetOr([])
      && r.value.puntedIssues == c.puntedIssues.GetOr([])
  {
    match fetched
    case Err(_) => None
    case Ok(raw) =>
      match raw.sprint
      case None => None
      case Some(s) =>
        var lowered := if s.state.Some? then ToLower(s.state.value) else "";
        var state := if lowered != "" then lowered else "closed";
        ToLowerIdempotent(lowered);
        assert ToLower("closed") == "closed";
        Some(SprintReport(
          Sprint(s.id, s.name, state, s.startDate, s.endDate, s.completeDate, ""),
          ContentsOf(raw.contents, (c: RawContents) => c.completedIssues),
          ContentsOf(raw.contents, (c: RawContents) => c.issuesNotCompletedInCurrentSprint),
          ContentsOf(raw.contents, (c: RawContents) => c.puntedIssues)))
  }

  /** A reported state is kept up to letter case: the report's state and
      the reported one lower-case alike. */
  lemma SprintReportState(s: RawSprint, contents: Option<RawContents>)
    requires s.state.Some? && s.state.value != ""
    ensures var r := SprintReportOf(Ok(RawSprintReport(Some(s), contents)));
      r.Some? && ToLower(r.value.sprint.state) == ToLower(s.state.value)
  {
    ToLowerIdempotent(s.state.value);
  }

  /** One point of the scope-change burndown. */
  datatype Change = Change(time: int, value: int)

  datatype RawBurndown = RawBurndown(startTime: int, endTime: int, changes: Option<seq<Change>>)

  datatype Burndown = Burndown(startTime: int, endTime: int, changes: seq<Change>)

  /** `getBurndownData`: nothing on error, otherwise the times as reported
      and the changes defaulting to empty. */
  function BurndownOf(fetched: Result<RawBurndown>): (r: Option<Burndown>)
    ensures r.None? <==> fetched.Err?
    ensures r.Some? ==> r.value.startTime == fetched.value.startTime && r.value.endTime == fetched.value.endTime
    ensures r.Some? ==> r.value.changes == ListOrEmpty(Ok(fetched.value.changes))
  {
    match fetched
    case Err(_) => None
    case Ok(raw) => Some(Burndown(raw.startTime, raw.endTime, ListOrEmpty(Ok(raw.changes))))
  }
}

=== FILE: jira_constants.dfy ===
/** The deployment's fixed tracker settings and the JQL fragments built from
    them (src/shared/config/jira-constants.ts). */
module JiraConstants {
  import opened Text

  const ProjectKey: string := "DEV"
  const TeamFieldId: string := "customfield_10001"
  const FrontendTeamId: string := "c6bf7c58-d853-474d-bbe6-ebe40bf41eb4"

  const ActiveUsers: seq<string> := ["p.kuzyakin@actum.cx", "r.khamukov@actum.cx"]

  /** Statuses that count as finished or not yet started. */
  const StatusExclusions: seq<string> :=
    ["Done", "Closed", "Resolved", "Готово", "Отменено", "Backlog", "To Do", "К выполнению"]

  const ReviewStatuses: seq<string> :=
    ["Review", "Проверка", "Code Review", "In Review", "На ревью", "Ревью"]

  /** A status needs quoting in a `NOT IN` list when it has a space or a
      hyphen. */
  predicate NeedsQuotes(s: string) {
    ' ' in s || '-' in s
  }

  /** One status as written in a `NOT IN` list. */
  function QuoteIfNeeded(s: string): string {
    if NeedsQuotes(s) then Quote(s) else s
  }

  /** `QuoteIfNeeded` applied to each status, keeping order. */
  function QuoteEach(statuses: seq<string>): (r: seq<string>)
    ensures |r| == |statuses|
    ensures forall i :: 0 <= i < |r| ==> r[i] == QuoteIfNeeded(statuses[i])
  {
    seq(|statuses|, i requires 0 <= i < |statuses| => QuoteIfNeeded(statuses[i]))
  }

  /** Removes one pair of surrounding double quotes, if present. */
  function Unquote(s: string): string {
    if |s| >= 2 && s[0] == '"' && s[|s| - 1] == '"' then s[1..|s| - 1] else s
  }

  /** A status name as the tracker uses them: no comma, no double quote. */
  predicate PlainStatus(s: string) {
    ',' !in s && '"' !in s
  }

  /** Reads a `NOT IN` list back into status names. */
  function ParseNotInList(list: string): seq<string> {
    var items := SplitList(list);
    seq(|items|, i requires 0 <= i < |items| => Unquote(items[i]))
  }

  /** `formatStatusForNotIn`: the statuses, quoted where needed, joined with
      `, `. Reading the list back gives the statuses again, in order. */
  function FormatStatusForNotIn(statuses: seq<string>): (r: string)
    ensures |statuses| == 0 ==> r == ""
    ensures |statuses| > 0 && (forall s :: s in statuses ==> PlainStatus(s)) ==>
      ParseNotInList(r) == statuses
  {
    NotInRoundTripIfPlain(statuses);
    Join(QuoteEach(statuses), ", ")
  }

  /** A plain status survives quoting and unquoting, and its written form
      has no comma. */
  lemma UnquoteQuoteIfNeeded(s: string)
    requires PlainStatus(s)
    ensures Unquote(QuoteIfNeeded(s)) == s
    ensures ',' !in QuoteIfNeeded(s)
  {
    if NeedsQuotes(s) {
      var q := Quote(s);
      assert q[1..|q| - 1] == s;
      assert forall i :: 0 <= i < |q| ==> q[i] == '"' || q[i] in s;
    } else if |s| > 0 {
      assert s[0] != '"';
    }
  }

  /** Reading back a `NOT IN` list of plain statuses. */
  lemma NotInRoundTrip(statuses: seq<string>)
    requires |statuses| > 0
    requires forall s :: s in statuses ==> PlainStatus(s)
    ensures ParseNotInList(Join(QuoteEach(statuses), ", ")) == statuses
  {
    var items := QuoteEach(statuses);
    forall i | 0 <= i < |items| ensures ',' !in items[i] && Unquote(items[i]) == statuses[i] {
      UnquoteQuoteIfNeeded(statuses[i]);
    }
    SplitJoin(items);
  }

  /** `NotInRoundTrip` for whatever list is at hand: nothing is claimed
      unless the list is non-empty and plain. */
  lemma NotInRoundTripIfPlain(statuses: seq<string>)
    ensures |statuses| > 0 && (forall s :: s in statuses ==> PlainStatus(s)) ==>
      ParseNotInList(Join(QuoteEach(statuses), ", ")) == statuses
  {
    if |statuses| > 0 && (forall s :: s in statuses ==> PlainStatus(s)) {
      NotInRoundTrip(statuses);
    }
  }

  /** `ACTIVE_USERS_FILTER` for a given user list: `assignee IN (...)` with
      every user quoted, in list order. An empty list yields a single empty
      literal. */
  function ActiveUsersFilter(users: seq<string>): (r: string)
    ensures |users| > 0 ==> r == "assignee IN (" + Join(QuoteAll(users), ", ") + ")"
    ensures |users| == 0 ==> r == "assignee IN (\"\")"
  {
    QuotedJoinIfAny(users);
    "assignee IN (" + Quote(Join(users, "\", \"")) + ")"
  }

  /** `STATUS_NOT_DONE` for a given exclusion list. */
  function StatusNotDone(exclusions: seq<string>): string {
    "status NOT IN (" + FormatStatusForNotIn(exclusions) + ")"
  }

  /** `IS_IN_REVIEW` for a given status list: every status is quoted,
      whether or not it has a space. */
  function IsInReview(statuses: seq<string>): (r: string)
    ensures |statuses| > 0 ==> r == "status IN (" + Join(QuoteAll(statuses), ", ") + ")"
  {
    QuotedJoinIfAny(statuses);
    "status IN (" + Quote(Join(statuses, "\", \"")) + ")"
  }

  const IsUnassigned: string := "assignee IS empty"
  const IsFrontendTeam: string := "\"cf[10001]\" = " + FrontendTeamId

  /** A status without spaces and hyphens is written bare. */
  lemma BareStatus(s: string)
    requires forall i :: 0 <= i < |s| ==> s[i] != ' ' && s[i] != '-'
    ensures QuoteIfNeeded(s) == s
  {
  }

  /** In the configured `STATUS_NOT_DONE` list the six one-word exclusions
      are written bare and the two with a space are quoted. */
  lemma ExclusionsQuoting()
    ensures forall i :: 0 <= i < 6 ==> QuoteEach(StatusExclusions)[i] == StatusExclusions[i]
    ensures QuoteEach(StatusExclusions)[6] == Quote("To Do")
    ensures QuoteEach(StatusExclusions)[7] == Quote("К выполнению")
  {
    var e := StatusExclusions;
    BareStatus(e[0]);
    BareStatus(e[1]);
    BareStatus(e[2]);
    BareStatus(e[3]);
    BareStatus(e[4]);
    BareStatus(e[5]);
    assert e[6][2] == ' ' && e[7][1] == ' ';
  }
}

=== FILE: kanban_stats.dfy ===
/** The Kanban metrics endpoint (src/app/api/kanban-stats/route.ts): a
    status histogram sorted by frequency, eight weekly throughput buckets,
    the average lead time and the work-in-progress count, all computed from
    the issues one search returns. */
module KanbanStats {
  import opened Outcomes
  import opened Tracker
  import opened Collections
  import opened Grouping
  import opened StableSort
  import opened Text
  import opened JiraClient
  import JiraConstants

  /** The search the endpoint runs: the project's issues assigned to one of
      `users` and updated in the last 90 days. */
  function KanbanJql(projectKey: string, users: seq<string>): (q: string)
    ensures |users| > 0 ==>
      q == "project = " + Quote(projectKey) + " AND assignee in (" + Join(QuoteAll(users), ", ")
        + ") AND updated >= -90d ORDER BY updated DESC"
  {
    QuotedJoinIfAny(users);
    "project = " + Quote(projectKey) + " AND assignee in (" + Quote(Join(users, "\", \""))
      + ") AND updated >= -90d ORDER BY updated DESC"
  }

  // ---------------------------------------------------------------------
  // Status distribution

  /** One bar of the status histogram. */
  datatype StatusCount = StatusCount(status: string, count: int, color: string)

  /** The status an issue is filed under: its name, or `Unknown`. */
  function StatusLabel(i: Issue): (s: string)
    ensures s != ""
    ensures i.statusName != "" ==> s == i.statusName
  {
    if i.statusName != "" then i.statusName else "Unknown"
  }

  /** The fixed colours of the five known statuses. */
  const StatusColors: map<string, string> := map[
    "To Do" := "#9CA3AF",
    "In Progress" := "#3B82F6",
    "In Review" := "#8B5CF6",
    "Done" := "#10B981",
    "Blocked" := "#EF4444"]

  const DefaultColor: string := "#6B7280"

  /** A known status gets its table colour; exactly the other statuses get
      the grey default. */
  function ColorOf(status: string): (c: string)
    ensures status in StatusColors ==> c == StatusColors[status]
    ensures c == DefaultColor <==> status !in StatusColors
  {
    if status in StatusColors then StatusColors[status] else DefaultColor
  }

  /** One histogram bar per group, in group order. */
  function Tally(g: Groups<string, Issue>): (cs: seq<StatusCount>)
    ensures |cs| == |g|
    ensures forall i :: 0 <= i < |g| ==> cs[i] == StatusCount(g[i].0, |g[i].1|, ColorOf(g[i].0))
  {
    seq(|g|, i requires 0 <= i < |g| => StatusCount(g[i].0, |g[i].1|, ColorOf(g[i].0)))
  }

  /** The comparator `(a, b) => b.count - a.count`: `a` goes first when it
      is strictly more frequent. */
  function MoreFrequent(a: StatusCount, b: StatusCount): bool {
    a.count > b.count
  }

  function CountOf(c: StatusCount): int {
    c.count
  }

  function StatusOf(c: StatusCount): string {
    c.status
  }

  /** `statusDistribution`: the issues counted per status, in the order the
      statuses were first met, then stably sorted by count, largest first. */
  function StatusDistribution(issues: seq<Issue>): (r: seq<StatusCount>)
    ensures |r| <= |issues|
  {
    var g := GroupBy(issues, StatusLabel);
    GroupBySize(issues, StatusLabel);
    Sort(Tally(g), MoreFrequent)
  }

  lemma {:induction false} TallySum(g: Groups<string, Issue>)
    ensures SumOf(Tally(g), CountOf) == SizeSum(g)
    decreases |g|
  {
    if |g| > 0 {
      assert Tally(g)[1..] == Tally(g[1..]);
      TallySum(g[1..]);
    }
  }

  /** The counts add up to the number of issues. */
  lemma StatusDistributionTotal(issues: seq<Issue>)
    ensures SumOf(StatusDistribution(issues), CountOf) == |issues|
  {
    var g := GroupBy(issues, StatusLabel);
    GroupByDistinct(issues, StatusLabel);
    SortSum(Tally(g), MoreFrequent, CountOf);
    TallySum(g);
  }

  /** Each bar counts exactly the issues filed under its status and carries
      that status's colour; its status is that of some issue, so it counts
      at least one. */
  lemma StatusDistributionCounts(issues: seq<Issue>, i: int)
    requires 0 <= i < |StatusDistribution(issues)|
    ensures StatusDistribution(issues)[i].count == |Members(issues, StatusLabel, StatusDistribution(issues)[i].status)|
    ensures StatusDistribution(issues)[i].color == ColorOf(StatusDistribution(issues)[i].status)
    ensures HasKey(issues, StatusLabel, StatusDistribution(issues)[i].status)
    ensures StatusDistribution(issues)[i].count >= 1
  {
    var g := GroupBy(issues, StatusLabel);
    var t := Tally(g);
    SortMember(t, MoreFrequent, i);
    var a :| 0 <= a < |t| && t[a] == StatusDistribution(issues)[i];
    GroupByMembers(issues, StatusLabel, a);
    GroupByKeysOccur(issues, StatusLabel, a);
    MembersPresent(issues, StatusLabel, g[a].0);
  }

  /** Every issue's status has a bar. */
  lemma StatusDistributionCovers(issues: seq<Issue>, j: int)
    requires 0 <= j < |issues|
    ensures exists i :: 0 <= i < |StatusDistribution(issues)| && StatusDistribution(issues)[i].status == StatusLabel(issues[j])
  {
    var g := GroupBy(issues, StatusLabel);
    var t := Tally(g);
    var name := StatusLabel(issues[j]);
    GroupByCovers(issues, StatusLabel, j);
    var ks := Keys(g);
    var a :| 0 <= a < |ks| && ks[a] == name;
    assert t[a].status == name;
    var r := Sort(t, MoreFrequent);
    assert multiset(r) == multiset(t);
    assert t[a] in multiset(t);
    assert t[a] in r;
    var i :| 0 <= i < |r| && r[i] == t[a];
    assert r == StatusDistribution(issues);
  }

  /** No status has two bars. */
  lemma StatusDistributionDistinct(issues: seq<Issue>)
    ensures forall i, j :: 0 <= i < j < |StatusDistribution(issues)| ==>
      StatusDistribution(issues)[i].status != StatusDistribution(issues)[j].status
  {
    var g := GroupBy(issues, StatusLabel);
    GroupByDistinct(issues, StatusLabel);
    SortKeysDistinct(Tally(g), MoreFrequent, StatusOf);
  }

  /** `MoreFrequent` is a strict weak order. */
  lemma MoreFrequentOrder()
    ensures StrictWeakOrder(MoreFrequent)
  {
  }

  /** The bars are ordered by count, largest first. */
  lemma StatusDistributionSorted(issues: seq<Issue>)
    ensures forall i, j :: 0 <= i < j < |StatusDistribution(issues)| ==>
      StatusDistribution(issues)[i].count >= StatusDistribution(issues)[j].count
  {
    var g := GroupBy(issues, StatusLabel);
    MoreFrequentOrder();
    SortSorted(Tally(g), MoreFrequent);
  }

  /** Bars with equal counts keep the order in which their statuses first
      occur among the issues. */
  lemma StatusDistributionTies(issues: seq<Issue>, i: int, j: int)
    requires 0 <= i < j < |StatusDistribution(issues)|
    requires StatusDistribution(issues)[i].count == StatusDistribution(issues)[j].count
    ensures HasKey(issues, StatusLabel, StatusDistribution(issues)[i].status)
    ensures HasKey(issues, StatusLabel, StatusDistribution(issues)[j].status)
    ensures FirstIndex(issues, StatusLabel, StatusDistribution(issues)[i].status)
      < FirstIndex(issues, StatusLabel, StatusDistribution(issues)[j].status)
  {
    var g := GroupBy(issues, StatusLabel);
    var t := Tally(g);
    var r := StatusDistribution(issues);
    SortStable(t, MoreFrequent);
    var a, b :| 0 <= a < b < |t| && t[a] == r[i] && t[b] == r[j];
    GroupByOrder(issues, StatusLabel, a, b);
  }

  // ---------------------------------------------------------------------
  // Weekly throughput

  /** Day of the week of a day number, 0 being Sunday (day 0, 1970-01-01,
      was a Thursday). */
  function Weekday(day: int): (w: int)
    ensures 0 <= w < 7
  {
    (day + 4) % 7
  }

  /** Weekdays repeat every seven days, and day 0 was a Thursday. */
  lemma WeekdayPeriodic(day: int)
    ensures Weekday(day + 7) == Weekday(day)
    ensures Weekday(0) == 4
  {
  }

  /** A week bucket: first and last millisecond, both inclusive. */
  datatype Week = Week(start: int, end: int)

  /** The day on which the bucket `i` weeks back begins. */
  function WeekStartDay(now: int, i: int): int {
    DayOf(now) - i * 7 - Weekday(DayOf(now))
  }

  /** A day that is a whole number of weeks before or after this week's
      Sunday is a Sunday. */
  lemma SundayStart(today: int, i: int)
    ensures Weekday(today - i * 7 - Weekday(today)) == 0
  {
    var q := (today + 4) / 7;
    assert today + 4 == 7 * q + Weekday(today);
    assert today - i * 7 - Weekday(today) + 4 == 7 * (q - i);
  }

  /** Bucket `j` of eight, oldest first. */
  function WeekAt(now: int, j: int): Week {
    var d := WeekStartDay(now, 7 - j);
    Week(StartOfDay(d), EndOfDay(d + 6))
  }

  /** One bucket starts on a Sunday midnight and lasts seven days. */
  lemma WeekAtFacts(now: int, j: int)
    ensures WeekAt(now, j).start % DayMs == 0 && Weekday(WeekAt(now, j).start / DayMs) == 0
    ensures WeekAt(now, j).end == WeekAt(now, j).start + 7 * DayMs - 1
    ensures WeekAt(now, j + 1).start == WeekAt(now, j).end + 1
  {
    var d := WeekStartDay(now, 7 - j);
    assert StartOfDay(d) / DayMs == d;
    SundayStart(DayOf(now), 7 - j);
  }

  /** The eight buckets of `weeklyThroughput`, oldest first: each runs from
      a Sunday midnight to the last millisecond of the following Saturday,
      each begins right after the previous one ends, and the last holds
      `now`. */
  function Weeks(now: int): (ws: seq<Week>)
    ensures |ws| == 8
    ensures forall j :: 0 <= j < 8 ==> ws[j].start % DayMs == 0 && Weekday(ws[j].start / DayMs) == 0
    ensures forall j :: 0 <= j < 8 ==> ws[j].end == ws[j].start + 7 * DayMs - 1
    ensures forall j :: 0 <= j < 7 ==> ws[j + 1].start == ws[j].end + 1
    ensures ws[7].start <= now <= ws[7].end
  {
    var ws := seq(8, j requires 0 <= j < 8 => WeekAt(now, j));
    forall j | 0 <= j < 8
      ensures ws[j].start % DayMs == 0 && Weekday(ws[j].start / DayMs) == 0
      ensures ws[j].end == ws[j].start + 7 * DayMs - 1
      ensures j < 7 ==> ws[j + 1].start == ws[j].end + 1
    {
      WeekAtFacts(now, j);
    }
    DayBounds(now);
    ws
  }

  /** A timestamp falls in at most one bucket. */
  lemma WeeksDisjoint(now: int, t: int, i: int, j: int)
    requires 0 <= i < j < 8
    ensures !(Weeks(now)[i].start <= t <= Weeks(now)[i].end && Weeks(now)[j].start <= t <= Weeks(now)[j].end)
  {
    var ws := Weeks(now);
    var m := i;
    while m < j - 1
      invariant i <= m < j
      invariant ws[m].end < ws[j].start
    {
      m := m + 1;
    }
  }

  /** How many of the timestamps lie between `lo` and `hi`, both included;
      an absent timestamp lies nowhere. */
  function CountWithin(ts: seq<Option<int>>, lo: int, hi: int): (n: nat)
    ensures n <= |ts|
  {
    if |ts| == 0 then 0
    else (if ts[0].Some? && lo <= ts[0].value <= hi then 1 else 0) + CountWithin(ts[1..], lo, hi)
  }

  /** Cutting a span in two splits its count. */
  lemma {:induction false} CountWithinSplit(ts: seq<Option<int>>, lo: int, mid: int, hi: int)
    requires lo <= mid + 1 && mid <= hi
    ensures CountWithin(ts, lo, hi) == CountWithin(ts, lo, mid) + CountWithin(ts, mid + 1, hi)
    decreases |ts|
  {
    if |ts| > 0 {
      CountWithinSplit(ts[1..], lo, mid, hi);
    }
  }

  /** `resolutiondate` of every issue. */
  function ResolvedTimes(issues: seq<Issue>): (ts: seq<Option<int>>)
    ensures |ts| == |issues|
    ensures forall i :: 0 <= i < |issues| ==> ts[i] == issues[i].resolved
  {
    seq(|issues|, i requires 0 <= i < |issues| => issues[i].resolved)
  }

  /** `created` of every issue. */
  function CreatedTimes(issues: seq<Issue>): (ts: seq<Option<int>>)
    ensures |ts| == |issues|
    ensures forall i :: 0 <= i < |issues| ==> ts[i] == Some(issues[i].created)
  {
    seq(|issues|, i requires 0 <= i < |issues| => Some(issues[i].created))
  }

  /** One point of `weeklyThroughput`; the bucket stands in for its
      localised date label. */
  datatype WeekCount = WeekCount(week: Week, completed: nat, created: nat)

  /** `weeklyThroughput`: per bucket, the issues resolved and the issues
      created in it. */
  function Throughput(issues: seq<Issue>, now: int): (cs: seq<WeekCount>)
    ensures |cs| == 8
    ensures forall j :: 0 <= j < 8 ==>
      && cs[j].week == Weeks(now)[j]
      && cs[j].completed == CountWithin(ResolvedTimes(issues), cs[j].week.start, cs[j].week.end)
      && cs[j].created == CountWithin(CreatedTimes(issues), cs[j].week.start, cs[j].week.end)
  {
    var ws := Weeks(now);
    seq(8, j requires 0 <= j < 8 =>
      WeekCount(ws[j],
        CountWithin(ResolvedTimes(issues), ws[j].start, ws[j].end),
        CountWithin(CreatedTimes(issues), ws[j].start, ws[j].end)))
  }

  function Completed(c: WeekCount): int {
    c.completed
  }

  function Created(c: WeekCount): int {
    c.created
  }

  /** Adjacent buckets tile a span: their counts add up to the count over
      the whole span. */
  lemma {:induction false} BucketsTile(ts: seq<Option<int>>, cs: seq<WeekCount>, count: WeekCount -> int)
    requires |cs| > 0
    requires forall j :: 0 <= j < |cs| ==> cs[j].week.start <= cs[j].week.end
    requires forall j :: 0 <= j < |cs| - 1 ==> cs[j + 1].week.start == cs[j].week.end + 1
    requires forall j :: 0 <= j < |cs| ==> count(cs[j]) == CountWithin(ts, cs[j].week.start, cs[j].week.end)
    ensures SumOf(cs, count) == CountWithin(ts, cs[0].week.start, cs[|cs| - 1].week.end)
    ensures cs[0].week.end <= cs[|cs| - 1].week.end
    decreases |cs|
  {
    if |cs| > 1 {
      var rest := cs[1..];
      BucketsTile(ts, rest, count);
      assert forall j :: 0 <= j < |rest| ==> rest[j].week.start <= rest[j].week.end + 1;
      CountWithinSplit(ts, cs[0].week.start, cs[0].week.end, cs[|cs| - 1].week.end);
    }
  }

  /** The buckets partition the eight weeks they span: summed over the
      buckets, the resolved and the created counts equal the counts over the
      whole span, so no issue is counted twice. */
  lemma ThroughputPartition(issues: seq<Issue>, now: int)
    ensures SumOf(Throughput(issues, now), Completed)
      == CountWithin(ResolvedTimes(issues), Weeks(now)[0].start, Weeks(now)[7].end)
    ensures SumOf(Throughput(issues, now), Created)
      == CountWithin(CreatedTimes(issues), Weeks(now)[0].start, Weeks(now)[7].end)
    ensures SumOf(Throughput(issues, now), Completed) <= |issues|
    ensures SumOf(Throughput(issues, now), Created) <= |issues|
  {
    var cs := Throughput(issues, now);
    BucketsTile(ResolvedTimes(issues), cs, Completed);
    BucketsTile(CreatedTimes(issues), cs, Created);
  }

  // ---------------------------------------------------------------------
  // Lead time and work in progress

  /** An issue that enters the lead-time average: done, with a resolution
      date. */
  predicate IsLeadSample(i: Issue) {
    i.category == Done && i.resolved.Some?
  }

  /** Milliseconds from creation to resolution. */
  function LeadMs(i: Issue): int {
    if i.resolved.Some? then i.resolved.value - i.created else 0
  }

  /** `Math.round(a / b)` for a positive `b`: the integer nearest to
      `a / b`, halves rounded up. */
  function RoundDiv(a: int, b: int): (r: int)
    requires b > 0
    ensures b * (2 * r - 1) <= 2 * a < b * (2 * r + 1)
  {
    var q := (2 * a + b) / (2 * b);
    var m := (2 * a + b) % (2 * b);
    assert 2 * a + b == 2 * b * q + m;
    assert b * (2 * q - 1) == 2 * b * q - b;
    assert b * (2 * q + 1) == 2 * b * q + b;
    q
  }

  /** `RoundDiv` has only one possible result. */
  lemma RoundDivUnique(a: int, b: int, r: int)
    requires b > 0
    requires b * (2 * r - 1) <= 2 * a < b * (2 * r + 1)
    ensures RoundDiv(a, b) == r
  {
    var s := RoundDiv(a, b);
  }

  /** `avgLeadTime`: the mean number of days from creation to resolution
      over the sample issues, rounded to the nearest day, 0 without
      samples. */
  function AvgLeadTime(issues: seq<Issue>): (r: int)
    ensures |Filter(issues, IsLeadSample)| == 0 ==> r == 0
    ensures var n := |Filter(issues, IsLeadSample)|; var total := SumOf(Filter(issues, IsLeadSample), LeadMs);
      n > 0 ==> n * DayMs * (2 * r - 1) <= 2 * total < n * DayMs * (2 * r + 1)
  {
    var samples := Filter(issues, IsLeadSample);
    if |samples| == 0 then 0 else RoundDiv(SumOf(samples, LeadMs), |samples| * DayMs)
  }

  /** A sum of equal terms. */
  lemma {:induction false} SumConstant(s: seq<Issue>, f: Issue -> int, c: int)
    requires forall i :: 0 <= i < |s| ==> f(s[i]) == c
    ensures SumOf(s, f) == |s| * c
    decreases |s|
  {
    if |s| > 0 {
      SumConstant(s[1..], f, c);
    }
  }

  /** When every sample took exactly `d` days, the average is `d`. */
  lemma AvgLeadTimeUniform(issues: seq<Issue>, d: int)
    requires exists i :: 0 <= i < |issues| && IsLeadSample(issues[i])
    requires forall i :: 0 <= i < |issues| && IsLeadSample(issues[i]) ==> LeadMs(issues[i]) == d * DayMs
    ensures AvgLeadTime(issues) == d
  {
    var samples := Filter(issues, IsLeadSample);
    FilterMembers(issues, IsLeadSample);
    var i :| 0 <= i < |issues| && IsLeadSample(issues[i]);
    assert issues[i] in samples;
    var n := |samples|;
    SumConstant(samples, LeadMs, d * DayMs);
    MulRegroup(n, d);
    RoundDivExact(n * DayMs, d);
    assert AvgLeadTime(issues) == RoundDiv(SumOf(samples, LeadMs), n * DayMs);
  }

  lemma MulRegroup(n: int, d: int)
    ensures n * (d * DayMs) == (n * DayMs) * d
  {
  }

  /** Rounding an exact quotient gives the quotient. */
  lemma RoundDivExact(b: int, d: int)
    requires b > 0
    ensures RoundDiv(b * d, b) == d
  {
    assert b * (2 * d - 1) == 2 * (b * d) - b;
    assert b * (2 * d + 1) == 2 * (b * d) + b;
    RoundDivUnique(b * d, b, d);
  }

  predicate InProgress(i: Issue) {
    i.category == Indeterminate
  }

  /** `wipCount`: how many issues are in the in-progress category. */
  function WipCount(issues: seq<Issue>): (n: nat)
    ensures n <= |issues|
    ensures n == |set i | 0 <= i < |issues| && issues[i].category == Indeterminate|
  {
    FilterCount(issues, InProgress);
    assert PassingSet(issues, InProgress) == set i | 0 <= i < |issues| && issues[i].category == Indeterminate;
    |Filter(issues, InProgress)|
  }

  /** In-progress issues and lead-time samples never overlap, so together
      they number at most the issues. */
  lemma WipAndSamples(issues: seq<Issue>)
    ensures WipCount(issues) + |Filter(issues, IsLeadSample)| <= |issues|
  {
    FilterDisjoint(issues, InProgress, IsLeadSample);
  }

  // ---------------------------------------------------------------------
  // The endpoint

  datatype Stats = Stats(
    statusDistribution: seq<StatusCount>,
    weeklyThroughput: seq<WeekCount>,
    avgLeadTime: int,
    wipCount: nat,
    totalIssues: nat,
    projectKey: string)

  /** The JSON the endpoint answers with: the metrics, or a 500 with the
      error message. */
  datatype KanbanResponse = Metrics(stats: Stats) | ServerError(status: int, details: string)

  /** The metrics of one issue list at time `now`. */
  function StatsOf(issues: seq<Issue>, now: int): (s: Stats)
    ensures s.totalIssues == |issues|
    ensures s.wipCount <= s.totalIssues
    ensures |s.weeklyThroughput| == 8
    ensures |s.statusDistribution| <= s.totalIssues
    ensures s.projectKey == JiraConstants.ProjectKey
    ensures s.statusDistribution == StatusDistribution(issues)
    ensures s.weeklyThroughput == Throughput(issues, now)
    ensures s.avgLeadTime == AvgLeadTime(issues)
    ensures s.wipCount == WipCount(issues)
  {
    Stats(StatusDistribution(issues), Throughput(issues, now), AvgLeadTime(issues), WipCount(issues), |issues|,
      JiraConstants.ProjectKey)
  }

  /** `GET /api/kanban-stats` at time `now`: a failed search becomes a 500
      carrying the error, otherwise the metrics of every issue found. */
  function KanbanGet(server: SearchServer, now: int, ghost bound: int): (r: KanbanResponse)
    requires HonoursPageSize(server, KanbanJql(JiraConstants.ProjectKey, JiraConstants.ActiveUsers), bound)
    ensures var found := GetAllIssues(server, KanbanJql(JiraConstants.ProjectKey, JiraConstants.ActiveUsers), bound);
      && (r.ServerError? <==> found.Err?)
      && (r.ServerError? ==> r.status == 500 && r.details == found.error)
      && (r.Metrics? ==> r.stats == StatsOf(found.value, now))
  {
    match GetAllIssues(server, KanbanJql(JiraConstants.ProjectKey, JiraConstants.ActiveUsers), bound)
    case Err(e) => ServerError(500, e)
    case Ok(issues) => Metrics(StatsOf(issues, now))
  }
}

=== FILE: outcomes.dfy ===
/** Optional values and fallible results, the two shapes the dashboard's
    JavaScript expresses with `undefined`/`null` and with thrown errors. */
module Outcomes {

  /** A value that may be absent (`undefined` or `null` in the source). */
  datatype Option<+T> = None | Some(value: T) {

    /** The wrapped value, or `default` when absent (JavaScript's `??`). */
    function GetOr(default: T): T {
      match this
      case Some(v) => v
      case None => default
    }
  }

  /** The outcome of a remote call: a payload, or the error it threw. */
  datatype Result<+T> = Ok(value: T) | Err(error: string)
}

=== FILE: planning_report.dfy ===
/** The planning report (src/features/reports/lib/planning-report.ts): the
    open tasks of the chosen users grouped by status, the table of statuses
    by size, one block per user, the blocked tasks, and the report's
    sections and progress calls. The markdown text is represented by its
    sections. */
module PlanningReport {
  import opened Outcomes
  import opened Tracker
  import opened Collections
  import opened Grouping
  import opened StableSort
  import opened Text
  import opened JiraClient
  import opened ReportKit
  import JiraConstants

  // ---------------------------------------------------------------------
  // Search

  /** A status written into the inline `NOT IN` list: quoted when it
      contains a space or a hyphen. */
  function InlineQuote(s: string): string {
    if Contains(s, " ") || Contains(s, "-") then Quote(s) else s
  }

  /** The report's inline quoting agrees with the shared formatter. */
  lemma InlineQuoteShared(s: string)
    ensures InlineQuote(s) == JiraConstants.QuoteIfNeeded(s)
  {
    ContainsChar(s, ' ');
    ContainsChar(s, '-');
  }

  /** The inline list of excluded statuses. */
  function InlineExclusions(statuses: seq<string>): (r: string)
    ensures r == JiraConstants.FormatStatusForNotIn(statuses)
  {
    var items := seq(|statuses|, i requires 0 <= i < |statuses| => InlineQuote(statuses[i]));
    forall i | 0 <= i < |statuses| ensures items[i] == JiraConstants.QuoteEach(statuses)[i] {
      InlineQuoteShared(statuses[i]);
    }
    assert items == JiraConstants.QuoteEach(statuses);
    Join(items, ", ")
  }

  /** The search: the project's tasks of the given users whose status is
      not one of the excluded ones. It is the shared assignee filter and
      the shared not-done filter, joined by `AND`. */
  function PlanningJql(projectKey: string, users: seq<string>): (q: string)
    ensures q == "project = " + projectKey + " AND " + JiraConstants.ActiveUsersFilter(users)
      + " AND " + JiraConstants.StatusNotDone(JiraConstants.StatusExclusions)
  {
    "project = " + projectKey + " AND " + ("assignee IN (" + Quote(Join(users, "\", \"")) + ")")
      + " AND " + ("status NOT IN (" + InlineExclusions(JiraConstants.StatusExclusions) + ")")
  }

  // ---------------------------------------------------------------------
  // Statuses

  /** The status a task is grouped under: its name, or `Неизвестно`. */
  function StatusGroup(t: Issue): (s: string)
    ensures s != ""
    ensures t.statusName != "" ==> s == t.statusName
  {
    if t.statusName != "" then t.statusName else "Неизвестно"
  }

  function GroupSize(g: (string, seq<Issue>)): int {
    |g.1|
  }

  function GroupName(g: (string, seq<Issue>)): string {
    g.0
  }

  /** The comparator `(a, b) => b[1].length - a[1].length`. */
  function Larger(a: (string, seq<Issue>), b: (string, seq<Issue>)): bool {
    |a.1| > |b.1|
  }

  lemma LargerOrder()
    ensures StrictWeakOrder(Larger)
  {
  }

  /** `byStatus` in the order its keys were first set, then stably sorted
      by group size, largest first. */
  function StatusTable(tasks: seq<Issue>): (t: Groups<string, Issue>)
    ensures |t| <= |tasks|
  {
    GroupBySize(tasks, StatusGroup);
    Sort(GroupBy(tasks, StatusGroup), Larger)
  }

  lemma {:induction false} SizeSumIsSum(g: Groups<string, Issue>)
    ensures SumOf(g, GroupSize) == SizeSum(g)
    decreases |g|
  {
    if |g| > 0 {
      SizeSumIsSum(g[1..]);
    }
  }

  /** The table's counts add up to the number of tasks. */
  lemma StatusTableTotal(tasks: seq<Issue>)
    ensures SumOf(StatusTable(tasks), GroupSize) == |tasks|
  {
    var g := GroupBy(tasks, StatusGroup);
    GroupByDistinct(tasks, StatusGroup);
    SortSum(g, Larger, GroupSize);
    SizeSumIsSum(g);
  }

  /** Each row holds exactly the tasks filed under its status, in task
      order, and at least one of them. */
  lemma StatusTableRow(tasks: seq<Issue>, i: int)
    requires 0 <= i < |StatusTable(tasks)|
    ensures StatusTable(tasks)[i].1 == Members(tasks, StatusGroup, StatusTable(tasks)[i].0)
    ensures HasKey(tasks, StatusGroup, StatusTable(tasks)[i].0)
  {
    var g := GroupBy(tasks, StatusGroup);
    SortMember(g, Larger, i);
    var a :| 0 <= a < |g| && g[a] == StatusTable(tasks)[i];
    GroupByMembers(tasks, StatusGroup, a);
    GroupByKeysOccur(tasks, StatusGroup, a);
  }

  /** Every task's status has a row. */
  lemma StatusTableCovers(tasks: seq<Issue>, j: int)
    requires 0 <= j < |tasks|
    ensures exists i :: 0 <= i < |StatusTable(tasks)| && StatusTable(tasks)[i].0 == StatusGroup(tasks[j])
  {
    var g := GroupBy(tasks, StatusGroup);
    GroupByCovers(tasks, StatusGroup, j);
    var ks := Keys(g);
    var a :| 0 <= a < |ks| && ks[a] == StatusGroup(tasks[j]);
    var r := Sort(g, Larger);
    assert g[a] in multiset(g);
    assert g[a] in r;
    var i :| 0 <= i < |r| && r[i] == g[a];
    assert r == StatusTable(tasks);
  }

  /** No status has two rows. */
  lemma StatusTableDistinct(tasks: seq<Issue>)
    ensures forall i, j :: 0 <= i < j < |StatusTable(tasks)| ==> StatusTable(tasks)[i].0 != StatusTable(tasks)[j].0
  {
    var g := GroupBy(tasks, StatusGroup);
    GroupByDistinct(tasks, StatusGroup);
    SortKeysDistinct(g, Larger, GroupName);
  }

  /** The rows go from the largest group to the smallest. */
  lemma StatusTableSorted(tasks: seq<Issue>)
    ensures forall i, j :: 0 <= i < j < |StatusTable(tasks)| ==> |StatusTable(tasks)[i].1| >= |StatusTable(tasks)[j].1|
  {
    LargerOrder();
    SortSorted(GroupBy(tasks, StatusGroup), Larger);
  }

  /** Rows of equal size keep the order in which their statuses first
      occur among the tasks. */
  lemma StatusTableTies(tasks: seq<Issue>, i: int, j: int)
    requires 0 <= i < j < |StatusTable(tasks)|
    requires |StatusTable(tasks)[i].1| == |StatusTable(tasks)[j].1|
    ensures HasKey(tasks, StatusGroup, StatusTable(tasks)[i].0)
    ensures HasKey(tasks, StatusGroup, StatusTable(tasks)[j].0)
    ensures FirstIndex(tasks, StatusGroup, StatusTable(tasks)[i].0)
      < FirstIndex(tasks, StatusGroup, StatusTable(tasks)[j].0)
  {
    var g := GroupBy(tasks, StatusGroup);
    var r := StatusTable(tasks);
    SortStable(g, Larger);
    var a, b :| 0 <= a < b < |g| && g[a] == r[i] && g[b] == r[j];
    GroupByOrder(tasks, StatusGroup, a, b);
  }

  // ---------------------------------------------------------------------
  // Blocked tasks

  /** A task is blocked when one of its labels, lower-cased, contains
      `blocked`. */
  predicate IsBlocked(t: Issue) {
    exists i :: 0 <= i < |t.labels| && Contains(ToLower(t.labels[i]), "blocked")
  }

  /** A label that is `blocked` in any letter case blocks its task; a task
      without labels is never blocked. */
  lemma BlockedByLabel(t: Issue, i: int)
    requires 0 <= i < |t.labels| && ToLower(t.labels[i]) == "blocked"
    ensures IsBlocked(t)
    ensures IsBlocked(t.(labels := [])) == false
  {
    var l := ToLower(t.labels[i]);
    assert l[0..|l|] == l;
    assert OccursAt(l, "blocked", 0);
  }

  /** The blocked tasks, in the order found and as often as found, and
      nothing else. */
  function Blocked(tasks: seq<Issue>): (r: seq<Issue>)
    ensures |r| <= |tasks|
    ensures forall i :: 0 <= i < |r| ==> IsBlocked(r[i]) && r[i] in tasks
    ensures forall i :: 0 <= i < |tasks| && IsBlocked(tasks[i]) ==> tasks[i] in r
    ensures forall x :: multiset(r)[x] == if IsBlocked(x) then multiset(tasks)[x] else 0
    ensures |r| == |PassingSet(tasks, IsBlocked)|
  {
    FilterFacts(tasks, IsBlocked);
    Filter(tasks, IsBlocked)
  }

  // ---------------------------------------------------------------------
  // Users

  /** How many tasks a user block lists. */
  const TasksShown: nat := 15

  /** The blocked tasks are listed in the order found: the list of a run of
      tasks is the lists of its parts in turn, and one task is listed
      exactly when it is blocked. */
  lemma BlockedInOrder(a: seq<Issue>, b: seq<Issue>, t: Issue)
    ensures Blocked(a + b) == Blocked(a) + Blocked(b)
    ensures Blocked([t]) == if IsBlocked(t) then [t] else []
  {
    FilterAppend(a, b, IsBlocked);
    FilterSingle(t, IsBlocked);
  }

  /** Assigned to the account with address `user`. */
  function AssignedTo(user: string): Issue -> bool {
    (t: Issue) => t.assignee == Some(user)
  }

  /** The tasks assigned to `user`, in the order found and as often as
      found, and nothing else. */
  function TasksOf(tasks: seq<Issue>, user: string): (r: seq<Issue>)
    ensures |r| <= |tasks|
    ensures forall i :: 0 <= i < |r| ==> r[i].assignee == Some(user) && r[i] in tasks
    ensures forall i :: 0 <= i < |tasks| && tasks[i].assignee == Some(user) ==> tasks[i] in r
    ensures forall x :: multiset(r)[x] == if x.assignee == Some(user) then multiset(tasks)[x] else 0
  {
    AssignedToFacts(tasks, user);
    Filter(tasks, AssignedTo(user))
  }

  /** `FilterFacts` for the assignment test, written out on `assignee`. */
  lemma AssignedToFacts(tasks: seq<Issue>, user: string)
    ensures forall x :: multiset(Filter(tasks, AssignedTo(user)))[x] == if x.assignee == Some(user) then multiset(tasks)[x] else 0
  {
    FilterFacts(tasks, AssignedTo(user));
  }

  /** A user's tasks are listed in the order found, so a block shows the
      first 15 of them in that order. */
  lemma TasksOfInOrder(user: string, a: seq<Issue>, b: seq<Issue>, t: Issue)
    ensures TasksOf(a + b, user) == TasksOf(a, user) + TasksOf(b, user)
    ensures TasksOf([t], user) == if t.assignee == Some(user) then [t] else []
  {
    FilterAppend(a, b, AssignedTo(user));
    FilterSingle(t, AssignedTo(user));
  }

  /** A task as a user-block row: key, status name or `-`, summary. */
  datatype TaskLine = TaskLine(key: string, status: string, summary: string)

  function LineOf(t: Issue): TaskLine {
    TaskLine(t.key, if t.statusName != "" then t.statusName else "-", t.summary)
  }

  /** One user's block: a note that there are no tasks, or a table. */
  datatype UserBlock = NoTasks(user: string) | TaskTable(user: string, lines: seq<TaskLine>)

  /** A user's block: the note exactly when no task is assigned to them;
      otherwise the first 15 of their tasks, in task order. */
  function UserBlockOf(tasks: seq<Issue>, user: string): (b: UserBlock)
    ensures b.user == user
    ensures b.NoTasks? <==> forall i :: 0 <= i < |tasks| ==> tasks[i].assignee != Some(user)
    ensures b.TaskTable? ==>
      && |b.lines| == Min(TasksShown, |TasksOf(tasks, user)|)
      && forall i :: 0 <= i < |b.lines| ==> b.lines[i] == LineOf(TasksOf(tasks, user)[i])
  {
    var mine := TasksOf(tasks, user);
    if |mine| == 0 then
      NoTasks(user)
    else
      assert mine[0] in tasks;
      var shown := Take(mine, TasksShown);
      TaskTable(user, seq(|shown|, i requires 0 <= i < |shown| => LineOf(shown[i])))
  }

  /** Every listed line belongs to a task of the block's user, and a block
      never shows more than 15 lines. */
  lemma UserBlockLines(tasks: seq<Issue>, user: string, i: int)
    requires UserBlockOf(tasks, user).TaskTable? && 0 <= i < |UserBlockOf(tasks, user).lines|
    ensures |UserBlockOf(tasks, user).lines| <= TasksShown
    ensures exists j ::
      && 0 <= j < |tasks| && tasks[j].assignee == Some(user)
      && UserBlockOf(tasks, user).lines[i] == LineOf(tasks[j])
  {
    var mine := TasksOf(tasks, user);
    assert mine[i] in tasks;
  }

  // ---------------------------------------------------------------------
  // The report

  /** One part of the report, in the order they are written. */
  datatype Section =
    | Heading(projectKey: string)
    | Summary(active: nat, blocked: nat)
    | Statuses(counts: seq<(string, nat)>)
    | Participants(blocks: seq<UserBlock>)
    | BlockedTasks(rows: seq<(string, string)>)
    | Recommendations(text: string)
    | Footer

  /** The status table as printed: status and count. */
  function StatusRows(t: Groups<string, Issue>): (rows: seq<(string, nat)>)
    ensures |rows| == |t|
    ensures forall i :: 0 <= i < |t| ==> rows[i] == (t[i].0, |t[i].1|)
  {
    seq(|t|, i requires 0 <= i < |t| => (t[i].0, |t[i].1|))
  }

  /** The blocked list, when there is one: every blocked task, key and
      summary. */
  function BlockedPart(blocked: seq<Issue>): (part: seq<Section>)
    ensures |part| == if |blocked| > 0 then 1 else 0
    ensures forall i :: 0 <= i < |part| ==> part[i].BlockedTasks? && |part[i].rows| == |blocked|
    ensures forall i, k :: 0 <= i < |part| && 0 <= k < |blocked| ==> part[i].rows[k] == (blocked[k].key, blocked[k].summary)
  {
    if |blocked| > 0 then
      [BlockedTasks(seq(|blocked|, i requires 0 <= i < |blocked| => (blocked[i].key, blocked[i].summary)))]
    else []
  }

  function AdvicePart(advice: string): (part: seq<Section>)
    ensures |part| == if advice != "" then 1 else 0
    ensures forall i :: 0 <= i < |part| ==> part[i] == Recommendations(advice)
  {
    if advice != "" then [Recommendations(advice)] else []
  }

  /** The sections of a report, given its project, tasks, users and advice. */
  function Sections(projectKey: string, tasks: seq<Issue>, users: seq<string>, advice: string): (s: seq<Section>)
    ensures |s| == 5 + |BlockedPart(Blocked(tasks))| + |AdvicePart(advice)|
    ensures s[0] == Heading(projectKey)
    ensures s[1] == Summary(|tasks|, |Blocked(tasks)|)
    ensures s[2] == Statuses(StatusRows(StatusTable(tasks)))
    ensures s[3].Participants? && |s[3].blocks| == |users|
    ensures forall i :: 0 <= i < |users| ==> s[3].blocks[i] == UserBlockOf(tasks, users[i])
    ensures s[4..|s| - 1] == BlockedPart(Blocked(tasks)) + AdvicePart(advice)
    ensures s[|s| - 1] == Footer
  {
    var blocks := seq(|users|, i requires 0 <= i < |users| => UserBlockOf(tasks, users[i]));
    Layout([Heading(projectKey), Summary(|tasks|, |Blocked(tasks)|),
            Statuses(StatusRows(StatusTable(tasks))), Participants(blocks)],
           BlockedPart(Blocked(tasks)) + AdvicePart(advice))
  }

  /** The fixed sections, then the optional ones, then the footer. */
  function Layout(head: seq<Section>, middle: seq<Section>): (s: seq<Section>)
    ensures |s| == |head| + |middle| + 1
    ensures s[..|head|] == head
    ensures s[|head|..|s| - 1] == middle
    ensures s[|s| - 1] == Footer
  {
    var s := head + middle + [Footer];
    assert s[..|head|] == head;
    assert s[|head|..|s| - 1] == middle;
    s
  }

  /** Some task is blocked exactly when the blocked list is non-empty. */
  lemma SomeBlocked(tasks: seq<Issue>)
    ensures |Blocked(tasks)| > 0 <==> exists j :: 0 <= j < |tasks| && IsBlocked(tasks[j])
  {
    if exists j :: 0 <= j < |tasks| && IsBlocked(tasks[j]) {
      var j :| 0 <= j < |tasks| && IsBlocked(tasks[j]);
      assert tasks[j] in Blocked(tasks);
    }
    if |Blocked(tasks)| > 0 {
      var r := Blocked(tasks);
      assert r[0] in tasks;
      var j :| 0 <= j < |tasks| && tasks[j] == r[0];
      assert IsBlocked(tasks[j]);
    }
  }

  /** A report laid out as four fixed sections, the blocked list `b`, the
      advice `a` and the footer has a blocked list or advice exactly when
      `b` or `a` is non-empty. */
  lemma MiddleKinds(s: seq<Section>, b: seq<Section>, a: seq<Section>)
    requires |s| == 5 + |b| + |a|
    requires s[0].Heading? && s[1].Summary? && s[2].Statuses? && s[3].Participants? && s[|s| - 1].Footer?
    requires s[4..|s| - 1] == b + a
    requires forall i :: 0 <= i < |b| ==> b[i].BlockedTasks?
    requires forall i :: 0 <= i < |a| ==> a[i].Recommendations?
    ensures (exists i :: 0 <= i < |s| && s[i].BlockedTasks?) <==> |b| > 0
    ensures (exists i :: 0 <= i < |s| && s[i].Recommendations?) <==> |a| > 0
  {
    forall i | 4 <= i < |s| - 1
      ensures s[i] == (b + a)[i - 4]
    {
      assert s[4..|s| - 1][i - 4] == s[i];
    }
    if |b| > 0 {
      assert s[4] == b[0];
    }
    if |a| > 0 {
      assert s[4 + |b|] == a[0];
    }
  }

  /** Which sections sit between the participants and the footer. */
  lemma SectionsMiddle(projectKey: string, tasks: seq<Issue>, users: seq<string>, advice: string)
    ensures var s := Sections(projectKey, tasks, users, advice);
      && ((exists i :: 0 <= i < |s| && s[i].BlockedTasks?) <==> |Blocked(tasks)| > 0)
      && ((exists i :: 0 <= i < |s| && s[i].Recommendations?) <==> advice != "")
  {
    MiddleKinds(Sections(projectKey, tasks, users, advice), BlockedPart(Blocked(tasks)), AdvicePart(advice));
  }

  /** The report's layout: the blocked list only when some task is blocked,
      the advice only when there is some. */
  lemma SectionsShape(projectKey: string, tasks: seq<Issue>, users: seq<string>, advice: string)
    ensures var s := Sections(projectKey, tasks, users, advice);
      && ((exists i :: 0 <= i < |s| && s[i].BlockedTasks?) <==> exists j :: 0 <= j < |tasks| && IsBlocked(tasks[j]))
      && ((exists i :: 0 <= i < |s| && s[i].Recommendations?) <==> advice != "")
  {
    SomeBlocked(tasks);
    SectionsMiddle(projectKey, tasks, users, advice);
  }

  const LoadingMessage: string := "Загрузка задач..."

  /** `generatePlanningReport`. When the search fails the error propagates
      after the first progress call; otherwise the report is built from all
      the tasks found. */
  method GeneratePlanningReport(server: SearchServer, filters: Option<ReportFilters>, llm: LlmOutcome, ghost bound: int)
    returns (progress: seq<Step>, report: Result<seq<Section>>)
    requires HonoursPageSize(server, PlanningJql(EffectiveProject(filters), EffectiveUsers(filters)), bound)
    ensures var found := GetAllIssues(server, PlanningJql(EffectiveProject(filters), EffectiveUsers(filters)), bound);
      && (report.Err? <==> found.Err?)
      && (report.Err? ==> report.error == found.error && progress == [Step(10, LoadingMessage)])
      && (report.Ok? ==> progress == FullProgress(LoadingMessage, "Анализ статусов...", "Анализ зависимостей...",
                                                  "Получение советов от LLM...", "Генерация отчета...", llm))
      && (report.Ok? ==> report.value == Sections(EffectiveProject(filters), found.value, EffectiveUsers(filters), Advice(llm)))
  {
    var users := EffectiveUsers(filters);
    var projectKey := EffectiveProject(filters);
    progress := [Step(10, LoadingMessage)];
    var found := GetAllIssues(server, PlanningJql(projectKey, users), bound);
    if found.Err? {
      report := Err(found.error);
      return;
    }
    progress := FullProgress(LoadingMessage, "Анализ статусов...", "Анализ зависимостей...",
                             "Получение советов от LLM...", "Генерация отчета...", llm);
    report := Ok(Sections(projectKey, found.value, users, Advice(llm)));
  }
}

=== FILE: report_filters_modal.dfy ===
/** The report-filters dialog (src/features/reports/ui/report-filters-modal.tsx):
    the default date range of each report kind, toggling a user in the
    selection, and turning the dialog's state into report filters. Dates
    are day numbers; `iso` stands for writing a day as `YYYY-MM-DD`. */
module ReportFiltersModal {
  import opened Outcomes
  import opened Collections
  import opened ReportKit
  import JiraConstants
  import WeeklyReport
  import Tracker

  /** The report the dialog is opened for; `None` when none is given. */
  datatype ReportKind = Daily | Weekly | Time | Planning

  /** A range of days, both ends included. */
  datatype DayRange = DayRange(from: int, to: int)

  /** `getDefaultDates`: yesterday alone for the daily report, the last
      seven days and today for the weekly and time reports, the last thirty
      days and today otherwise. */
  function DefaultDates(kind: Option<ReportKind>, today: int): (r: DayRange)
    ensures r.from <= r.to <= today
    ensures kind == Some(Daily) ==> r.to == today - 1 && r.to - r.from + 1 == 1
    ensures kind == Some(Weekly) || kind == Some(Time) ==> r.to == today && r.to - r.from + 1 == 8
    ensures kind.None? || kind == Some(Planning) ==> r.to == today && r.to - r.from + 1 == 31
  {
    if kind == Some(Daily) then DayRange(today - 1, today - 1)
    else if kind == Some(Weekly) || kind == Some(Time) then DayRange(today - 7, today)
    else DayRange(today - 30, today)
  }

  /** The project picker's two options. */
  datatype ProjectChoice = Dev | Product

  function ProjectName(p: ProjectChoice): (name: string)
    ensures name != ""
  {
    match p
    case Dev => "DEV"
    case Product => "PRODUCT"
  }

  /** What the dialog holds: the two date inputs (which the user may clear),
      the selected users and the chosen project. */
  datatype DialogState = DialogState(dateFrom: string, dateTo: string, selected: seq<string>, project: ProjectChoice)

  /** The state the dialog opens with: the default dates of its report
      kind, the whole team selected, and the `DEV` project. */
  function InitialState(kind: Option<ReportKind>, today: int, iso: int -> string): (st: DialogState)
    ensures st.selected == JiraConstants.ActiveUsers
    ensures ProjectName(st.project) == JiraConstants.ProjectKey
    ensures st.dateFrom == iso(DefaultDates(kind, today).from) && st.dateTo == iso(DefaultDates(kind, today).to)
  {
    var d := DefaultDates(kind, today);
    DialogState(iso(d.from), iso(d.to), JiraConstants.ActiveUsers, Dev)
  }

  /** `handleUserToggle`: a selected user is removed, every occurrence of
      them; an unselected user is added at the end. */
  function ToggleUser(selected: seq<string>, user: string): (r: seq<string>)
    ensures user in r <==> user !in selected
    ensures user !in selected ==> r == selected + [user]
    ensures forall x :: x != user ==> (x in r <==> x in selected)
  {
    if user in selected then
      FilterMembers(selected, (u: string) => u != user);
      Filter(selected, (u: string) => u != user)
    else selected + [user]
  }

  /** Toggling never disturbs the other users: with the toggled user taken
      out, the selection is the same list, in the same order. */
  lemma ToggleKeepsOthers(selected: seq<string>, user: string)
    ensures Filter(ToggleUser(selected, user), (u: string) => u != user) == Filter(selected, (u: string) => u != user)
  {
    var p := (u: string) => u != user;
    if user in selected {
      FilterIdempotent(selected, p);
    } else {
      FilterAppend(selected, [user], p);
      assert Filter([user], p) == [];
    }
  }

  /** Selecting an unselected user and then deselecting them gives back
      the selection as it was. */
  lemma ToggleTwice(selected: seq<string>, user: string)
    requires user !in selected
    ensures ToggleUser(ToggleUser(selected, user), user) == selected
  {
    var p := (u: string) => u != user;
    FilterAppend(selected, [user], p);
    assert Filter([user], p) == [];
    FilterAll(selected, p);
  }

  /** `handleConfirm`: a cleared date and an empty selection become unset;
      everything else is passed on as it is. */
  function Confirm(st: DialogState): (f: ReportFilters)
    ensures f.dateFrom.None? <==> st.dateFrom == ""
    ensures f.dateFrom.Some? ==> f.dateFrom.value == st.dateFrom
    ensures f.dateTo.None? <==> st.dateTo == ""
    ensures f.dateTo.Some? ==> f.dateTo.value == st.dateTo
    ensures f.users.None? <==> |st.selected| == 0
    ensures f.users.Some? ==> f.users.value == st.selected
    ensures f.projectKey == Some(ProjectName(st.project))
  {
    ReportFilters(
      if st.dateFrom != "" then Some(st.dateFrom) else None,
      if st.dateTo != "" then Some(st.dateTo) else None,
      if |st.selected| > 0 then Some(st.selected) else None,
      Some(ProjectName(st.project)))
  }

  /** What a report does with confirmed filters: deselecting everyone
      means the whole team, and the chosen project is the one searched. */
  lemma ConfirmEffective(st: DialogState)
    ensures EffectiveUsers(Some(Confirm(st))) == if |st.selected| > 0 then st.selected else JiraConstants.ActiveUsers
    ensures EffectiveProject(Some(Confirm(st))) == ProjectName(st.project)
  {
  }

  /** Confirming the weekly dialog untouched yields the same reporting
      window as asking for the weekly report with no filters at all. */
  lemma WeeklyDefaultsWindow(today: int, iso: int -> string, parseDay: string -> int)
    requires iso(today - 7) != "" && iso(today) != ""
    requires parseDay(iso(today - 7)) == today - 7 && parseDay(iso(today)) == today
    ensures WeeklyReport.ReportWindow(Some(Confirm(InitialState(Some(Weekly), today, iso))), today, parseDay)
      == WeeklyReport.ReportWindow(None, today, parseDay)
  {
    var f := Confirm(InitialState(Some(Weekly), today, iso));
    assert f.dateFrom == Some(iso(today - 7)) && f.dateTo == Some(iso(today));
  }

  /** When writing a day and reading it back moves it by `shift` days, the
      untouched weekly dialog's window is the default window moved by
      `shift` days, and so differs from it. Outside UTC the dialog's
      `toISOString` dates and the report's `new Date('YYYY-MM-DD')` make
      `shift` 1: the window ends yesterday. */
  lemma WeeklyDefaultsWindowShifted(today: int, iso: int -> string, parseDay: string -> int, shift: int)
    requires iso(today - 7) != "" && iso(today) != ""
    requires parseDay(iso(today - 7)) == today - 7 - shift && parseDay(iso(today)) == today - shift
    ensures var dialog := WeeklyReport.ReportWindow(Some(Confirm(InitialState(Some(Weekly), today, iso))), today, parseDay);
      var plain := WeeklyReport.ReportWindow(None, today, parseDay);
      && dialog.from == plain.from - shift * Tracker.DayMs
      && dialog.to == plain.to - shift * Tracker.DayMs
      && (shift != 0 ==> dialog != plain)
  {
    var f := Confirm(InitialState(Some(Weekly), today, iso));
    assert f.dateFrom == Some(iso(today - 7)) && f.dateTo == Some(iso(today));
  }
}

=== FILE: report_kit.dfy ===
/** What the report generators share: the filters a report is asked for,
    the defaults that fill them in, the optional advice of the language
    model, and the progress callbacks a report emits. */
module ReportKit {
  import opened Outcomes
  import JiraConstants

  /** The filters chosen in the report dialog; each may be left unset. */
  datatype ReportFilters = ReportFilters(
    dateFrom: Option<string>,
    dateTo: Option<string>,
    users: Option<seq<string>>,
    projectKey: Option<string>)

  /** `filters?.users || ACTIVE_USERS`: the chosen users when a list was
      given (an empty list counts as given), else the configured team. */
  function EffectiveUsers(filters: Option<ReportFilters>): (users: seq<string>)
    ensures filters.Some? && filters.value.users.Some? ==> users == filters.value.users.value
    ensures filters.None? || filters.value.users.None? ==> users == JiraConstants.ActiveUsers
  {
    if filters.Some? then filters.value.users.GetOr(JiraConstants.ActiveUsers) else JiraConstants.ActiveUsers
  }

  /** `filters?.projectKey || PROJECT_KEY`: an unset or empty key falls back
      to the configured project, so the result is never empty. */
  function EffectiveProject(filters: Option<ReportFilters>): (key: string)
    ensures key != ""
    ensures filters.Some? && filters.value.projectKey.Some? && filters.value.projectKey.value != "" ==>
      key == filters.value.projectKey.value
  {
    if filters.Some? && filters.value.projectKey.Some? && filters.value.projectKey.value != "" then
      filters.value.projectKey.value
    else JiraConstants.ProjectKey
  }

  /** What asking the language model gave: it is not configured, the call
      failed (the failure is logged and ignored), or it answered. */
  datatype LlmOutcome = NotConfigured | Failed | Answered(text: string)

  /** The advice a report prints: the answer, or nothing. */
  function Advice(llm: LlmOutcome): (advice: string)
    ensures llm.Answered? ==> advice == llm.text
    ensures !llm.Answered? ==> advice == ""
  {
    if llm.Answered? then llm.text else ""
  }

  /** One `onProgress(progress, message)` call. */
  datatype Step = Step(percent: int, message: string)

  const DoneMessage: string := "Готово"

  /** Progress never goes back. */
  ghost predicate Increasing(p: seq<Step>) {
    forall i, j :: 0 <= i < j < |p| ==> p[i].percent < p[j].percent
  }

  /** The progress calls of a report that ran to the end: 10, 30, 50, then
      70 only when the model is configured, then 90 and (100, `Готово`). */
  function FullProgress(m10: string, m30: string, m50: string, m70: string, m90: string, llm: LlmOutcome): (p: seq<Step>)
    ensures |p| == if llm.NotConfigured? then 5 else 6
    ensures Increasing(p)
    ensures p[0] == Step(10, m10) && p[|p| - 1] == Step(100, DoneMessage)
    ensures (exists i :: 0 <= i < |p| && p[i].percent == 70) <==> !llm.NotConfigured?
  {
    var p := [Step(10, m10), Step(30, m30), Step(50, m50)]
      + (if llm.NotConfigured? then [] else [Step(70, m70)])
      + [Step(90, m90), Step(100, DoneMessage)];
    assert !llm.NotConfigured? ==> p[3].percent == 70;
    p
  }
}

=== FILE: sprints_route.dfy ===
/** The sprint velocity endpoint (src/app/api/sprints/route.ts): which board
    to read, what to answer when there is none or it has no sprints, and
    the velocity of the active sprints and the ten most recently closed
    ones. Every fetch goes through the client's fetchers, which turn
    failures into empty lists. */
module SprintsRoute {
  import opened Outcomes
  import opened Tracker
  import opened Collections
  import opened StableSort
  import opened Text
  import opened JiraClient
  import JiraConstants

  /** How many closed sprints are reported. */
  const ClosedShown: nat := 10

  /** The date a closed sprint is ordered by: its completion date, else its
      end date, else empty. */
  function EndKey(s: Sprint): (k: string)
    ensures s.completeDate != "" ==> k == s.completeDate
    ensures s.completeDate == "" ==> k == s.endDate
  {
    if s.completeDate != "" then s.completeDate
    else if s.endDate != "" then s.endDate
    else ""
  }

  /** The comparator `(a, b) => dateB.localeCompare(dateA)`: `a` goes first
      when it ended later. */
  function EndedLater(a: Sprint, b: Sprint): bool {
    StrLess(EndKey(b), EndKey(a))
  }

  /** `EndedLater` is a strict weak order. */
  lemma EndedLaterOrder()
    ensures StrictWeakOrder(EndedLater)
  {
    forall a: Sprint ensures !EndedLater(a, a) {
      StrLessIrreflexive(EndKey(a));
    }
    forall a: Sprint, b: Sprint, c: Sprint | EndedLater(a, b) && EndedLater(b, c) ensures EndedLater(a, c) {
      StrLessTransitive(EndKey(c), EndKey(b), EndKey(a));
    }
    forall a: Sprint, b: Sprint, c: Sprint | !EndedLater(a, b) && !EndedLater(b, c) ensures !EndedLater(a, c) {
      StrLessTotal(EndKey(a), EndKey(b));
      StrLessTotal(EndKey(b), EndKey(c));
      if EndedLater(a, c) {
        if EndKey(a) == EndKey(b) {
          assert false;
        } else {
          StrLessTransitive(EndKey(a), EndKey(b), EndKey(c));
          StrLessIrreflexive(EndKey(c));
          if EndKey(b) == EndKey(c) {
            StrLessIrreflexive(EndKey(a));
          } else {
            StrLessTransitive(EndKey(c), EndKey(a), EndKey(b));
          }
        }
      }
    }
  }

  /** `sortedSprints`: the closed sprints, latest end first (ties in input
      order), at most ten. */
  function LatestClosed(closed: seq<Sprint>): (r: seq<Sprint>)
    ensures |r| == Min(|closed|, ClosedShown)
  {
    Take(Sort(closed, EndedLater), ClosedShown)
  }

  /** The reported closed sprints run from latest to earliest end. */
  lemma LatestClosedSorted(closed: seq<Sprint>)
    ensures forall i, j :: 0 <= i < j < |LatestClosed(closed)| ==>
      !StrLess(EndKey(LatestClosed(closed)[i]), EndKey(LatestClosed(closed)[j]))
  {
    EndedLaterOrder();
    SortSorted(closed, EndedLater);
  }

  /** No closed sprint left out ended later than one reported. */
  lemma LatestClosedAreLatest(closed: seq<Sprint>, kept: int, dropped: int)
    requires 0 <= kept < |LatestClosed(closed)|
    requires |LatestClosed(closed)| <= dropped < |closed|
    ensures !StrLess(EndKey(LatestClosed(closed)[kept]), EndKey(Sort(closed, EndedLater)[dropped]))
  {
    EndedLaterOrder();
    SortSorted(closed, EndedLater);
  }

  /** Every reported closed sprint is one of the board's closed sprints. */
  lemma LatestClosedFromInput(closed: seq<Sprint>, i: int)
    requires 0 <= i < |LatestClosed(closed)|
    ensures LatestClosed(closed)[i] in closed
  {
    SortMember(closed, EndedLater, i);
  }

  /** Reported sprints with the same end date keep the order the board
      listed them in. */
  lemma LatestClosedTies(closed: seq<Sprint>, i: int, j: int)
    requires 0 <= i < j < |LatestClosed(closed)|
    requires EndKey(LatestClosed(closed)[i]) == EndKey(LatestClosed(closed)[j])
    ensures exists a, b :: 0 <= a < b < |closed| && closed[a] == LatestClosed(closed)[i] && closed[b] == LatestClosed(closed)[j]
  {
    var r := Sort(closed, EndedLater);
    StrLessIrreflexive(EndKey(r[i]));
    SortStable(closed, EndedLater);
    assert !EndedLater(r[i], r[j]) && !EndedLater(r[j], r[i]);
  }

  /** The sprints ordered by the date `k`. */
  function EndsAt(k: string): Sprint -> bool {
    s => EndKey(s) == k
  }

  /** Two sprints are tied under `EndedLater` exactly when they are ordered
      by the same date. */
  lemma TiedExactlyWhenSameEnd(x: Sprint, y: Sprint)
    ensures EquivalentTo(EndedLater, x)(y) <==> EndsAt(EndKey(x))(y)
  {
    assert EquivalentTo(EndedLater, x)(y) == (!EndedLater(x, y) && !EndedLater(y, x));
    assert EndsAt(EndKey(x))(y) == (EndKey(y) == EndKey(x));
    StrLessTotal(EndKey(x), EndKey(y));
    StrLessIrreflexive(EndKey(x));
  }

  /** For every date, the reported sprints ordered by it are the first of
      the board's sprints ordered by it, in the board's order: the sort
      is stable and the top ten are a prefix. */
  lemma LatestClosedBoardOrder(closed: seq<Sprint>, k: string)
    ensures Filter(LatestClosed(closed), EndsAt(k)) <= Filter(closed, EndsAt(k))
  {
    var x := Sprint(0, "", "", "", k, k, "");
    assert EndKey(x) == k;
    var sorted := Sort(closed, EndedLater);
    EndedLaterOrder();
    SortClass(closed, EndedLater, x);
    forall i | 0 <= i < |sorted| ensures EquivalentTo(EndedLater, x)(sorted[i]) == EndsAt(k)(sorted[i]) {
      TiedExactlyWhenSameEnd(x, sorted[i]);
    }
    forall i | 0 <= i < |closed| ensures EquivalentTo(EndedLater, x)(closed[i]) == EndsAt(k)(closed[i]) {
      TiedExactlyWhenSameEnd(x, closed[i]);
    }
    FilterCongruent(sorted, EquivalentTo(EndedLater, x), EndsAt(k));
    FilterCongruent(closed, EquivalentTo(EndedLater, x), EndsAt(k));
    FilterTake(sorted, ClosedShown, EndsAt(k));
  }

  /** A sprint with the figures computed from its issues. */
  datatype SprintWithVelocity = SprintWithVelocity(
    sprint: Sprint,
    velocity: int,
    issueCount: nat,
    completedCount: nat)

  predicate IsDone(i: Issue) {
    i.category == Done
  }

  /** `customfield_10016` when it holds a number, else 0. */
  function Points(i: Issue): int {
    i.storyPoints.GetOr(0)
  }

  /** Story points of the done issues. */
  function Velocity(issues: seq<Issue>): int {
    SumOf(Filter(issues, IsDone), Points)
  }

  /** The points an issue contributes to the velocity. */
  function DonePoints(i: Issue): int {
    if IsDone(i) then Points(i) else 0
  }

  /** Reference definition: the velocity sums, over every issue, its points
      when it is done and 0 otherwise. */
  lemma {:induction false} VelocityAsSum(issues: seq<Issue>)
    ensures Velocity(issues) == SumOf(issues, DonePoints)
    decreases |issues|
  {
    if |issues| > 0 {
      VelocityAsSum(issues[1..]);
      var rest := Filter(issues[1..], IsDone);
      if IsDone(issues[0]) {
        assert Filter(issues, IsDone) == [issues[0]] + rest;
        assert ([issues[0]] + rest)[1..] == rest;
      } else {
        assert Filter(issues, IsDone) == rest;
      }
    }
  }

  /** With non-negative story points the velocity is between 0 and the
      points of all issues, and it is 0 when no issue is done. */
  lemma {:induction false} VelocityBounds(issues: seq<Issue>)
    requires forall i :: 0 <= i < |issues| ==> Points(issues[i]) >= 0
    ensures 0 <= Velocity(issues) <= SumOf(issues, Points)
    ensures (forall i :: 0 <= i < |issues| ==> !IsDone(issues[i])) ==> Velocity(issues) == 0
    decreases |issues|
  {
    VelocityAsSum(issues);
    if |issues| > 0 {
      VelocityBounds(issues[1..]);
      VelocityAsSum(issues[1..]);
    }
  }

  /** The figures of one sprint from its issues. */
  function WithVelocity(sprint: Sprint, issues: seq<Issue>): (r: SprintWithVelocity)
    ensures r.sprint == sprint
    ensures r.issueCount == |issues|
    ensures r.completedCount <= r.issueCount
    ensures r.completedCount == |set i | 0 <= i < |issues| && IsDone(issues[i])|
    ensures r.velocity == SumOf(issues, DonePoints)
  {
    VelocityAsSum(issues);
    FilterCount(issues, IsDone);
    assert PassingSet(issues, IsDone) == set i | 0 <= i < |issues| && IsDone(issues[i]);
    SprintWithVelocity(sprint, Velocity(issues), |issues|, |Filter(issues, IsDone)|)
  }

  /** The endpoints the route reads, each behind the client's fetcher. */
  datatype Endpoints = Endpoints(
    boards: seq<(string, string)> -> Result<Option<seq<Board>>>,
    sprints: (int, seq<(string, string)>) -> Result<Option<seq<Sprint>>>,
    sprintIssues: (int, seq<(string, string)>) -> Result<Option<seq<Issue>>>)

  /** The answers of `GET /api/sprints`. */
  datatype SprintsResponse =
    | NoBoard(projectKey: string, availableBoards: seq<Board>)
    | WrongBoardType(boardId: int, suggestedBoard: Board)
    | NoSprints(boardId: int, projectKey: string)
    | Sprints(sprints: seq<SprintWithVelocity>, boardId: int, boardInfo: Option<Board>, projectKey: string)
  {
    /** The HTTP status that goes with the answer. */
    function Status(): int {
      match this
      case NoBoard(_, _) => 404
      case WrongBoardType(_, _) => 400
      case _ => 200
    }
  }

  /** The board the route reads: the configured one, else the project's
      first scrum board; 0 when there is neither. */
  function ChosenBoard(configured: int, boards: seq<Board>): (id: int)
    ensures configured != 0 ==> id == configured
    ensures configured == 0 && FindScrumBoard(boards).Some? ==> id == FindScrumBoard(boards).value.id
    ensures configured == 0 && FindScrumBoard(boards).None? ==> id == 0
  {
    if configured != 0 then configured
    else match FindScrumBoard(boards)
      case Some(b) => b.id
      case None => 0
  }

  /** The sprints reported, before their figures: the active ones, then the
      latest closed ones. */
  function ReportedSprints(active: seq<Sprint>, closed: seq<Sprint>): (r: seq<Sprint>)
    ensures |r| == |active| + Min(|closed|, ClosedShown)
    ensures r[..|active|] == active && r[|active|..] == LatestClosed(closed)
  {
    active + LatestClosed(closed)
  }

  /** Each sprint with the figures of its issues, in order. */
  function Figures(e: Endpoints, ss: seq<Sprint>): (r: seq<SprintWithVelocity>)
    ensures |r| == |ss|
    ensures forall i :: 0 <= i < |ss| ==> r[i] == WithVelocity(ss[i], GetSprintIssues(e.sprintIssues, ss[i].id))
  {
    seq(|ss|, i requires 0 <= i < |ss| => WithVelocity(ss[i], GetSprintIssues(e.sprintIssues, ss[i].id)))
  }

  /** `GET /api/sprints` with `configured` the `JIRA_BOARD_ID` setting (0
      when unset). */
  function SprintsGet(e: Endpoints, configured: int): (r: SprintsResponse)
    ensures var boards := GetBoards(e.boards, JiraConstants.ProjectKey);
      var id := ChosenBoard(configured, boards);
      var closed := GetSprints(e.sprints, id, Some("closed"));
      var active := GetSprints(e.sprints, id, Some("active"));
      var scrum := FindScrumBoard(boards);
      && (r.NoBoard? <==> id == 0)
      && (r.NoBoard? ==> r.availableBoards == boards && r.Status() == 404)
      && (r.WrongBoardType? <==> id != 0 && closed == [] && active == [] && scrum.Some? && scrum.value.id != id)
      && (r.WrongBoardType? ==> r.suggestedBoard == scrum.value && r.boardId == id && r.Status() == 400)
      && (r.NoSprints? <==> id != 0 && closed == [] && active == [] && (scrum.None? || scrum.value.id == id))
      && (r.NoSprints? ==> r.boardId == id && r.projectKey == JiraConstants.ProjectKey && r.Status() == 200)
      && (r.NoBoard? ==> r.projectKey == JiraConstants.ProjectKey)
      && (r.Sprints? ==> r.projectKey == JiraConstants.ProjectKey && r.Status() == 200)
      && (r.Sprints? ==> r.boardId == id && r.sprints == Figures(e, ReportedSprints(active, closed)))
      && (r.Sprints? ==> r.boardInfo == if configured == 0 then scrum else None)
  {
    var boards := GetBoards(e.boards, JiraConstants.ProjectKey);
    var id := ChosenBoard(configured, boards);
    var info := if configured == 0 then FindScrumBoard(boards) else None;
    if id == 0 then NoBoard(JiraConstants.ProjectKey, boards)
    else
      var closed := GetSprints(e.sprints, id, Some("closed"));
      var active := GetSprints(e.sprints, id, Some("active"));
      if |closed| == 0 && |active| == 0 then
        match FindScrumBoard(boards)
        case Some(b) =>
          if b.id != id then WrongBoardType(id, b) else NoSprints(id, JiraConstants.ProjectKey)
        case None => NoSprints(id, JiraConstants.ProjectKey)
      else
        Sprints(Figures(e, ReportedSprints(active, closed)), id, info, JiraConstants.ProjectKey)
  }

  /** In a successful answer the active sprints come first, every sprint
      keeps its fields, and at most ten closed sprints follow. */
  lemma SprintsGetOrder(e: Endpoints, configured: int)
    requires SprintsGet(e, configured).Sprints?
    ensures var id := ChosenBoard(configured, GetBoards(e.boards, JiraConstants.ProjectKey));
      var active := GetSprints(e.sprints, id, Some("active"));
      var r := SprintsGet(e, configured).sprints;
      && |active| <= |r| <= |active| + ClosedShown
      && (forall i :: 0 <= i < |active| ==> r[i].sprint == active[i])
      && (forall i :: |active| <= i < |r| ==> r[i].sprint == LatestClosed(GetSprints(e.sprints, id, Some("closed")))[i - |active|])
  {
  }
}

=== FILE: stable_sort.dfy ===
/** A stable sort, the behaviour of `Array.prototype.sort` with a comparator
    (stable since ECMAScript 2019). The comparator is given as `gt`, where
    `gt(a, b)` means `a` must come strictly before `b`; elements for which
    neither comes first are "equivalent" and keep their input order. */
module StableSort {
  import opened Collections

  /** `gt` is irreflexive, transitive, and its complement is transitive: the
      conditions under which a comparator sort is well defined. */
  ghost predicate StrictWeakOrder<T(!new)>(gt: (T, T) -> bool) {
    && (forall a :: !gt(a, a))
    && (forall a, b, c :: gt(a, b) && gt(b, c) ==> gt(a, c))
    && (forall a, b, c :: !gt(a, b) && !gt(b, c) ==> !gt(a, c))
  }

  /** No element is placed strictly after one that must follow it. */
  ghost predicate SortedBy<T>(s: seq<T>, gt: (T, T) -> bool) {
    forall i, j :: 0 <= i < j < |s| ==> !gt(s[j], s[i])
  }

  /** Any two equivalent elements of `r` occur in that order in `s`. */
  ghost predicate KeepsTiesOf<T>(r: seq<T>, s: seq<T>, gt: (T, T) -> bool) {
    forall i, j :: 0 <= i < j < |r| && !gt(r[i], r[j]) && !gt(r[j], r[i]) ==>
      exists a, b :: 0 <= a < b < |s| && s[a] == r[i] && s[b] == r[j]
  }

  /** How many leading elements of `t` must precede `x`. */
  function InsertionPoint<T>(x: T, t: seq<T>, gt: (T, T) -> bool): (k: nat)
    ensures k <= |t|
    ensures forall m :: 0 <= m < k ==> gt(t[m], x)
    ensures k < |t| ==> !gt(t[k], x)
  {
    if |t| == 0 || !gt(t[0], x) then 0 else 1 + InsertionPoint(x, t[1..], gt)
  }

  /** Places `x` before the first element that need not precede it. */
  function Insert<T>(x: T, t: seq<T>, gt: (T, T) -> bool): seq<T> {
    var k := InsertionPoint(x, t, gt);
    t[..k] + [x] + t[k..]
  }

  /** Inserting adds exactly one occurrence of `x`. */
  lemma InsertMultiset<T>(x: T, t: seq<T>, gt: (T, T) -> bool)
    ensures multiset(Insert(x, t, gt)) == multiset{x} + multiset(t)
    ensures |Insert(x, t, gt)| == |t| + 1
  {
    var k := InsertionPoint(x, t, gt);
    assert t == t[..k] + t[k..];
  }

  /** Insertion sort; the output is a permutation of the input. */
  function Sort<T>(s: seq<T>, gt: (T, T) -> bool): (r: seq<T>)
    ensures multiset(r) == multiset(s)
    ensures |r| == |s|
  {
    if |s| == 0 then []
    else
      var t := Sort(s[1..], gt);
      InsertMultiset(s[0], t, gt);
      assert s == [s[0]] + s[1..];
      Insert(s[0], t, gt)
  }

  /** Inserting into a sorted sequence keeps it sorted: one pair. */
  lemma InsertSortedPair<T(!new)>(x: T, t: seq<T>, gt: (T, T) -> bool, i: int, j: int)
    requires StrictWeakOrder(gt) && SortedBy(t, gt)
    requires 0 <= i < j < |t| + 1
    ensures !gt(Insert(x, t, gt)[j], Insert(x, t, gt)[i])
  {
    var k := InsertionPoint(x, t, gt);
    var r := Insert(x, t, gt);
    if j < k {
      assert r[i] == t[i] && r[j] == t[j];
    } else if j == k {
      assert r[i] == t[i] && r[j] == x;
      assert gt(t[i], x);
    } else if i < k {
      assert r[i] == t[i] && r[j] == t[j - 1];
    } else if i == k {
      assert r[i] == x && r[j] == t[j - 1];
      assert !gt(t[k], x);
      assert j - 1 == k || !gt(t[j - 1], t[k]);
    } else {
      assert r[i] == t[i - 1] && r[j] == t[j - 1];
    }
  }

  /** The sorted output respects the order. */
  lemma {:induction false} SortSorted<T(!new)>(s: seq<T>, gt: (T, T) -> bool)
    requires StrictWeakOrder(gt)
    ensures SortedBy(Sort(s, gt), gt)
    decreases |s|
  {
    if |s| > 0 {
      var t := Sort(s[1..], gt);
      SortSorted(s[1..], gt);
      assert Sort(s, gt) == Insert(s[0], t, gt);
      forall i, j | 0 <= i < j < |t| + 1 ensures !gt(Insert(s[0], t, gt)[j], Insert(s[0], t, gt)[i]) {
        InsertSortedPair(s[0], t, gt, i, j);
      }
    }
  }

  /** Inserting the first element of `s` into a tie-keeping sort of the rest:
      one equivalent pair. */
  lemma InsertStablePair<T>(s: seq<T>, t: seq<T>, gt: (T, T) -> bool, i: int, j: int)
    requires |s| > 0 && multiset(t) == multiset(s[1..]) && KeepsTiesOf(t, s[1..], gt)
    requires 0 <= i < j < |t| + 1
    requires !gt(Insert(s[0], t, gt)[i], Insert(s[0], t, gt)[j])
    requires !gt(Insert(s[0], t, gt)[j], Insert(s[0], t, gt)[i])
    ensures exists a, b :: 0 <= a < b < |s| && s[a] == Insert(s[0], t, gt)[i] && s[b] == Insert(s[0], t, gt)[j]
  {
    var x := s[0];
    var k := InsertionPoint(x, t, gt);
    var r := Insert(x, t, gt);
    var i' := if i < k then i else i - 1;
    var j' := if j < k then j else j - 1;
    assert forall m :: 0 <= m < k ==> r[m] == t[m];
    assert r[k] == x;
    if i != k && j != k {
      assert r[i] == t[i'] && r[j] == t[j'];
      var a, b :| 0 <= a < b < |s[1..]| && s[1..][a] == t[i'] && s[1..][b] == t[j'];
      assert s[a + 1] == r[i] && s[b + 1] == r[j];
    } else if i == k {
      assert r[i] == x && r[j] == t[j'];
      assert t[j'] in multiset(s[1..]);
      var b :| 0 <= b < |s[1..]| && s[1..][b] == t[j'];
      assert s[0] == r[i] && s[b + 1] == r[j];
    } else {
      assert false;
    }
  }

  /** The elements `gt` ranks neither before nor after `x`. */
  function EquivalentTo<T>(gt: (T, T) -> bool, x: T): T -> bool {
    y => !gt(x, y) && !gt(y, x)
  }

  /** Under a strict weak order nothing that must precede `y` is
      equivalent to an element equivalent to `y`. */
  lemma BeforeNotEquivalent<T(!new)>(x: T, t: seq<T>, y: T, gt: (T, T) -> bool)
    requires StrictWeakOrder(gt) && EquivalentTo(gt, x)(y)
    requires forall m :: 0 <= m < |t| ==> gt(t[m], y)
    ensures Filter(t, EquivalentTo(gt, x)) == []
  {
    FilterMembers(t, EquivalentTo(gt, x));
  }

  /** Placing `y` between two parts adds it in front of the filtered
      parts, provided the first part has nothing that passes when `y`
      does. */
  lemma FilterAround<T>(before: seq<T>, y: T, after: seq<T>, e: T -> bool)
    requires e(y) ==> Filter(before, e) == []
    ensures Filter(before + [y] + after, e) == Filter([y], e) + Filter(before + after, e)
  {
    FilterAppend(before + [y], after, e);
    FilterAppend(before, [y], e);
    FilterAppend(before, after, e);
    FilterSingle(y, e);
  }

  /** Inserting `y` puts it in front of its class and leaves the rest of
      the class in place, provided nothing before the insertion point
      belongs to the class when `y` does. */
  lemma InsertClass<T>(y: T, t: seq<T>, gt: (T, T) -> bool, e: T -> bool)
    requires e(y) ==> Filter(t[..InsertionPoint(y, t, gt)], e) == []
    ensures Filter(Insert(y, t, gt), e) == Filter([y], e) + Filter(t, e)
  {
    var k := InsertionPoint(y, t, gt);
    assert t == t[..k] + t[k..];
    FilterAround(t[..k], y, t[k..], e);
  }

  /** One class of equivalent elements leaves the sort exactly as it
      entered, in the same order. */
  lemma {:induction false} SortClass<T(!new)>(s: seq<T>, gt: (T, T) -> bool, x: T)
    requires StrictWeakOrder(gt)
    ensures Filter(Sort(s, gt), EquivalentTo(gt, x)) == Filter(s, EquivalentTo(gt, x))
    decreases |s|
  {
    if |s| > 0 {
      var t := Sort(s[1..], gt);
      SortClass(s[1..], gt, x);
      if EquivalentTo(gt, x)(s[0]) {
        BeforeNotEquivalent(x, t[..InsertionPoint(s[0], t, gt)], s[0], gt);
      }
      InsertClass(s[0], t, gt, EquivalentTo(gt, x));
      FilterSingle(s[0], EquivalentTo(gt, x));
    }
  }

  /** Equivalent elements leave the sort in their input order: any tied
      pair of the output occurs in that order in the input, and for a
      strict weak order each class of equivalent elements is listed in the
      output exactly as in the input. */
  lemma {:induction false} SortStable<T(!new)>(s: seq<T>, gt: (T, T) -> bool)
    ensures KeepsTiesOf(Sort(s, gt), s, gt)
    ensures StrictWeakOrder(gt) ==>
      forall x :: Filter(Sort(s, gt), EquivalentTo(gt, x)) == Filter(s, EquivalentTo(gt, x))
    decreases |s|
  {
    if StrictWeakOrder(gt) {
      forall x ensures Filter(Sort(s, gt), EquivalentTo(gt, x)) == Filter(s, EquivalentTo(gt, x)) {
        SortClass(s, gt, x);
      }
    }
    if |s| > 0 {
      var t := Sort(s[1..], gt);
      SortStable(s[1..], gt);
      assert Sort(s, gt) == Insert(s[0], t, gt);
      forall i, j | 0 <= i < j < |t| + 1
        && !gt(Insert(s[0], t, gt)[i], Insert(s[0], t, gt)[j])
        && !gt(Insert(s[0], t, gt)[j], Insert(s[0], t, gt)[i])
        ensures exists a, b :: 0 <= a < b < |s| && s[a] == Insert(s[0], t, gt)[i] && s[b] == Insert(s[0], t, gt)[j]
      {
        InsertStablePair(s, t, gt, i, j);
      }
    }
  }

  /** Every element of the output comes from the input. */
  lemma SortMember<T>(s: seq<T>, gt: (T, T) -> bool, i: int)
    requires 0 <= i < |Sort(s, gt)|
    ensures Sort(s, gt)[i] in s
  {
    assert Sort(s, gt)[i] in multiset(Sort(s, gt));
  }

  /** Inserting adds the element's share to a sum. */
  lemma SumInsert<T>(x: T, t: seq<T>, gt: (T, T) -> bool, f: T -> int)
    ensures SumOf(Insert(x, t, gt), f) == f(x) + SumOf(t, f)
  {
    var k := InsertionPoint(x, t, gt);
    var a, b := t[..k], t[k..];
    assert Insert(x, t, gt) == a + ([x] + b);
    SumAppend(a, [x] + b, f);
    assert ([x] + b)[1..] == b;
    assert t == a + b;
    SumAppend(a, b, f);
  }

  /** Sorting keeps a sum over the elements. */
  lemma {:induction false} SortSum<T>(s: seq<T>, gt: (T, T) -> bool, f: T -> int)
    ensures SumOf(Sort(s, gt), f) == SumOf(s, f)
    decreases |s|
  {
    if |s| > 0 {
      SortSum(s[1..], gt, f);
      SumInsert(s[0], Sort(s[1..], gt), gt, f);
    }
  }

  /** Inserting an element whose key is new keeps the keys apart. */
  lemma InsertKeysDistinct<T, K>(x: T, t: seq<T>, gt: (T, T) -> bool, key: T -> K)
    requires forall i, j :: 0 <= i < j < |t| ==> key(t[i]) != key(t[j])
    requires forall m :: 0 <= m < |t| ==> key(t[m]) != key(x)
    ensures forall i, j :: 0 <= i < j < |Insert(x, t, gt)| ==> key(Insert(x, t, gt)[i]) != key(Insert(x, t, gt)[j])
  {
    var k := InsertionPoint(x, t, gt);
    var r := Insert(x, t, gt);
    forall i, j | 0 <= i < j < |r| ensures key(r[i]) != key(r[j]) {
      var i' := if i < k then i else i - 1;
      var j' := if j < k then j else j - 1;
      if i == k {
        assert r[i] == x && r[j] == t[j'];
      } else if j == k {
        assert r[i] == t[i'] && r[j] == x;
      } else {
        assert r[i] == t[i'] && r[j] == t[j'];
      }
    }
  }

  /** Sorting keeps a key that tells the elements apart doing so. */
  lemma {:induction false} SortKeysDistinct<T, K>(s: seq<T>, gt: (T, T) -> bool, key: T -> K)
    requires forall i, j :: 0 <= i < j < |s| ==> key(s[i]) != key(s[j])
    ensures forall i, j :: 0 <= i < j < |Sort(s, gt)| ==> key(Sort(s, gt)[i]) != key(Sort(s, gt)[j])
    decreases |s|
  {
    if |s| > 0 {
      var t := Sort(s[1..], gt);
      SortKeysDistinct(s[1..], gt, key);
      forall m | 0 <= m < |t| ensures key(t[m]) != key(s[0]) {
        SortMember(s[1..], gt, m);
        var a :| 0 <= a < |s[1..]| && s[1..][a] == t[m];
        assert s[a + 1] == t[m];
      }
      InsertKeysDistinct(s[0], t, gt, key);
    }
  }
}

=== FILE: text.dfy ===
/** String helpers standing in for the JavaScript string methods the
    dashboard uses: `includes`, `toLowerCase`, `join` and number-to-text
    conversion, together with the parsers that invert them. */
module Text {

  /** `sub` occurs in `s` starting at index `i`. */
  ghost predicate OccursAt(s: string, sub: string, i: int) {
    0 <= i && i + |sub| <= |s| && s[i..i + |sub|] == sub
  }

  /** `String.prototype.includes`: `sub` occurs somewhere in `s`. */
  function Contains(s: string, sub: string): (b: bool)
    ensures b <==> exists i :: OccursAt(s, sub, i)
    decreases |s|
  {
    if |sub| > |s| then
      assert forall i :: !OccursAt(s, sub, i);
      false
    else if s[..|sub|] == sub then
      assert OccursAt(s, sub, 0);
      true
    else
      var b := Contains(s[1..], sub);
      assert forall i :: OccursAt(s[1..], sub, i) ==> OccursAt(s, sub, i + 1) by {
        forall i | OccursAt(s[1..], sub, i) ensures OccursAt(s, sub, i + 1) {
          assert s[i + 1..i + 1 + |sub|] == s[1..][i..i + |sub|];
        }
      }
      assert forall i :: OccursAt(s, sub, i) ==> i >= 1 && OccursAt(s[1..], sub, i - 1) by {
        forall i | OccursAt(s, sub, i) ensures i >= 1 && OccursAt(s[1..], sub, i - 1) {
          assert i != 0;
          assert s[1..][i - 1..i - 1 + |sub|] == s[i..i + |sub|];
        }
      }
      b
  }

  /** A one-character search is plain membership. */
  lemma ContainsChar(s: string, c: char)
    ensures Contains(s, [c]) <==> c in s
  {
    forall i | OccursAt(s, [c], i) ensures 0 <= i < |s| && s[i] == c {
      assert s[i..i + 1][0] == s[i];
    }
    if c in s {
      var i :| 0 <= i < |s| && s[i] == c;
      assert OccursAt(s, [c], i);
    }
  }

  /** The lower-case form of one character for the basic Latin capitals
      `A`-`Z` and the Russian capitals `А`-`Я` and `Ё`, as `toLowerCase`
      maps them. Other characters are left alone here, although
      `toLowerCase` also maps other scripts' capitals (`À`, `Σ`, the Kelvin
      sign) and some to two characters (`İ`). */
  function LowerChar(c: char): (d: char)
    ensures d == c || ('A' <= c <= 'Z') || ('А' <= c <= 'Я') || c == 'Ё'
    ensures !('A' <= d <= 'Z') && !('А' <= d <= 'Я') && d != 'Ё'
  {
    if 'A' <= c <= 'Z' then (c as int + 32) as char
    else if 'А' <= c <= 'Я' then (c as int + 32) as char
    else if c == 'Ё' then 'ё'
    else c
  }

  /** `String.prototype.toLowerCase`, restricted to the capitals
      `LowerChar` maps. */
  function ToLower(s: string): (r: string)
    ensures |r| == |s|
    ensures forall i :: 0 <= i < |s| ==> r[i] == LowerChar(s[i])
  {
    seq(|s|, i requires 0 <= i < |s| => LowerChar(s[i]))
  }

  /** Lowering twice is lowering once. */
  lemma ToLowerIdempotent(s: string)
    ensures ToLower(ToLower(s)) == ToLower(s)
  {
  }

  /** `Array.prototype.join(sep)`. */
  function Join(parts: seq<string>, sep: string): string {
    if |parts| == 0 then ""
    else if |parts| == 1 then parts[0]
    else parts[0] + sep + Join(parts[1..], sep)
  }

  /** `"s"`: a JQL double-quoted literal. */
  function Quote(s: string): string {
    "\"" + s + "\""
  }

  /** Applies `Quote` to every element, keeping order. */
  function QuoteAll(xs: seq<string>): (r: seq<string>)
    ensures |r| == |xs|
    ensures forall i :: 0 <= i < |xs| ==> r[i] == Quote(xs[i])
  {
    seq(|xs|, i requires 0 <= i < |xs| => Quote(xs[i]))
  }

  /** `QuotedJoin` for whatever list is at hand: nothing is claimed for the
      empty one. */
  lemma QuotedJoinIfAny(xs: seq<string>)
    ensures |xs| > 0 ==> Quote(Join(xs, "\", \"")) == Join(QuoteAll(xs), ", ")
  {
    if |xs| > 0 {
      QuotedJoin(xs);
    }
  }

  /** The template `("${xs.join('", "')}")` and the list of individually
      quoted values joined with `, ` are the same text, for any non-empty
      list. */
  lemma {:induction false} QuotedJoin(xs: seq<string>)
    requires |xs| > 0
    ensures Quote(Join(xs, "\", \"")) == Join(QuoteAll(xs), ", ")
    decreases |xs|
  {
    if |xs| > 1 {
      QuotedJoin(xs[1..]);
      assert QuoteAll(xs)[1..] == QuoteAll(xs[1..]);
      calc {
        Quote(Join(xs, "\", \""));
        "\"" + (xs[0] + "\", \"" + Join(xs[1..], "\", \"")) + "\"";
        ("\"" + xs[0] + "\"") + ", " + ("\"" + Join(xs[1..], "\", \"") + "\"");
        Quote(xs[0]) + ", " + Join(QuoteAll(xs[1..]), ", ");
        Join(QuoteAll(xs), ", ");
      }
    }
  }

  // ---- Splitting a comma-separated list back into its items ----

  /** Index of the first `c` in `s`. */
  function IndexOf(s: string, c: char): (i: nat)
    requires c in s
    ensures i < |s| && s[i] == c && c !in s[..i]
  {
    if s[0] == c then 0 else 1 + IndexOf(s[1..], c)
  }

  /** The first `c` in `p + r` is the first `c` of `r` when `p` has none. */
  lemma {:induction false} IndexOfAfter(p: string, r: string, c: char)
    requires c !in p && c in r
    ensures c in p + r && IndexOf(p + r, c) == |p| + IndexOf(r, c)
    decreases |p|
  {
    assert (p + r)[|p| + IndexOf(r, c)] == c;
    if |p| > 0 {
      assert (p + r)[1..] == p[1..] + r;
      IndexOfAfter(p[1..], r, c);
    }
  }

  /** Drops one leading space. */
  function DropSpace(s: string): string {
    if |s| > 0 && s[0] == ' ' then s[1..] else s
  }

  /** Splits a `, `-separated list at each comma (inverse of `Join(_, ", ")`). */
  function SplitList(s: string): seq<string>
    decreases |s|
  {
    if ',' !in s then [s]
    else
      var i := IndexOf(s, ',');
      [s[..i]] + SplitList(DropSpace(s[i + 1..]))
  }

  /** Splitting at the first comma: the text before it, then the split of
      the rest after `, `. */
  lemma SplitStep(head: string, rest: string)
    requires ',' !in head
    ensures SplitList(head + ", " + rest) == [head] + SplitList(rest)
  {
    var s := head + ", " + rest;
    assert s == head + (", " + rest);
    IndexOfAfter(head, ", " + rest, ',');
    var i := IndexOf(s, ',');
    assert i == |head|;
    assert s[..i] == head;
    assert s[i + 1..] == " " + rest;
    assert DropSpace(s[i + 1..]) == rest;
  }

  /** Splitting a joined list gives back its items, provided no item
      contains a comma. */
  lemma {:induction false} SplitJoin(parts: seq<string>)
    requires |parts| > 0
    requires forall p :: p in parts ==> ',' !in p
    ensures SplitList(Join(parts, ", ")) == parts
    decreases |parts|
  {
    if |parts| == 1 {
      assert ',' !in parts[0];
    } else {
      assert forall p :: p in parts[1..] ==> p in parts;
      SplitJoin(parts[1..]);
      SplitJoinCons(parts);
    }
  }

  /** One step of `SplitJoin`: the first item, then the rest. */
  lemma SplitJoinCons(parts: seq<string>)
    requires |parts| > 1 && ',' !in parts[0]
    requires SplitList(Join(parts[1..], ", ")) == parts[1..]
    ensures SplitList(Join(parts, ", ")) == parts
  {
    var rest := Join(parts[1..], ", ");
    assert Join(parts, ", ") == parts[0] + ", " + rest;
    SplitStep(parts[0], rest);
    assert parts == [parts[0]] + parts[1..];
  }

  // ---- Decimal numbers ----

  /** The decimal digit for `d`. */
  function Digit(d: nat): char
    requires d < 10
  {
    "0123456789"[d]
  }

  /** The value of a decimal digit character. */
  function DigitValue(c: char): nat {
    if '0' <= c <= '9' then c as int - '0' as int else 0
  }

  predicate IsDigit(c: char) {
    '0' <= c <= '9'
  }

  predicate AllDigits(s: string) {
    forall i :: 0 <= i < |s| ==> IsDigit(s[i])
  }

  /** `String(n)` for a non-negative integer: its decimal digits. */
  function NatToString(n: nat): (s: string)
    ensures |s| > 0 && AllDigits(s)
  {
    if n < 10 then [Digit(n)] else NatToString(n / 10) + [Digit(n % 10)]
  }

  /** `String(i)` for any integer. */
  function IntToString(i: int): string {
    if i < 0 then "-" + NatToString(-i) else NatToString(i)
  }

  /** The value of a string of decimal digits. */
  function ParseNat(s: string): nat {
    if |s| == 0 then 0 else 10 * ParseNat(s[..|s| - 1]) + DigitValue(s[|s| - 1])
  }

  /** Printing then parsing a natural number is the identity. */
  lemma {:induction false} ParseNatToString(n: nat)
    ensures ParseNat(NatToString(n)) == n
  {
    var s := NatToString(n);
    if n >= 10 {
      ParseNatToString(n / 10);
      assert s[..|s| - 1] == NatToString(n / 10);
    }
  }

  /** Plain lexicographic order on character codes (the order
      `localeCompare` gives on ISO-8601 timestamps). */
  function StrLess(a: string, b: string): bool
    decreases |a|
  {
    if |a| == 0 then |b| > 0
    else |b| > 0 && (a[0] < b[0] || (a[0] == b[0] && StrLess(a[1..], b[1..])))
  }

  lemma {:induction false} StrLessIrreflexive(a: string)
    ensures !StrLess(a, a)
    decreases |a|
  {
    if |a| > 0 {
      StrLessIrreflexive(a[1..]);
    }
  }

  lemma {:induction false} StrLessTransitive(a: string, b: string, c: string)
    requires StrLess(a, b) && StrLess(b, c)
    ensures StrLess(a, c)
    decreases |a|
  {
    if |a| > 0 && a[0] == b[0] && b[0] == c[0] {
      StrLessTransitive(a[1..], b[1..], c[1..]);
    }
  }

  /** Any two strings are ordered one way or the other, or equal. */
  lemma {:induction false} StrLessTotal(a: string, b: string)
    ensures StrLess(a, b) || a == b || StrLess(b, a)
    decreases |a|
  {
    if |a| > 0 && |b| > 0 && a[0] == b[0] {
      StrLessTotal(a[1..], b[1..]);
      if a[1..] == b[1..] {
        assert a == [a[0]] + a[1..] && b == [b[0]] + b[1..];
      }
    }
  }
}

=== FILE: tracker.dfy ===
/** The records the dashboard reads from the issue tracker, reduced to the
    fields the metrics and reports use (src/shared/api/jira.ts). Timestamps
    are milliseconds of local time; calendar days are whole day numbers
    counted from 1970-01-01. An empty string stands for a field the payload
    leaves out wherever the source tests that field with `||`, because
    JavaScript treats `""` and a missing value alike there. */
module Tracker {
  import opened Outcomes

  /** Milliseconds in a day. */
  const DayMs: int := 86_400_000

  /** `status.statusCategory.key`: the tracker's three status categories,
      plus `NoCategory` for a payload without one. */
  datatype Category = New | Indeterminate | Done | NoCategory

  /** One issue of a search result. */
  datatype Issue = Issue(
    id: string,
    key: string,
    summary: string,
    statusName: string,        // `status.name`; "" when absent
    category: Category,        // `status.statusCategory.key`
    assignee: Option<string>,  // `assignee.emailAddress`
    created: int,              // `created`, ms
    resolved: Option<int>,     // `resolutiondate`, ms; None when null
    labels: seq<string>,
    storyPoints: Option<int>)  // `customfield_10016` when it holds a number

  /** One time-tracking entry of an issue. */
  datatype Worklog = Worklog(
    authorEmail: string,       // `author.emailAddress`; "" when absent
    started: int,              // ms
    timeSpentSeconds: int)

  /** A sprint as the agile endpoints return it. */
  datatype Sprint = Sprint(
    id: int,
    name: string,
    state: string,
    startDate: string,         // ISO-8601 text; "" when absent
    endDate: string,
    completeDate: string,
    goal: string)

  datatype BoardKind = Scrum | Kanban | Simple

  /** A board of the agile API. */
  datatype Board = Board(id: int, name: string, kind: BoardKind)

  /** The day a timestamp falls on (floor division). */
  function DayOf(t: int): int {
    t / DayMs
  }

  /** Midnight at the start of day `d`. */
  function StartOfDay(d: int): int {
    d * DayMs
  }

  /** The last millisecond of day `d` (`setHours(23, 59, 59, 999)`). */
  function EndOfDay(d: int): int {
    d * DayMs + DayMs - 1
  }

  /** A timestamp lies within its day's bounds. */
  lemma DayBounds(t: int)
    ensures StartOfDay(DayOf(t)) <= t <= EndOfDay(DayOf(t))
  {
  }
}

=== FILE: weekly_report.dfy ===
/** The weekly report (src/features/reports/lib/weekly-report.ts): the
    reporting window, the completed and created filters, the time logged
    in the window, the duration formatter, and the report's sections and
    progress calls. The markdown text is represented by its sections. */
module WeeklyReport {
  import opened Outcomes
  import opened Tracker
  import opened Collections
  import opened Text
  import opened JiraClient
  import opened ReportKit
  import JiraConstants

  // ---------------------------------------------------------------------
  // Window

  /** The reporting window in milliseconds, both ends included. */
  datatype Window = Window(from: int, to: int)

  /** A date filter that is set: present and not empty. */
  predicate IsSet(date: Option<string>) {
    date.Some? && date.value != ""
  }

  /** The window: from midnight of `dateFrom` to the end of `dateTo` (or of
      today) when a start date is set; otherwise from midnight seven days
      ago to the end of today. `parseDay` turns a date string into its day
      number. */
  function ReportWindow(filters: Option<ReportFilters>, today: int, parseDay: string -> int): (w: Window)
    ensures w.from % DayMs == 0 && (w.to + 1) % DayMs == 0
    ensures filters.Some? && IsSet(filters.value.dateFrom) ==>
      && w.from == StartOfDay(parseDay(filters.value.dateFrom.value))
      && w.to == EndOfDay(if IsSet(filters.value.dateTo) then parseDay(filters.value.dateTo.value) else today)
    ensures !(filters.Some? && IsSet(filters.value.dateFrom)) ==>
      w.from == StartOfDay(today - 7) && w.to == EndOfDay(today)
  {
    if filters.Some? && IsSet(filters.value.dateFrom) then
      var last := if IsSet(filters.value.dateTo) then parseDay(filters.value.dateTo.value) else today;
      Window(StartOfDay(parseDay(filters.value.dateFrom.value)), EndOfDay(last))
    else
      Window(StartOfDay(today - 7), EndOfDay(today))
  }

  /** Without a start date the window spans eight whole days and holds
      every moment of today. */
  lemma DefaultWindowSpan(filters: Option<ReportFilters>, today: int, parseDay: string -> int, now: int)
    requires !(filters.Some? && IsSet(filters.value.dateFrom))
    requires DayOf(now) == today
    ensures ReportWindow(filters, today, parseDay).to - ReportWindow(filters, today, parseDay).from + 1 == 8 * DayMs
    ensures ReportWindow(filters, today, parseDay).from <= now <= ReportWindow(filters, today, parseDay).to
  {
    DayBounds(now);
  }

  // ---------------------------------------------------------------------
  // Search and filters

  /** The search: the project's issues of the given users updated in the
      last seven days. */
  function WeeklyJql(projectKey: string, users: seq<string>): (q: string)
    ensures q == "project = " + projectKey + " AND " + JiraConstants.ActiveUsersFilter(users) + " AND updated >= -7d"
  {
    var assignees := "assignee IN (" + Quote(Join(users, "\", \"")) + ")";
    assert assignees == JiraConstants.ActiveUsersFilter(users);
    "project = " + projectKey + " AND " + assignees + " AND updated >= -7d"
  }

  /** A task counts as completed when its lower-cased status name contains
      `done`, `closed` or `готово`. */
  predicate IsCompleted(t: Issue) {
    var status := ToLower(t.statusName);
    Contains(status, "done") || Contains(status, "closed") || Contains(status, "готово")
  }

  /** A status whose lower-cased name is one of the three words, in any
      letter case, marks its task completed. */
  lemma CompletedWhenNamed(t: Issue)
    requires ToLower(t.statusName) in ["done", "closed", "готово"]
    ensures IsCompleted(t)
  {
    var status := ToLower(t.statusName);
    assert status[0..|status|] == status;
    assert OccursAt(status, status, 0);
  }

  /** Completion ignores letter case: lower-casing the status name first
      changes nothing. */
  lemma CompletedIgnoresCase(t: Issue)
    ensures IsCompleted(t.(statusName := ToLower(t.statusName))) == IsCompleted(t)
  {
    ToLowerIdempotent(t.statusName);
  }

  /** The completed tasks: each one found whose status names completion, in
      the order found and as often as it was found, and nothing else. */
  function Completed(tasks: seq<Issue>): (r: seq<Issue>)
    ensures |r| <= |tasks|
    ensures forall i :: 0 <= i < |r| ==> IsCompleted(r[i]) && r[i] in tasks
    ensures forall i :: 0 <= i < |tasks| && IsCompleted(tasks[i]) ==> tasks[i] in r
    ensures forall x :: multiset(r)[x] == if IsCompleted(x) then multiset(tasks)[x] else 0
    ensures |r| == |PassingSet(tasks, IsCompleted)|
  {
    FilterFacts(tasks, IsCompleted);
    Filter(tasks, IsCompleted)
  }

  /** Created at or after `from`. */
  function CreatedFrom(from: int): Issue -> bool {
    (t: Issue) => t.created >= from
  }

  /** The tasks created at or after the window start, in the order found
      and as often as found; the end of the window plays no part. */
  function CreatedSince(tasks: seq<Issue>, from: int): (r: seq<Issue>)
    ensures |r| <= |tasks|
    ensures forall i :: 0 <= i < |r| ==> r[i].created >= from && r[i] in tasks
    ensures forall i :: 0 <= i < |tasks| && tasks[i].created >= from ==> tasks[i] in r
    ensures forall x :: multiset(r)[x] == if x.created >= from then multiset(tasks)[x] else 0
    ensures |r| == |set i | 0 <= i < |tasks| && tasks[i].created >= from|
  {
    CreatedFromFacts(tasks, from);
    Filter(tasks, CreatedFrom(from))
  }

  /** `FilterFacts` for the creation test, written out on `created`. */
  lemma CreatedFromFacts(tasks: seq<Issue>, from: int)
    ensures forall x :: multiset(Filter(tasks, CreatedFrom(from)))[x] == if x.created >= from then multiset(tasks)[x] else 0
    ensures |Filter(tasks, CreatedFrom(from))| == |set i | 0 <= i < |tasks| && tasks[i].created >= from|
  {
    FilterFacts(tasks, CreatedFrom(from));
    assert PassingSet(tasks, CreatedFrom(from)) == set i | 0 <= i < |tasks| && tasks[i].created >= from;
  }

  /** The completed tasks are listed in the order found: the list of a run
      of tasks is the lists of its parts in turn, and one task is listed
      exactly when it is completed. */
  lemma CompletedInOrder(a: seq<Issue>, b: seq<Issue>, t: Issue)
    ensures Completed(a + b) == Completed(a) + Completed(b)
    ensures Completed([t]) == if IsCompleted(t) then [t] else []
  {
    FilterAppend(a, b, IsCompleted);
    FilterSingle(t, IsCompleted);
  }

  /** The recently created tasks are listed in the order found, each one
      exactly when it was created at or after `from`. */
  lemma CreatedSinceInOrder(from: int, a: seq<Issue>, b: seq<Issue>, t: Issue)
    ensures CreatedSince(a + b, from) == CreatedSince(a, from) + CreatedSince(b, from)
    ensures CreatedSince([t], from) == if t.created >= from then [t] else []
  {
    FilterAppend(a, b, CreatedFrom(from));
    FilterSingle(t, CreatedFrom(from));
  }

  // ---------------------------------------------------------------------
  // Logged time

  /** How many tasks have their worklogs read. */
  const ScanLimit: nat := 100

  /** The reference a task's worklogs are fetched by: its key, else its id. */
  function TaskRef(t: Issue): string {
    if t.key != "" then t.key else t.id
  }

  /** The worklogs of the tasks, task by task, as the endpoint gives them. */
  function LogsOf(tasks: seq<Issue>, endpoint: string -> Result<Option<seq<Worklog>>>): seq<Worklog>
    decreases |tasks|
  {
    if |tasks| == 0 then []
    else LogsOf(tasks[..|tasks| - 1], endpoint) + GetIssueWorklogs(endpoint, TaskRef(tasks[|tasks| - 1]))
  }

  /** A worklog counts when it started inside the window. */
  predicate Counted(w: Worklog, win: Window) {
    win.from <= w.started <= win.to
  }

  /** The seconds a worklog adds to the total. */
  function Share(w: Worklog, win: Window): int {
    if Counted(w, win) then w.timeSpentSeconds else 0
  }

  /** The seconds a worklog adds to user `u`: only a counted worklog whose
      author address is `u`, and never to the empty address. */
  function UserShare(w: Worklog, win: Window, u: string): int {
    if Counted(w, win) && u != "" && w.authorEmail == u then w.timeSpentSeconds else 0
  }

  /** Reference definition of `totalTime`. */
  function WindowTotal(logs: seq<Worklog>, win: Window): int
    decreases |logs|
  {
    if |logs| == 0 then 0 else WindowTotal(logs[..|logs| - 1], win) + Share(logs[|logs| - 1], win)
  }

  /** Reference definition of `userTime[u]`. */
  function UserTotal(logs: seq<Worklog>, win: Window, u: string): int
    decreases |logs|
  {
    if |logs| == 0 then 0 else UserTotal(logs[..|logs| - 1], win, u) + UserShare(logs[|logs| - 1], win, u)
  }

  /** One more worklog adds its share to the total and to each user. */
  lemma TotalsStep(logs: seq<Worklog>, w: Worklog, win: Window)
    ensures WindowTotal(logs + [w], win) == WindowTotal(logs, win) + Share(w, win)
    ensures forall u :: UserTotal(logs + [w], win, u) == UserTotal(logs, win, u) + UserShare(w, win, u)
  {
    assert (logs + [w])[..|logs|] == logs;
  }

  /** The next task's worklogs follow those of the tasks before it. */
  lemma LogsStep(tasks: seq<Issue>, i: nat, endpoint: string -> Result<Option<seq<Worklog>>>)
    requires i < |tasks|
    ensures LogsOf(tasks[..i + 1], endpoint) == LogsOf(tasks[..i], endpoint) + GetIssueWorklogs(endpoint, TaskRef(tasks[i]))
  {
    assert tasks[..i + 1][..i] == tasks[..i];
  }

  /** Every user starts at zero seconds. */
  method SeedUsers(users: seq<string>) returns (userTime: map<string, int>)
    ensures userTime.Keys == set u | u in users
    ensures forall u :: u in userTime ==> userTime[u] == 0
  {
    userTime := map[];
    var k := 0;
    while k < |users|
      invariant 0 <= k <= |users|
      invariant userTime.Keys == set u | u in users[..k]
      invariant forall u :: u in userTime ==> userTime[u] == 0
    {
      userTime := userTime[users[k] := 0];
      assert users[..k + 1] == users[..k] + [users[k]];
      k := k + 1;
    }
    assert users[..|users|] == users;
  }

  /** Adds one worklog to the running figures: a counted worklog adds its
      seconds to the total and, when its author is a tracked user, to that
      user. */
  method AddLog(total0: int, userTime0: map<string, int>, done: seq<Worklog>, w: Worklog, win: Window)
    returns (total: int, userTime: map<string, int>)
    requires total0 == WindowTotal(done, win)
    requires forall u :: u in userTime0 ==> userTime0[u] == UserTotal(done, win, u)
    ensures userTime.Keys == userTime0.Keys
    ensures total == WindowTotal(done + [w], win)
    ensures forall u :: u in userTime ==> userTime[u] == UserTotal(done + [w], win, u)
  {
    TotalsStep(done, w, win);
    total, userTime := total0, userTime0;
    if Counted(w, win) {
      total := total + w.timeSpentSeconds;
      var email := w.authorEmail;
      if email != "" && email in userTime {
        userTime := userTime[email := userTime[email] + w.timeSpentSeconds];
      }
    }
  }

  /** Adds one task's worklogs to the running figures. */
  method AddLogs(total0: int, userTime0: map<string, int>, done: seq<Worklog>, logs: seq<Worklog>, win: Window)
    returns (total: int, userTime: map<string, int>)
    requires total0 == WindowTotal(done, win)
    requires forall u :: u in userTime0 ==> userTime0[u] == UserTotal(done, win, u)
    ensures userTime.Keys == userTime0.Keys
    ensures total == WindowTotal(done + logs, win)
    ensures forall u :: u in userTime ==> userTime[u] == UserTotal(done + logs, win, u)
  {
    total, userTime := total0, userTime0;
    var j := 0;
    assert done + logs[..0] == done;
    while j < |logs|
      invariant 0 <= j <= |logs|
      invariant userTime.Keys == userTime0.Keys
      invariant total == WindowTotal(done + logs[..j], win)
      invariant forall u :: u in userTime ==> userTime[u] == UserTotal(done + logs[..j], win, u)
    {
      total, userTime := AddLog(total, userTime, done + logs[..j], logs[j], win);
      assert done + logs[..j + 1] == (done + logs[..j]) + [logs[j]];
      j := j + 1;
    }
    assert logs[..|logs|] == logs;
  }

  /** The time loop: every user starts at 0; the worklogs of the first 100
      tasks are read task by task; a worklog started inside the window adds
      its seconds to the total and, when its author is one of the users, to
      that user. */
  method AggregateWorklogs(tasks: seq<Issue>, users: seq<string>, endpoint: string -> Result<Option<seq<Worklog>>>, win: Window)
    returns (total: int, userTime: map<string, int>)
    ensures total == WindowTotal(LogsOf(Take(tasks, ScanLimit), endpoint), win)
    ensures userTime.Keys == set u | u in users
    ensures forall u :: u in users ==> userTime[u] == UserTotal(LogsOf(Take(tasks, ScanLimit), endpoint), win, u)
  {
    userTime := SeedUsers(users);
    var scanned := Take(tasks, ScanLimit);
    total := 0;
    var i := 0;
    while i < |scanned|
      invariant 0 <= i <= |scanned|
      invariant userTime.Keys == set u | u in users
      invariant total == WindowTotal(LogsOf(scanned[..i], endpoint), win)
      invariant forall u :: u in userTime ==> userTime[u] == UserTotal(LogsOf(scanned[..i], endpoint), win, u)
    {
      LogsStep(scanned, i, endpoint);
      total, userTime := AddLogs(total, userTime, LogsOf(scanned[..i], endpoint),
                                 GetIssueWorklogs(endpoint, TaskRef(scanned[i])), win);
      i := i + 1;
    }
    assert scanned[..|scanned|] == scanned;
  }

  /** The time of every user in `users` added together. */
  function UsersTotal(users: seq<string>, logs: seq<Worklog>, win: Window): int {
    if |users| == 0 then 0 else UserTotal(logs, win, users[0]) + UsersTotal(users[1..], logs, win)
  }

  /** What one worklog adds to all of `users` together. */
  function Shares(users: seq<string>, w: Worklog, win: Window): int {
    if |users| == 0 then 0 else UserShare(w, win, users[0]) + Shares(users[1..], w, win)
  }

  lemma {:induction false} UsersTotalStep(users: seq<string>, logs: seq<Worklog>, w: Worklog, win: Window)
    ensures UsersTotal(users, logs + [w], win) == UsersTotal(users, logs, win) + Shares(users, w, win)
    decreases |users|
  {
    assert (logs + [w])[..|logs|] == logs;
    if |users| > 0 {
      UsersTotalStep(users[1..], logs, w, win);
    }
  }

  lemma {:induction false} SharesOfStranger(users: seq<string>, w: Worklog, win: Window)
    requires w.authorEmail !in users
    ensures Shares(users, w, win) == 0
    decreases |users|
  {
    if |users| > 0 {
      SharesOfStranger(users[1..], w, win);
    }
  }

  /** Among distinct users a worklog is credited at most once. */
  lemma {:induction false} SharesAtMostOnce(users: seq<string>, w: Worklog, win: Window)
    requires Distinct(users) && w.timeSpentSeconds >= 0
    ensures 0 <= Shares(users, w, win) <= Share(w, win)
    decreases |users|
  {
    if |users| > 0 {
      assert Distinct(users[1..]);
      if users[0] == w.authorEmail {
        assert forall i :: 0 <= i < |users[1..]| ==> users[1..][i] != users[0];
        SharesOfStranger(users[1..], w, win);
      } else {
        SharesAtMostOnce(users[1..], w, win);
      }
    }
  }

  /** With non-negative worklogs, the times of distinct users add up to at
      most the total. */
  lemma {:induction false} UsersWithinTotal(users: seq<string>, logs: seq<Worklog>, win: Window)
    requires Distinct(users)
    requires forall i :: 0 <= i < |logs| ==> logs[i].timeSpentSeconds >= 0
    ensures 0 <= UsersTotal(users, logs, win) <= WindowTotal(logs, win)
    decreases |logs|
  {
    if |logs| == 0 {
      UsersTotalEmpty(users, win);
    } else {
      var n := |logs| - 1;
      UsersWithinTotal(users, logs[..n], win);
      assert logs == logs[..n] + [logs[n]];
      UsersTotalStep(users, logs[..n], logs[n], win);
      SharesAtMostOnce(users, logs[n], win);
    }
  }

  lemma {:induction false} UsersTotalEmpty(users: seq<string>, win: Window)
    ensures UsersTotal(users, [], win) == 0
    decreases |users|
  {
    if |users| > 0 {
      UsersTotalEmpty(users[1..], win);
    }
  }

  /** A task whose worklog fetch fails adds no time. */
  lemma FailedFetchAddsNothing(tasks: seq<Issue>, t: Issue, endpoint: string -> Result<Option<seq<Worklog>>>)
    requires endpoint(TaskRef(t)).Err?
    ensures LogsOf(tasks + [t], endpoint) == LogsOf(tasks, endpoint)
  {
    assert (tasks + [t])[..|tasks|] == tasks;
  }

  // ---------------------------------------------------------------------
  // Durations

  /** JavaScript's `%` for a positive divisor: the remainder takes the sign
      of the dividend. */
  function JsRem(a: int, b: int): (r: int)
    requires b > 0
    ensures a >= 0 ==> r == a % b
    ensures -b < r < b
    ensures a < 0 ==> r <= 0 && (a - r) % b == 0
  {
    if a >= 0 then a % b
    else
      var q := (-a) / b;
      assert a - -((-a) % b) == b * -q;
      MultipleMod(b, -q);
      -((-a) % b)
  }

  lemma MultipleMod(b: int, q: int)
    requires b > 0
    ensures (b * q) % b == 0
  {
    ModUnique(b * q, b, q, 0);
  }

  lemma MulAtLeast(b: int, k: int)
    requires b > 0 && k >= 1
    ensures b * k >= b
  {
    assert b * k == b * (k - 1) + b;
  }

  /** Division leaves one quotient and one remainder. */
  lemma ModUnique(a: int, b: int, q: int, r: int)
    requires b > 0 && 0 <= r < b && a == b * q + r
    ensures a % b == r && a / b == q
  {
    var q', r' := a / b, a % b;
    assert b * (q' - q) == r - r' by {
      assert b * q' + r' == b * q + r;
      assert b * (q' - q) == b * q' - b * q;
    }
    if q' > q {
      MulAtLeast(b, q' - q);
    } else if q' < q {
      MulAtLeast(b, q - q');
    }
  }

  /** `formatTime`: whole hours and the minutes left over, as `Xч Yм`, or
      `Yм` when there is no whole hour. Hours and minutes round down. */
  function FormatTime(seconds: int): (t: string)
    ensures |t| > 0 && t[|t| - 1] == 'м'
  {
    ShowDuration(seconds / 3600, JsRem(seconds, 3600) / 60)
  }

  /** The text for `h` whole hours and `m` minutes: the hours are left out
      unless positive. */
  function ShowDuration(h: int, m: int): (t: string)
    ensures |t| > 0 && t[|t| - 1] == 'м'
  {
    if h > 0 then IntToString(h) + "ч " + IntToString(m) + "м" else IntToString(m) + "м"
  }

  /** Reads `Xч Yм` or `Yм` back into its hour and minute figures, the
      hours being 0 when the text has no hour part. */
  function ParseClock(t: string): Option<(int, int)> {
    if |t| == 0 || t[|t| - 1] != 'м' then None
    else if 'ч' in t[..|t| - 1] then
      var body, k := t[..|t| - 1], IndexOf(t[..|t| - 1], 'ч');
      ParseHoursPart(body[..k], body[k + 1..])
    else ParseMinutesPart(t[..|t| - 1])
  }

  /** `X` before the hour mark, ` Y` after it. */
  function ParseHoursPart(hours: string, rest: string): Option<(int, int)> {
    if |hours| > 0 && AllDigits(hours) && |rest| > 1 && rest[0] == ' ' && AllDigits(rest[1..]) then
      Some((ParseNat(hours), ParseNat(rest[1..])))
    else None
  }

  /** `Y` alone. */
  function ParseMinutesPart(body: string): Option<(int, int)> {
    if |body| > 0 && AllDigits(body) then Some((0, ParseNat(body))) else None
  }

  /** Reads `Xч Yм` or `Yм` back into seconds. */
  function ParseDuration(t: string): Option<int> {
    match ParseClock(t)
    case Some((h, m)) => Some(h * 3600 + m * 60)
    case None => None
  }

  /** No digit is the hour mark. */
  lemma HourMarkNotDigit(s: string)
    requires AllDigits(s)
    ensures 'ч' !in s
  {
  }

  /** Whole hours and leftover whole minutes give the seconds rounded down
      to whole minutes. */
  lemma MinuteRounding(seconds: nat)
    ensures (seconds / 3600) * 3600 + ((seconds % 3600) / 60) * 60 == seconds - seconds % 60
  {
    var h, r1 := seconds / 3600, seconds % 3600;
    var m, r2 := r1 / 60, r1 % 60;
    assert seconds == 60 * (60 * h + m) + r2;
    ModUnique(seconds, 60, 60 * h + m, r2);
  }

  lemma ParseHoursMinutes(hs: string, ms: string)
    requires |hs| > 0 && AllDigits(hs) && |ms| > 0 && AllDigits(ms)
    ensures ParseClock(hs + "ч " + ms + "м") == Some((ParseNat(hs), ParseNat(ms)))
  {
    SplitAtHourMark(hs, ms);
    HoursPartOf(hs, ms);
  }

  lemma SplitAtHourMark(hs: string, ms: string)
    requires AllDigits(hs)
    ensures ParseClock(hs + "ч " + ms + "м") == ParseHoursPart(hs, " " + ms)
  {
    var t := hs + "ч " + ms + "м";
    assert t[..|t| - 1] == hs + "ч " + ms;
    HourMarkAt(hs, ms);
  }

  /** In `Xч Y` with digits `X`, the first hour mark follows `X`. */
  lemma HourMarkAt(hs: string, ms: string)
    requires AllDigits(hs)
    ensures var body := hs + "ч " + ms;
      && 'ч' in body && IndexOf(body, 'ч') == |hs|
      && body[..|hs|] == hs && body[|hs| + 1..] == " " + ms
  {
    var body := hs + "ч " + ms;
    HourMarkNotDigit(hs);
    assert body == hs + ("ч " + ms);
    IndexOfAfter(hs, "ч " + ms, 'ч');
    assert body[..|hs|] == hs;
    assert body[|hs| + 1..] == " " + ms;
  }

  lemma HoursPartOf(hs: string, ms: string)
    requires |hs| > 0 && AllDigits(hs) && |ms| > 0 && AllDigits(ms)
    ensures ParseHoursPart(hs, " " + ms) == Some((ParseNat(hs), ParseNat(ms)))
  {
    assert (" " + ms)[1..] == ms;
  }

  lemma ParseMinutes(ms: string)
    requires |ms| > 0 && AllDigits(ms)
    ensures ParseClock(ms + "м") == Some((0, ParseNat(ms)))
  {
    var t := ms + "м";
    assert t[..|t| - 1] == ms;
    HourMarkNotDigit(ms);
  }

  /** Whole hours and minutes, printed, read back as their seconds. */
  lemma ShowReadBack(h: nat, m: nat)
    ensures ParseClock(ShowDuration(h, m)) == Some((h, m))
    ensures ParseDuration(ShowDuration(h, m)) == Some(h * 3600 + m * 60)
  {
    ShowFieldsReadBack(h, m);
  }

  /** Whole hours and minutes, printed, read back as those figures. */
  lemma ShowFieldsReadBack(h: nat, m: nat)
    ensures ParseClock(ShowDuration(h, m)) == Some((h, m))
  {
    ParseNatToString(m);
    if h > 0 {
      ParseNatToString(h);
      ParseHoursMinutes(NatToString(h), NatToString(m));
    } else {
      ParseMinutes(NatToString(m));
    }
  }

  /** The two numbers `formatTime` prints for a non-negative duration. */
  lemma FormatTimeParts(seconds: nat) returns (h: nat, m: nat)
    ensures h == seconds / 3600 && m == (seconds % 3600) / 60
    ensures h * 3600 + m * 60 == seconds - seconds % 60
    ensures FormatTime(seconds) == ShowDuration(h, m)
  {
    h, m := seconds / 3600, (seconds % 3600) / 60;
    assert JsRem(seconds, 3600) == seconds % 3600;
    MinuteRounding(seconds);
  }

  /** For a non-negative number of seconds, the formatted duration reads
      back as the seconds rounded down to whole minutes. */
  lemma FormatTimeRoundTrip(seconds: nat)
    ensures ParseDuration(FormatTime(seconds)) == Some(seconds - seconds % 60)
  {
    var h, m := FormatTimeParts(seconds);
    calc {
      ParseDuration(FormatTime(seconds));
      ParseDuration(ShowDuration(h, m));
      { ShowReadBack(h, m); }
      Some(h * 3600 + m * 60);
      Some(seconds - seconds % 60);
    }
  }

  /** What the formatted duration shows: an hour part exactly when there is
      a whole hour, and figures `h` and `m` with `m` below 60 that account
      for the seconds down to the last whole minute. So no duration prints
      as `0ч 5м` or as `61м`. */
  lemma FormatTimeFields(seconds: nat)
    ensures ('ч' in FormatTime(seconds)) <==> seconds >= 3600
    ensures ParseClock(FormatTime(seconds)).Some?
    ensures var (h, m) := ParseClock(FormatTime(seconds)).value;
      && (h > 0 <==> seconds >= 3600)
      && 0 <= m < 60
      && h * 3600 + m * 60 <= seconds < h * 3600 + m * 60 + 60
  {
    var h, m := FormatTimeParts(seconds);
    ShowReadBack(h, m);
    if h > 0 {
      assert FormatTime(seconds)[|NatToString(h)|] == 'ч';
    } else {
      HourMarkNotDigit(NatToString(m));
      assert FormatTime(seconds) == NatToString(m) + "м";
    }
  }

  /** Worked values: 0 and 59 seconds print as `0м`, 3661 as `1ч 1м`. */
  lemma FormatTimeExamples()
    ensures FormatTime(0) == "0м"
    ensures FormatTime(59) == "0м"
    ensures FormatTime(3661) == "1ч 1м"
  {
    assert NatToString(0) == "0";
    assert NatToString(1) == "1";
    assert JsRem(3661, 3600) == 61;
  }

  // ---------------------------------------------------------------------
  // The report

  /** How many completed tasks are listed. */
  const CompletedShown: nat := 15

  /** One part of the report, in the order they are written. */
  datatype Section =
    | Heading(projectKey: string, window: Window)
    | Statistics(updated: nat, completed: nat, created: nat, timeSpent: string)
    | Members(rows: seq<(string, string)>)
    | CompletedTasks(rows: seq<(string, string)>)
    | Recommendations(text: string)
    | Footer

  /** A task as a list row: its key and summary. */
  function TaskRow(t: Issue): (string, string) {
    (t.key, t.summary)
  }

  function TaskRows(tasks: seq<Issue>): (rows: seq<(string, string)>)
    ensures |rows| == |tasks|
    ensures forall i :: 0 <= i < |tasks| ==> rows[i] == TaskRow(tasks[i])
  {
    seq(|tasks|, i requires 0 <= i < |tasks| => TaskRow(tasks[i]))
  }

  /** One row per user key of `userTime`, in the order the keys were first
      set. */
  function MemberRows(users: seq<string>, userTime: map<string, int>): (rows: seq<(string, string)>)
    requires forall u :: u in users ==> u in userTime
    ensures |rows| == |Dedup(users)|
    ensures forall i :: 0 <= i < |rows| ==> rows[i] == (Dedup(users)[i], FormatTime(userTime[Dedup(users)[i]]))
  {
    var keys := Dedup(users);
    seq(|keys|, i requires 0 <= i < |keys| => (keys[i], FormatTime(userTime[keys[i]])))
  }

  /** Every user has exactly one row, each with that user's time, and the
      rows follow the order in which the users were first set. */
  lemma MemberRowsOrder(users: seq<string>, userTime: map<string, int>)
    requires forall u :: u in users ==> u in userTime
    ensures var rows := MemberRows(users, userTime);
      && (forall i, j :: 0 <= i < j < |rows| ==> rows[i].0 != rows[j].0)
      && (forall k :: 0 <= k < |users| ==> exists i :: 0 <= i < |rows| && rows[i] == (users[k], FormatTime(userTime[users[k]])))
      && (forall i, j :: 0 <= i < j < |rows| ==>
            exists a :: 0 <= a < |users| && users[a] == rows[i].0 && rows[j].0 !in users[..a])
  {
    var keys := Dedup(users);
    var rows := MemberRows(users, userTime);
    DedupOrder(users);
    forall i, j | 0 <= i < j < |rows| ensures rows[i].0 != rows[j].0 {
      assert rows[i].0 == keys[i] && rows[j].0 == keys[j];
    }
    forall i, j | 0 <= i < j < |rows|
      ensures exists a :: 0 <= a < |users| && users[a] == rows[i].0 && rows[j].0 !in users[..a]
    {
      assert rows[i].0 == keys[i] && rows[j].0 == keys[j];
    }
    forall k | 0 <= k < |users| ensures exists i :: 0 <= i < |rows| && rows[i] == (users[k], FormatTime(userTime[users[k]])) {
      var i :| 0 <= i < |keys| && keys[i] == users[k];
      assert rows[i] == (users[k], FormatTime(userTime[users[k]]));
    }
  }

  /** The completed list, when something was completed: its first 15. */
  function CompletedPart(completed: seq<Issue>): (part: seq<Section>)
    ensures |part| == if |completed| > 0 then 1 else 0
    ensures forall i :: 0 <= i < |part| ==>
      part[i].CompletedTasks? && 0 < |part[i].rows| <= CompletedShown && part[i].rows == TaskRows(Take(completed, CompletedShown))
  {
    if |completed| > 0 then [CompletedTasks(TaskRows(Take(completed, CompletedShown)))] else []
  }

  /** The advice section, when there is advice. */
  function AdvicePart(advice: string): (part: seq<Section>)
    ensures |part| == if advice != "" then 1 else 0
    ensures forall i :: 0 <= i < |part| ==> part[i] == Recommendations(advice)
  {
    if advice != "" then [Recommendations(advice)] else []
  }

  /** The sections of a report, given its inputs and figures. */
  function Sections(projectKey: string, win: Window, tasks: seq<Issue>, users: seq<string>,
                    total: int, userTime: map<string, int>, advice: string): (s: seq<Section>)
    requires forall u :: u in users ==> u in userTime
    ensures |s| == 4 + |CompletedPart(Completed(tasks))| + |AdvicePart(advice)|
    ensures s[0] == Heading(projectKey, win)
    ensures s[1] == Statistics(|tasks|, |Completed(tasks)|, |CreatedSince(tasks, win.from)|, FormatTime(total))
    ensures s[2] == Members(MemberRows(users, userTime))
    ensures s[3..|s| - 1] == CompletedPart(Completed(tasks)) + AdvicePart(advice)
    ensures s[|s| - 1] == Footer
  {
    var head := [Heading(projectKey, win),
                 Statistics(|tasks|, |Completed(tasks)|, |CreatedSince(tasks, win.from)|, FormatTime(total)),
                 Members(MemberRows(users, userTime))];
    var middle := CompletedPart(Completed(tasks)) + AdvicePart(advice);
    var s := head + middle + [Footer];
    assert s[3..|s| - 1] == middle;
    s
  }

  /** A report laid out as three fixed sections, the completed list `c`,
      the advice `a` and the footer has a completed list or advice exactly
      when `c` or `a` is non-empty, and its completed lists are those of `c`. */
  lemma MiddleKinds(s: seq<Section>, c: seq<Section>, a: seq<Section>)
    requires |s| == 4 + |c| + |a|
    requires s[0].Heading? && s[1].Statistics? && s[2].Members? && s[|s| - 1].Footer?
    requires s[3..|s| - 1] == c + a
    requires forall i :: 0 <= i < |c| ==> c[i].CompletedTasks?
    requires forall i :: 0 <= i < |a| ==> a[i].Recommendations?
    ensures (exists i :: 0 <= i < |s| && s[i].CompletedTasks?) <==> |c| > 0
    ensures forall i :: 0 <= i < |s| && s[i].CompletedTasks? ==> s[i] in c
    ensures (exists i :: 0 <= i < |s| && s[i].Recommendations?) <==> |a| > 0
  {
    forall i | 3 <= i < |s| - 1
      ensures s[i] == (c + a)[i - 3]
    {
      assert s[3..|s| - 1][i - 3] == s[i];
    }
    if |c| > 0 {
      assert s[3] == c[0];
    }
    if |a| > 0 {
      assert s[3 + |c|] == a[0];
    }
  }

  /** The report's layout: the completed list only when something was
      completed, and then with at most 15 rows; the advice only when there
      is some. */
  lemma SectionsShape(projectKey: string, win: Window, tasks: seq<Issue>, users: seq<string>,
                      total: int, userTime: map<string, int>, advice: string)
    requires forall u :: u in users ==> u in userTime
    ensures var s := Sections(projectKey, win, tasks, users, total, userTime, advice);
      && ((exists i :: 0 <= i < |s| && s[i].CompletedTasks?) <==> |Completed(tasks)| > 0)
      && (forall i :: 0 <= i < |s| && s[i].CompletedTasks? ==> 0 < |s[i].rows| <= CompletedShown)
      && ((exists i :: 0 <= i < |s| && s[i].Recommendations?) <==> advice != "")
  {
    MiddleKinds(Sections(projectKey, win, tasks, users, total, userTime, advice),
                CompletedPart(Completed(tasks)), AdvicePart(advice));
  }

  /** Reference definition of `userTime`: every user mapped to their time. */
  function UserTimes(users: seq<string>, logs: seq<Worklog>, win: Window): (userTime: map<string, int>)
    ensures forall u :: u in users ==> u in userTime
  {
    map u | u in users :: UserTotal(logs, win, u)
  }

  const LoadingMessage: string := "Загрузка задач..."

  /** `generateWeeklyReport`. When the search fails the error propagates
      after the first progress call; otherwise the report is built from all
      the tasks found, with the time logged on the first 100 of them. */
  method GenerateWeeklyReport(server: SearchServer, worklogs: string -> Result<Option<seq<Worklog>>>,
                              filters: Option<ReportFilters>, today: int, parseDay: string -> int,
                              llm: LlmOutcome, ghost bound: int)
    returns (progress: seq<Step>, report: Result<seq<Section>>)
    requires HonoursPageSize(server, WeeklyJql(EffectiveProject(filters), EffectiveUsers(filters)), bound)
    ensures var found := GetAllIssues(server, WeeklyJql(EffectiveProject(filters), EffectiveUsers(filters)), bound);
      && (report.Err? <==> found.Err?)
      && (report.Err? ==> report.error == found.error && progress == [Step(10, LoadingMessage)])
      && (report.Ok? ==> progress == FullProgress(LoadingMessage, "Анализ статистики...", "Анализ worklogs...",
                                                  "Анализ от LLM...", "Генерация отчета...", llm))
    ensures report.Ok? ==>
      var tasks := GetAllIssues(server, WeeklyJql(EffectiveProject(filters), EffectiveUsers(filters)), bound).value;
      var win := ReportWindow(filters, today, parseDay);
      var logs := LogsOf(Take(tasks, ScanLimit), worklogs);
      report.value == Sections(EffectiveProject(filters), win, tasks, EffectiveUsers(filters),
                               WindowTotal(logs, win), UserTimes(EffectiveUsers(filters), logs, win), Advice(llm))
  {
    var users := EffectiveUsers(filters);
    var projectKey := EffectiveProject(filters);
    var win := ReportWindow(filters, today, parseDay);
    progress := [Step(10, LoadingMessage)];
    var found := GetAllIssues(server, WeeklyJql(projectKey, users), bound);
    if found.Err? {
      report := Err(found.error);
      return;
    }
    var tasks := found.value;
    var total, userTime := AggregateWorklogs(tasks, users, worklogs, win);
    assert userTime == UserTimes(users, LogsOf(Take(tasks, ScanLimit), worklogs), win);
    progress := FullProgress(LoadingMessage, "Анализ статистики...", "Анализ worklogs...",
                             "Анализ от LLM...", "Генерация отчета...", llm);
    report := Ok(Sections(projectKey, win, tasks, users, total, userTime, Advice(llm)));
  }
}
